=== FILE: README.md ===
# Windowed tree-sequence statistics

A Dafny model of the reference algorithms in tskit's Python test suite for
"general statistics" on a tree sequence. Each statistic has two versions that
the tests compare:

- a naive version, which rebuilds every tree from scratch with a postorder pass;
- an incremental version, which walks the edge diffs between adjacent trees and
  keeps subtree sums up to date.

Four statistics are covered: branch, site, node and the branch sample frequency
spectrum. Two window helpers are modelled too: `windowed_tree_stat` and
`windowed_sitewise_stat`. So are `upper_tri_to_matrix` and the repeated-sample
check of `sample_count_stats`.

For the branch, site and node statistics the model proves two things:

- each version computes a declarative statistic, stated in the
  model's own terms;
- when the naive and incremental versions agree, and when they do not (the
  `Compare…` methods and the lemmas next to them).

For the spectrum only the incremental version is modelled. It is proved to be
one windowed branch statistic per bin.

## Conventions

- A tree sequence is a list of `TreeDiff(left, right, edgesOut, edgesIn)`
  records, one per tree, as `ts.edge_diffs()` yields them.
- The forest is a parent array with `NULL = -1`, starting with no edges. Node
  times are integers, and a parent is strictly older than its child.
- `sample_weights` is given per node. A node that is not a sample has weight 0,
  which is what `state[ts.samples()] = sample_weights` produces.
- Positions are real numbers. Weights and subtree sums are integers. The summary
  function is an arbitrary `f: int -> real`.
- The state dimension K and the result dimension M are one. The edge walks,
  the subtree sums and the window sweeps act entry by entry, so for them each
  state entry behaves as the scalar model does. A summary function sees a
  single state entry.
- `tree.nodes()` lists only the trees of the forest that hold a sample. The
  naive versions therefore see no branch of a component without samples. The
  incremental branch statistic counts every branch. The two agree when
  node_summary of an empty state is 0, or when no such branch exists.
- Results are windows × nodes matrices, `seq<seq<real>>`. For the spectrum they
  are windows × bins.

## Modules

| Module | What it models |
|---|---|
| `Sums` | Finite sums and the lemmas about them. |
| `Forest` | Parent arrays, root paths and subtree sums, plus the edge walks that keep subtree sums right. |
| `TreeSeq` | Edge diffs, the sequence of trees they produce, and the tree breakpoints. |
| `Windows` | The windowed integral of a per-tree value. `windowed_tree_stat`. The window sweep of `branch_general_stat`. |
| `Postorder` | The naive postorder accumulation of subtree sums. |
| `Alleles` | The allele bookkeeping of one site (`allele_state` / `state_map`). |
| `Sites` | `windowed_sitewise_stat`, `site_general_stat` and the naive site statistic. |
| `Branch` | `branch_general_stat` and the naive branch statistic. |
| `Sfs` | `branch_sample_frequency_spectrum`, as one branch statistic per bin. |
| `Nodes` | `node_general_stat`, with its lazy per-node accumulation, and the naive node statistic. |
| `Matrix` | `upper_tri_to_matrix`. |
| `SampleSets` | The repeated-element check of `sample_count_stats`. |

## Model

| member | source | states |
|---|---|---|
| Forest.SumWeights | python/tests/test_tree_stats.py:217 | The total weight is the sum of the per-node weights. |
| Forest.EmptyForestSums | python/tests/test_tree_stats.py:215-216 | With every parent -1, the initial state (the weights) is every node's subtree sum. |
| Forest.RemoveEdge | python/tests/test_tree_stats.py:358-363 | Removing an edge subtracts the child's state from exactly the nodes on the path from the edge's parent to its root, then detaches the child. |
| Forest.InsertEdge | python/tests/test_tree_stats.py:364-369 | Inserting an edge attaches the child, then adds the child's state to exactly the nodes on the parent's root path. |
| Forest.RemoveEdgeKeepsSums | python/tests/test_tree_stats.py:358-363 | If the state held subtree sums before an edges_out step, it holds the subtree sums of the new forest after it. |
| Forest.InsertEdgeKeepsSums | python/tests/test_tree_stats.py:364-369 | If the state held subtree sums before an edges_in step, it holds the subtree sums of the new forest after it. |
| Forest.CutSubtreeSum | python/tests/test_tree_stats.py:358-363 | Cutting a child lowers each former ancestor's subtree sum by the child's subtree sum and leaves every other node's sum alone. |
| Forest.LinkSubtreeSum | python/tests/test_tree_stats.py:364-369 | Linking a root under a parent raises the subtree sum of the parent and its ancestors by the root's subtree sum and leaves every other node's sum alone. |
| TreeSeq.RemoveEdges | python/tests/test_tree_stats.py:358-363 | The edges_out loop yields the detached forest and keeps the states equal to its subtree sums. |
| TreeSeq.InsertEdges | python/tests/test_tree_stats.py:364-369 | The edges_in loop yields the attached forest and keeps the states equal to its subtree sums. |
| TreeSeq.ApplyDiff | python/tests/test_tree_stats.py:357-369 | One edge diff leads to the next tree's forest, with the states equal to its subtree sums. |
| TreeSeq.TreesValid | python/tests/test_tree_stats.py:357-369 | Valid diffs applied from the empty forest give a valid forest at every tree. |
| TreeSeq.BreakpointsOfTrees | python/tests/test_tree_stats.py:141 | Tree t covers the interval from breakpoint t to breakpoint t+1. |
| Windows.Coverage | python/tests/test_tree_stats.py:147-151 | The trees' overlaps with a window inside the sequence add up to the window's length. |
| Windows.StepWeight | python/tests/test_tree_stats.py:149-151 | The weight is the overlap of tree and window, per unit length of the tree. |
| Windows.SpreadStep | python/tests/test_tree_stats.py:151-152 | A tree's total times its weight is the tree's density times the overlap. |
| Windows.SpreadWindow | python/tests/test_tree_stats.py:144-160 | The inner loop gives a window the sum of its trees' terms. It leaves the tree index at the tree holding the window's right end, or past the last tree. |
| Windows.NextWindow | python/tests/test_tree_stats.py:154-160 | When another window follows, the tree index is at the tree holding the next window's left end. |
| Windows.SpreadWindows | python/tests/test_tree_stats.py:143-160 | Every window receives the sum of its terms. |
| Windows.WindowedTreeStat | python/tests/test_tree_stats.py:136-166 | Window j holds the integral over the window of the trees' densities (each tree's total divided by its span). When span-normalised it holds that integral per unit length. |
| Windows.WindowTotalsUnique | python/tests/test_tree_stats.py:136-166 | The window totals are determined by the per-tree values, normalised or not. |
| Windows.NormaliseTotals | python/tests/test_tree_stats.py:161-165 | Dividing each window's integral by the window's length gives the span-normalised totals. |
| Windows.SpanNormalise | python/tests/test_tree_stats.py:278-280 | Each entry is its window's total per unit length of the window. |
| Windows.DensitiesOfSpans | python/tests/test_tree_stats.py:191 | Totals that are each tree's value times its span have exactly those values as their densities. |
| Windows.ConstantNormalised | python/tests/test_tree_stats.py:161-165 | A per-tree value that is the same constant everywhere has that constant as its span-normalised value in every window. |
| Windows.Transpose | python/tests/test_tree_stats.py:2267 | Column k of the windows × bins result is bin k's windows. |
| Windows.SweepTree | python/tests/test_tree_stats.py:257-272 | For one tree, the window loop adds the tree's value times the overlap to every window the tree meets, and to no other window. Every weight added is positive. The index ends at the window holding the tree's right end. |
| Windows.NextTree | python/tests/test_tree_stats.py:267-274 | After a tree, the window index is at the window holding the next tree's left end. After the last tree it equals the number of windows. |
| Windows.WindowSweep | python/tests/test_tree_stats.py:257-277 | Over all trees, each window receives the integral of the running sum over it. The index ends at the number of windows, as the closing assert requires. |
| Windows.SweepTrees | python/tests/test_tree_stats.py:233-277 | Over all trees, window j receives the sum of its terms, and the window index ends at the number of windows. |
| Windows.SpreadTree | python/tests/test_tree_stats.py:147-152 | Adding one tree's share of its total extends the window's partial sum by that tree's term. |
| Postorder.AddChildren | python/tests/test_tree_stats.py:183-184 | Adding every child's value into u gives u's subtree sum once each child holds its own. No other entry changes. |
| Postorder.ChildrenFirst | python/tests/test_tree_stats.py:182 | In a listing every listed child comes before its parent. |
| Postorder.ChildSums | python/tests/test_tree_stats.py:183-184 | A node's children's subtree sums add up to its subtree sum less its own weight. |
| Postorder.PostorderSums | python/tests/test_tree_stats.py:180-184 | Starting from the weights and visiting the listed nodes in postorder gives every node's subtree sum. A node the listing leaves out holds 0, which is its subtree sum. |
| Postorder.PathListed | python/tests/test_tree_stats.py:182 | A listed node's whole root path is listed, because tree.nodes() lists whole trees. |
| Postorder.UnlistedEmpty | python/tests/test_tree_stats.py:182 | A node left out of the listing has no sample below it: its subtree sum is 0. |
| Postorder.RootSums | python/tests/test_tree_stats.py:318 | The roots' subtree sums add up to the total weight. |
| Alleles.LookupAbsent | python/tests/test_tree_stats.py:373-374 | A missing allele reads as 0, as a defaultdict does. |
| Alleles.Add | python/tests/test_tree_stats.py:380 | `+=` on one allele changes only that allele's weight, by the amount added. It changes the total by the same amount and keeps keys distinct. |
| Alleles.Delete | python/tests/test_tree_stats.py:387-388 | Deleting the ancestral allele removes it alone. The total loses its weight. |
| Alleles.DeleteSummary | python/tests/test_tree_stats.py:387-391 | Deleting an allele removes exactly its term from the sum of summaries. |
| Alleles.Mutate | python/tests/test_tree_stats.py:379-385 | A mutation moves its node's subtree weight from its parent's allele (or the ancestral allele) to its derived allele. The total is conserved. |
| Alleles.AllelesAfter | python/tests/test_tree_stats.py:375-386 | After k mutations the total weight is conserved and the alleles are distinct. They are exactly the alleles the mutations touch. Each holds its start weight plus the net weight moved onto it. |
| Alleles.Polarisation | python/tests/test_tree_stats.py:387-391 | The polarised site value is the unpolarised one less the ancestral allele's term. |
| Alleles.Monomorphic | python/tests/test_tree_stats.py:372-391 | A site without mutations has value f(total) unpolarised and 0 polarised. |
| Sites.IntervalOf | python/tests/test_tree_stats.py:293-295 | The window index found is the one window holding the position. |
| Sites.IntervalOfUnique | python/tests/test_tree_stats.py:295 | Only one window holds a position. |
| Sites.AddToWindow | python/tests/test_tree_stats.py:293-296 | The pointer moves forward to the window holding the site, and only that window gains the site's value. |
| Sites.AddSite | python/tests/test_tree_stats.py:292-296 | After site i is added, the window sums cover the first i+1 sites. |
| Sites.WindowedSitewiseStat | python/tests/test_tree_stats.py:288-301 | Window j holds the sum of the values of the sites in it, divided by its length when span-normalised. |
| Sites.SiteTotalsUnique | python/tests/test_tree_stats.py:288-301 | The window values are determined by the sites. |
| Sites.SitesPartition | python/tests/test_tree_stats.py:292-296 | Each site lands in exactly one window, so the window sums add up to the sum of all site values. |
| Sites.NormaliseSiteTotals | python/tests/test_tree_stats.py:297-300 | Dividing by window lengths turns window sums into sums per unit length. |
| Sites.TreeSite | python/tests/test_tree_stats.py:370-398 | One site is evaluated on the current states and its value goes into the window holding it. |
| Sites.TreeSites | python/tests/test_tree_stats.py:370-398 | Every site left of the tree's right end is evaluated on the tree's states and added to its window. |
| Sites.SiteTree | python/tests/test_tree_stats.py:357-398 | One tree moves the states to that tree's subtree sums and adds all its sites. |
| Sites.SiteSweep | python/tests/test_tree_stats.py:357-398 | Every site's value, taken on its own tree, ends up in the window holding it. |
| Sites.SiteGeneralStat | python/tests/test_tree_stats.py:334-403 | Window j holds the values of its sites, each on the tree covering it, divided by the window's length when span-normalised. |
| Sites.RootTotal | python/tests/test_tree_stats.py:318 | The roots' subtree sums add up to the total weight, so the naive version starts the ancestral allele at the total weight, as the incremental version does. |
| Sites.NaiveTreeSites | python/tests/test_tree_stats.py:316-328 | Each site of the tree appends its value to sigma. |
| Sites.NaiveSiteTree | python/tests/test_tree_stats.py:310-328 | One tree, rebuilt from scratch, contributes the values of its sites. |
| Sites.NaiveSiteSigma | python/tests/test_tree_stats.py:309-328 | sigma is the list of every site's value. |
| Sites.NaiveSiteSweep | python/tests/test_tree_stats.py:310-328 | The tree loop yields exactly the values of the sites, each on the tree covering it. |
| Sites.NaiveSiteGeneralStat | python/tests/test_tree_stats.py:304-331 | The naive statistic has the same window values that SiteGeneralStat promises. |
| Sites.CompareSiteStats | python/tests/test_tree_stats.py:2672-2681 | The naive and incremental site statistics are equal. |
| Branch.BranchLength | python/tests/test_tree_stats.py:220-223 | A branch length is never negative, and it is positive exactly when the node has a parent. |
| Branch.RootArea | python/tests/test_tree_stats.py:220-227 | A root's area-weighted summary is 0. |
| Branch.StateUpdate | python/tests/test_tree_stats.py:240-242 | Changing one node's state changes the running sum by exactly the change in that node's area. |
| Branch.ParentUpdate | python/tests/test_tree_stats.py:247-249 | Changing one node's parent changes the running sum by exactly the change in that node's area. |
| Branch.UpdateAncestor | python/tests/test_tree_stats.py:240-242 | Subtract, update, add back: the gap between the running sum and the sum of areas does not change. |
| Branch.AddToPath | python/tests/test_tree_stats.py:239-243 | The walk changes exactly the nodes on the root path by delta, and keeps the running sum in step. |
| Branch.RemoveEdgeBranch | python/tests/test_tree_stats.py:235-244 | After an edges_out step the running sum is again the sum of all areas. |
| Branch.InsertEdgeBranch | python/tests/test_tree_stats.py:246-255 | After an edges_in step the running sum is again the sum of all areas. |
| Branch.RemoveEdgesBranch | python/tests/test_tree_stats.py:235-244 | The edges_out loop keeps the subtree sums and the running sum. |
| Branch.InsertEdgesBranch | python/tests/test_tree_stats.py:246-255 | The edges_in loop keeps the subtree sums and the running sum. |
| Branch.ApplyDiffBranch | python/tests/test_tree_stats.py:234-255 | One diff leads to the next tree with the running sum equal to its sum of areas. |
| Branch.NoEdgesRunning | python/tests/test_tree_stats.py:232-233 | With no edges the running sum is correctly 0. |
| Branch.TreeValueAt | python/tests/test_tree_stats.py:219-255 | A running sum kept in step with subtree sums is the tree's statistic. |
| Branch.NextTreeState | python/tests/test_tree_stats.py:234-255 | After tree t's diffs, the running sum is tree t's statistic. |
| Branch.BranchSweep | python/tests/test_tree_stats.py:234-274 | Each window receives the sum of its terms over all trees. |
| Branch.BranchGeneralStat | python/tests/test_tree_stats.py:202-281 | Window j holds the integral over it of the tree statistic, divided by its length when span-normalised. |
| Branch.SumListed | python/tests/test_tree_stats.py:186-190 | The loop adds the areas of the listed nodes in listing order: its result is the sum of every listed node's area. |
| Branch.SumAreas | python/tests/test_tree_stats.py:185-190 | The sum over the listed nodes is the sum of every node's area, less branch length times the summary of an empty state for each branch the listing leaves out. |
| Branch.UnlistedLengthZero | python/tests/test_tree_stats.py:185-190 | The left-out branch lengths add to 0 exactly when every node left out of the listing is a root. |
| Branch.MissingZero | python/tests/test_tree_stats.py:185-190 | The missing terms add to 0 exactly when the empty-state summary is 0 or no branch is left out. |
| Branch.UnlistedAreasMissing | python/tests/test_tree_stats.py:185-190 | A left-out node has an empty state, so its area is its branch length times the empty-state summary. |
| Branch.ListedRunning | python/tests/test_tree_stats.py:185-190 | When the states are the subtree sums, the sum over the listed nodes is the tree statistic less the missing terms. |
| Branch.NaiveTreeAgrees | python/tests/test_tree_stats.py:185-190 | The naive per-tree value equals the tree statistic exactly when the empty-state summary is 0 or no branch is left out. |
| Branch.NaiveBranchTree | python/tests/test_tree_stats.py:179-190 | A tree rebuilt by postorder gives the naive per-tree value: the tree statistic less the terms of the branches of sample-free components. |
| Branch.NaiveBranchStep | python/tests/test_tree_stats.py:179-191 | One tree appends its naive value times its span to sigma. |
| Branch.NaiveSigma | python/tests/test_tree_stats.py:178-191 | sigma is every tree's naive value times its span. |
| Branch.NaiveValuesAgree | python/tests/test_tree_stats.py:178-191 | The naive and incremental per-tree values are equal exactly when the empty-state summary is 0 or no tree has a branch the listing leaves out. |
| Branch.SampleFreeBranchDiffers | python/tests/test_tree_stats.py:182-190 | A sample plus an edge between two non-sample nodes, with the identity summary, unpolarised: the naive value differs from the tree statistic. |
| Branch.NaiveBranchGeneralStat | python/tests/test_tree_stats.py:169-199 | Window j holds the integral of the naive per-tree values over the window, divided by its length when span-normalised. |
| Branch.NaiveBranchPerTree | python/tests/test_tree_stats.py:192-197 | With windows="trees", span-normalising gives each tree's own naive value back. |
| Branch.CompareBranchStats | python/tests/test_tree_stats.py:2587-2595 | Each version has its windowed totals. They are equal when the empty-state summary is 0 or every branch has a sample below it. |
| Sfs.HistogramIsArea | python/tests/test_tree_stats.py:2272-2282 | Bin k of a node's histogram is the branch area for the polarised summary "count is k". |
| Sfs.BinsPartition | python/tests/test_tree_stats.py:2278-2281 | A branch falls in exactly one bin, so a node's bins add up to its branch length. |
| Sfs.SpectrumIsRunning | python/tests/test_tree_stats.py:2288-2310 | Bin k of the running sum is the branch running sum for "count is k". |
| Sfs.SpectrumTotal | python/tests/test_tree_stats.py:2272-2282 | When every count is a bin, a tree's bins add up to its total branch length. |
| Sfs.SampleWeights | python/tests/test_tree_stats.py:2268-2270 | A sample set gives its nodes count 1. The total is at most the list's length. |
| Sfs.EmptyBin | python/tests/test_tree_stats.py:2263-2282 | A bin above the set's total weight is 0 in every tree, since no subtree count reaches it. |
| Sfs.EmptyColumn | python/tests/test_tree_stats.py:2263-2334 | The window results of a bin above the total weight are 0 in every window. |
| Sfs.CountsInRange | python/tests/test_tree_stats.py:2263 | Every subtree count lies between 0 and the total, so it indexes one of the n_out bins. |
| Sfs.SpectraAreTreeValues | python/tests/test_tree_stats.py:2289-2310 | Each tree's bin k is the tree statistic of the branch algorithm for "count is k". |
| Sfs.SpectrumCoversTree | python/tests/test_tree_stats.py:2263-2282 | Each tree's bins together cover its total branch length. |
| Sfs.SpectrumColumns | python/tests/test_tree_stats.py:2289-2334 | Bin k holds the span-normalised window integrals of bin k of the spectra. |
| Sfs.BranchSampleFrequencySpectrum | python/tests/test_tree_stats.py:2257-2335 | For one set, with any n_out above the set's size, column k holds the normalised window integral of bin k. Bins above the set's size are 0 in every window. Each tree's n_out bins cover its total branch length. |
| Matrix.TriangleClosedForm | python/tests/test_tree_stats.py:525 | The triangle number is n(n+1)/2, and 8u+1 is the square of 2n+1. |
| Matrix.Side | python/tests/test_tree_stats.py:526 | n is the largest side whose triangle fits in len(x), which is the floor of the square-root formula. |
| Matrix.OffsetBounds | python/tests/test_tree_stats.py:528-532 | Entry (i, j) is read from inside row i's block of x. |
| Matrix.UpperTriAt | python/tests/test_tree_stats.py:528-532 | The counter k reaches entry (i, j) at position Offset(i, j). |
| Matrix.OffsetOnto | python/tests/test_tree_stats.py:528-532 | Every position below n(n+1)/2 is the position of one entry of the triangle. |
| Matrix.UpperTriDetermines | python/tests/test_tree_stats.py:520-524 | A symmetric matrix is determined by its upper triangle. |
| Matrix.SetPair | python/tests/test_tree_stats.py:531 | Writing x[k] into cell (i, j) and its mirror (j, i) fills one more cell of the triangle. |
| Matrix.UpperTriToMatrix | python/tests/test_tree_stats.py:520-533 | The result is a symmetric n × n matrix with the largest fitting n. Its upper triangle, row by row, is x's first n(n+1)/2 entries. |
| Matrix.Assembled | python/tests/test_tree_stats.py:529-533 | Once every row is filled, the matrix is symmetric and lists x. |
| SampleSets.CountRepeats | python/tests/test_tree_stats.py:3479 | The number of times x occurs in U is positive exactly when x is in U, and exceeds 1 exactly when x occurs twice. |
| SampleSets.MaxCount | python/tests/test_tree_stats.py:3479 | The maximum is attained by some element and bounds every count. |
| SampleSets.MaxCountRepeats | python/tests/test_tree_stats.py:3479 | The largest count exceeds 1 exactly when some sample is repeated. |
| SampleSets.CheckSampleSets | python/tests/test_tree_stats.py:3478-3481 | The check passes exactly when every set is non-empty with no repeated sample. Otherwise it names the first failing set and why it fails. |
| Nodes.AllNodeValues | python/tests/test_tree_stats.py:425-428 | In any state holding tree t's subtree sums, node u's value in tree t is the summary of its state. |
| Nodes.NodeTotalsUnique | python/tests/test_tree_stats.py:433-501 | The node statistic is determined by the nodes' per-tree values. |
| Nodes.WindowedEmpty | python/tests/test_tree_stats.py:462 | Nothing has accumulated over an empty stretch. |
| Nodes.WindowedSplit | python/tests/test_tree_stats.py:469-470 | A window's integral splits at the last update. |
| Nodes.WindowedConstant | python/tests/test_tree_stats.py:469-470 | Over a stretch where a node's value has not changed, its integral is that value times the stretch's length. |
| Nodes.WindowedExtend | python/tests/test_tree_stats.py:469 | Adding the pending stretch times the current value brings the integral from the last update up to now, as lines 469, 481 and 492 do. |
| Nodes.NodeWalk | python/tests/test_tree_stats.py:468-473 | The walk updates exactly the nodes on the root path: it flushes their pending stretch, moves their last update, changes their state by delta and recomputes their value. The edges_in walk at lines 480-485 is the same. |
| Nodes.WalkKeepsFlushed | python/tests/test_tree_stats.py:469-470 | A walk at a tree's left end keeps every node's accumulators correct. |
| Nodes.RemoveEdgeNode | python/tests/test_tree_stats.py:465-474 | edges_out keeps subtree sums, current values and accumulators correct. |
| Nodes.InsertEdgeNode | python/tests/test_tree_stats.py:476-485 | edges_in keeps subtree sums, current values and accumulators correct. |
| Nodes.RemoveEdgesNode | python/tests/test_tree_stats.py:465-474 | The edges_out loop keeps subtree sums, current values and accumulators correct. |
| Nodes.InsertEdgesNode | python/tests/test_tree_stats.py:476-485 | The edges_in loop keeps subtree sums, current values and accumulators correct. |
| Nodes.TreeEntered | python/tests/test_tree_stats.py:465-485 | After the diffs every current value is the node's value in the new tree, so the accumulators also cover that tree. |
| Nodes.FlushWindow | python/tests/test_tree_stats.py:491-493 | The flush adds every node's pending stretch up to the window's right end, and touches no other window. |
| Nodes.FlushKeepsFlushed | python/tests/test_tree_stats.py:488-494 | A flushed window holds every node's full integral, and the next window starts empty at its left end. |
| Nodes.FlushWindows | python/tests/test_tree_stats.py:488-494 | The window loop closes every window ending by the tree's right end, and leaves the index at the window holding that end. |
| Nodes.NodeTree | python/tests/test_tree_stats.py:463-495 | One pass of the tree loop keeps the loop invariant. |
| Nodes.StartFlushed | python/tests/test_tree_stats.py:455-462 | Zero results with every last update at 0 are correct accumulators before the first tree. |
| Nodes.StartValues | python/tests/test_tree_stats.py:448-460 | Every node's start value is the summary of its state; in the corrected version this covers all nodes, not just samples. |
| Nodes.NodeSweep | python/tests/test_tree_stats.py:454-495 | After the last tree, window j of node u holds the integral of u's value over the window. |
| Nodes.FinalTotals | python/tests/test_tree_stats.py:497 | With the window index past the last window, every window is final. |
| Nodes.NormaliseRows | python/tests/test_tree_stats.py:498-500 | Each row is its window's integrals per unit length of the window. |
| Nodes.NormaliseNodeTotals | python/tests/test_tree_stats.py:498-500 | Dividing by window lengths gives the span-normalised node statistic. |
| Nodes.NodeGeneralStat | python/tests/test_tree_stats.py:433-501 | Window j, node u holds the integral over the window of the summary of u's subtree sum, divided by the window length when span-normalised. |
| Nodes.NaiveNodeTree | python/tests/test_tree_stats.py:418-428 | For every node, s[u] is the summary of u's subtree sum in the tree. |
| Nodes.SpanColumn | python/tests/test_tree_stats.py:429 | Node u's column of sigma is u's values times the tree spans. |
| Nodes.RowOfTree | python/tests/test_tree_stats.py:429 | The row of a tree's values times its span is row t of the expected sigma. |
| Nodes.SpanRow | python/tests/test_tree_stats.py:429 | Entry u of the row is node u's value times the tree's span. |
| Nodes.NaiveNodeStep | python/tests/test_tree_stats.py:418-429 | One tree appends its row to sigma. |
| Nodes.NaiveNodeSigma | python/tests/test_tree_stats.py:417-429 | sigma holds every node's value in every tree times the tree's span. |
| Nodes.WindowNodes | python/tests/test_tree_stats.py:430 | windowed_tree_stat acts on each node's column. |
| Nodes.NaiveNodeGeneralStat | python/tests/test_tree_stats.py:411-430 | The naive node statistic has the same window values that NodeGeneralStat promises. |
| Nodes.CompareNodeStats | python/tests/test_tree_stats.py:2726-2734 | The naive and incremental node statistics are equal when every node starts at its summary. |
| Nodes.StartValuesAsWritten | python/tests/test_tree_stats.py:458-460 | As written, samples start at their summary and every other node starts at 0. |
| Nodes.StartValuesAgree | python/tests/test_tree_stats.py:458-460 | The as-written start values are the current values exactly when node_summary of an empty state is 0 or every node is a sample. |
| Nodes.UnsampledStartDiffers | python/tests/test_tree_stats.py:458-460 | For one sample plus one unsampled node, identity summary and unpolarised, the unsampled node starts at 0 but its value is 1. |

## Left out

- The model covers a state dimension K of 1 and a result dimension M of 1. The edge walks, subtree sums and window sweeps act entry by entry, so they behave per entry as modelled. A summary function that mixes several state entries is not modelled. An example is the divergence summary at python/tests/test_tree_stats.py:1303-1305, which combines entries i and j. The summary is `f: int -> real` and cannot express that.
- Floating point: positions and results are exact reals. Rounding, NaN and the `assertArrayAlmostEqual` tolerance are not modelled. In `upper_tri_to_matrix` the floating-point square root is replaced by its exact integer meaning (the largest n with n(n+1)/2 <= len(x)).
- `ts.parse_windows` and the tskit API (`ts.trees()`, `ts.edge_diffs()`, `ts.general_stat`) are not modelled. The tree sequence is given as its edge diffs, and windows are given as a strictly increasing list that spans the sequence.
- `tree.nodes(order="postorder")` is an input: one listing per tree, checked by `IsPostorder`. The predicate asks for what tskit's listing gives: distinct nodes, every node of nonzero weight, each listed node's parent, and children before parents. It does not pin down the order among siblings, which the sums do not depend on.
- Node times and weights are integers, where the source uses float64. Times are integers because `Height`, the termination measure of every root-path walk, is built from them. Integer weights keep subtree sums exact. Positions and results are reals.
- `tree.roots` is taken to be the nodes with no parent.
- A mutation's parent is an index into the site's own mutation list. The source subtracts the first mutation's id to get that index.
- The naive spectrum, `naive_branch_sample_frequency_spectrum` (python/tests/test_tree_stats.py:2215-2244), is not modelled, so no lemma compares it with the incremental spectrum. The source skips two spectrum tests as "Mismatch when multiple roots" (python/tests/test_tree_stats.py:2373-2379). The bin-0 summary is 1 on an empty state, so that mismatch may be the sample-free-branch divergence that Branch.NaiveValuesAgree states. The model does not prove this.
- The brute-force statistics and the haplotype computation of `sample_count_stats` are not modelled. Only its argument check is.
- Nodes.NodeGeneralStat: requires the first breakpoint to be 0, because last_update starts at 0. tskit sequences always start at 0.
- Nodes.NaiveNodeGeneralStat: windowed_tree_stat is applied to each node's column separately. The source applies it to the whole trees × nodes array at once, and numpy does that entry by entry.
- Sfs.BranchSampleFrequencySpectrum: models one sample set j of the call, that is, one column of the source's result. The bin count nOut is a parameter at least one more than the set's size, as n_out = 1 + the longest set's size is for every set. The bins above the set's size are proved to stay 0. The `uint32` counts never overflow, because a count is at most the set's size.
- The window-level `windows="trees"` option is modelled only for the naive branch statistic (Branch.NaiveBranchPerTree), the one place the source implements it.

## Findings

| source | as written | input that shows it | evidently intended | confidence | as-written member | corrected member |
|---|---|---|---|---|---|---|
| python/tests/test_tree_stats.py:458-460 | node_general_stat sets current_values to node_summary only for samples. Every other node starts at 0 until an edge walk reaches it. | Two nodes: node 0 a sample of weight 1, node 1 not a sample. One tree with no edges, summary f(x) = x, unpolarised. node_general_stat gives 0 for node 1, but naive_node_general_stat gives f(0) + f(1) = 1 per unit length. The unpolarised node test at line 2776 is skipped with "Funny things happening for unpolarised". | Start every node at node_summary(u). Polarised with f(0) = 0, the two agree. | not executed | Nodes.StartValuesAsWritten | Nodes.StartValues |

=== FILE: alleles.dfy ===
/** The per-site allele accounting of site_general_stat and
    naive_site_general_stat. A site has an ancestral allele and a list of
    mutations; each mutation sits on a node and carries a derived allele.
    allele_state starts with the whole weight on the ancestral allele; each
    mutation moves its node's subtree weight from the allele it mutated
    from (its parent mutation's derived allele, or the ancestral allele) to
    its own derived allele. The polarised statistic then drops the ancestral
    allele, and the site's value is the sum of summary_func over the
    remaining alleles.

    allele_state is a Python dict: its keys are distinct, missing keys read
    as 0 (a defaultdict), and it iterates in insertion order. It is modelled
    as a list of (allele, weight) entries in that order. */
module Alleles {
  import opened Sums
  import opened Forest

  /** A mutation on `node` to `derivedState`; `parent` is the position of
      its parent mutation in the site's list, or NULL. */
  datatype Mutation = Mutation(node: int, derivedState: string, parent: int)

  datatype Site = Site(position: real, ancestralState: string, mutations: seq<Mutation>)

  datatype AlleleWeight = AlleleWeight(allele: string, weight: int)

  /** Every mutation sits on one of n nodes and names a parent in the
      site's own list. */
  predicate MutationsValid(site: Site, n: nat)
  {
    forall i :: 0 <= i < |site.mutations| ==>
      && 0 <= site.mutations[i].node < n
      && (site.mutations[i].parent == NULL || 0 <= site.mutations[i].parent < |site.mutations|)
  }

  /** The alleles present, as a set. */
  function Keys(d: seq<AlleleWeight>): set<string>
  {
    if |d| == 0 then {} else {d[0].allele} + Keys(d[1..])
  }

  /** No allele appears twice. */
  predicate Distinct(d: seq<AlleleWeight>)
  {
    |d| == 0 || (d[0].allele !in Keys(d[1..]) && Distinct(d[1..]))
  }

  /** allele_state[a] of a defaultdict: the weight of a, 0 when absent. */
  function Lookup(d: seq<AlleleWeight>, a: string): int
  {
    if |d| == 0 then 0 else if d[0].allele == a then d[0].weight else Lookup(d[1..], a)
  }

  /** The sum of all the weights. */
  function Total(d: seq<AlleleWeight>): int
  {
    if |d| == 0 then 0 else d[0].weight + Total(d[1..])
  }

  /** sum(map(f, allele_state.values())). */
  function SumSummary(d: seq<AlleleWeight>, f: int -> real): real
  {
    if |d| == 0 then 0.0 else f(d[0].weight) + SumSummary(d[1..], f)
  }

  lemma {:induction false} LookupAbsent(d: seq<AlleleWeight>, a: string)
    requires a !in Keys(d)
    ensures Lookup(d, a) == 0
  {
    if |d| > 0 {
      LookupAbsent(d[1..], a);
    }
  }

  /** Adding weight x to allele a: a is added at the end with weight x when
      it is new. Only a's weight changes, by x, and so does the total. */
  function Add(d: seq<AlleleWeight>, a: string, x: int): (r: seq<AlleleWeight>)
    ensures Keys(r) == Keys(d) + {a}
    ensures Total(r) == Total(d) + x
    ensures forall b {:trigger Lookup(r, b)} :: Lookup(r, b) == Lookup(d, b) + (if b == a then x else 0)
    ensures Distinct(d) ==> Distinct(r)
    decreases |d|
  {
    if |d| == 0 then
      [AlleleWeight(a, x)]
    else if d[0].allele == a then
      var r := [AlleleWeight(a, d[0].weight + x)] + d[1..];
      assert r[1..] == d[1..];
      r
    else
      var r := [d[0]] + Add(d[1..], a, x);
      assert r[1..] == Add(d[1..], a, x);
      r
  }

  /** Deleting an allele that is present: the entry goes,
      every other allele keeps its weight and the total loses a's weight. */
  function Delete(d: seq<AlleleWeight>, a: string): (r: seq<AlleleWeight>)
    requires a in Keys(d)
    ensures Total(r) == Total(d) - Lookup(d, a)
    ensures forall b :: b != a ==> Lookup(r, b) == Lookup(d, b)
    ensures Distinct(d) ==> Distinct(r) && Keys(r) == Keys(d) - {a}
    decreases |d|
  {
    if d[0].allele == a then
      d[1..]
    else
      var r := [d[0]] + Delete(d[1..], a);
      assert r[1..] == Delete(d[1..], a);
      r
  }

  /** Dropping an allele drops exactly its term from the sum of summaries. */
  lemma {:induction false} DeleteSummary(d: seq<AlleleWeight>, a: string, f: int -> real)
    requires a in Keys(d)
    ensures SumSummary(Delete(d, a), f) == SumSummary(d, f) - f(Lookup(d, a))
    decreases |d|
  {
    if d[0].allele != a {
      DeleteSummary(d[1..], a, f);
      assert ([d[0]] + Delete(d[1..], a))[1..] == Delete(d[1..], a);
    }
  }

  /** The allele mutation i mutated from: its parent mutation's derived
      allele, or the ancestral allele when it has no parent. */
  function ParentAllele(site: Site, i: nat): string
    requires i < |site.mutations|
    requires site.mutations[i].parent == NULL || 0 <= site.mutations[i].parent < |site.mutations|
  {
    var p := site.mutations[i].parent;
    if p == NULL then site.ancestralState else site.mutations[p].derivedState
  }

  /** The weight allele a starts with: the whole weight on the ancestral
      allele, nothing elsewhere. */
  function Initial(site: Site, total: int, a: string): int
  {
    if a == site.ancestralState then total else 0
  }

  /** allele_state after the first k mutations of the site, starting from
      the whole weight `total` on the ancestral allele; `state` holds the
      subtree sum of every node. The weight is conserved; the alleles held
      are exactly those the mutations touch, each once; and each allele
      holds its starting weight plus the net weight the mutations moved
      onto it. */
  function AllelesAfter(state: seq<int>, total: int, site: Site, k: nat): (d: seq<AlleleWeight>)
    requires MutationsValid(site, |state|) && k <= |site.mutations|
    ensures Total(d) == total
    ensures Distinct(d)
    ensures site.ancestralState in Keys(d) && Keys(d) == Touched(site, k)
    ensures forall a {:trigger Lookup(d, a)} :: Lookup(d, a) == Initial(site, total, a) + Moved(state, site, a, k)
    decreases k
  {
    if k == 0 then
      [AlleleWeight(site.ancestralState, total)]
    else
      Mutate(AllelesAfter(state, total, site, k - 1), state, site, k - 1)
  }

  /** One pass of the mutation loop for mutation i: its node's subtree sum
      is added to its derived allele and taken from the allele it mutated
      from. The total is unchanged and each allele gains what the mutation
      moves onto it. */
  function Mutate(d: seq<AlleleWeight>, state: seq<int>, site: Site, i: nat): (r: seq<AlleleWeight>)
    requires MutationsValid(site, |state|) && i < |site.mutations|
    ensures Total(r) == Total(d)
    ensures Distinct(d) ==> Distinct(r)
    ensures Keys(r) == Keys(d) + {site.mutations[i].derivedState, ParentAllele(site, i)}
    ensures forall b {:trigger Lookup(r, b)} :: Lookup(r, b) == Lookup(d, b) + MovedBy(state, site, b, i)
  {
    var m := site.mutations[i];
    var x := state[m.node];
    Add(Add(d, m.derivedState, x), ParentAllele(site, i), -x)
  }

  /** allele_state once every mutation of the site has been applied. */
  function SiteAlleles(state: seq<int>, total: int, site: Site): seq<AlleleWeight>
    requires MutationsValid(site, |state|)
  {
    AllelesAfter(state, total, site, |site.mutations|)
  }

  /** The weight mutation i moves onto allele a, less what it moves off a. */
  function MovedBy(state: seq<int>, site: Site, a: string, i: nat): int
  {
    if i < |site.mutations| && 0 <= site.mutations[i].node < |state|
       && (site.mutations[i].parent == NULL || 0 <= site.mutations[i].parent < |site.mutations|) then
      var x := state[site.mutations[i].node];
      (if site.mutations[i].derivedState == a then x else 0)
      - (if ParentAllele(site, i) == a then x else 0)
    else 0
  }

  /** The net weight the first k mutations move onto allele a. */
  function Moved(state: seq<int>, site: Site, a: string, k: nat): int
  {
    if k == 0 then 0 else Moved(state, site, a, k - 1) + MovedBy(state, site, a, k - 1)
  }

  /** The alleles the first k mutations touch: the ancestral allele, and
      for each mutation its derived allele and the allele it mutated from. */
  function Touched(site: Site, k: nat): set<string>
    requires k <= |site.mutations|
    requires forall i :: 0 <= i < k ==>
               site.mutations[i].parent == NULL || 0 <= site.mutations[i].parent < |site.mutations|
  {
    if k == 0 then {site.ancestralState}
    else Touched(site, k - 1) + {site.mutations[k - 1].derivedState, ParentAllele(site, k - 1)}
  }

  /** The value of a site: sum of summary_func over allele_state, after
      deleting the ancestral allele when the statistic is polarised. */
  function SiteValue(state: seq<int>, total: int, site: Site, f: int -> real, polarised: bool): real
    requires MutationsValid(site, |state|)
  {
    var d := SiteAlleles(state, total, site);
    SumSummary(if polarised then Delete(d, site.ancestralState) else d, f)
  }

  /** Polarisation removes exactly the ancestral allele's term. */
  lemma Polarisation(state: seq<int>, total: int, site: Site, f: int -> real)
    requires MutationsValid(site, |state|)
    ensures SiteValue(state, total, site, f, true) ==
              SiteValue(state, total, site, f, false)
              - f(Lookup(SiteAlleles(state, total, site), site.ancestralState))
  {
    var anc := site.ancestralState;
    var d := SiteAlleles(state, total, site);
    assert SiteValue(state, total, site, f, true) == SumSummary(Delete(d, anc), f);
    assert SiteValue(state, total, site, f, false) == SumSummary(d, f);
    DeleteSummary(d, anc, f);
  }

  /** A site without mutations has all the weight on the ancestral allele:
      its value is f(total) unpolarised and nothing polarised. */
  lemma Monomorphic(state: seq<int>, total: int, site: Site, f: int -> real, polarised: bool)
    requires |site.mutations| == 0
    ensures SiteValue(state, total, site, f, polarised) == if polarised then 0.0 else f(total)
  {
    var d := SiteAlleles(state, total, site);
    assert d == [AlleleWeight(site.ancestralState, total)];
    assert d[1..] == [];
    assert SumSummary(d, f) == f(total) + SumSummary([], f);
  }
}

=== FILE: branch.dfy ===
/** Branch-mode statistics. Every node contributes its branch length times
    the summary of its state (plus the summary of the complement when the
    statistic is not polarised); a tree's value is the sum over its nodes.
    branch_general_stat keeps that sum as a running sum, updated edge by
    edge, and sweeps it over the windows; naive_branch_general_stat
    recomputes every tree from scratch and hands the per-tree totals to
    windowed_tree_stat. Both produce the same window values. */
module Branch {
  import opened Sums
  import opened Forest
  import opened TreeSeq
  import opened Windows
  import opened Postorder

  /** time[parent] - time[u], or 0 at a root. */
  function BranchLength(parent: seq<int>, time: seq<int>, u: int): (len: int)
    requires ValidForest(parent, time) && 0 <= u < |parent|
    ensures len >= 0 && (len > 0 <==> parent[u] != NULL)
  {
    if parent[u] == NULL then 0 else time[parent[u]] - time[u]
  }

  /** summary_func of a state, plus that of the complementary state
      (total weight minus it) unless the statistic is polarised. */
  function Summary(f: int -> real, total: int, x: int, polarised: bool): real
  {
    if polarised then f(x) else f(x) + f(total - x)
  }

  /** area_weighted_summary(u): u's branch length times the summary of its state. */
  function Area(parent: seq<int>, time: seq<int>, state: seq<int>, total: int, f: int -> real,
                polarised: bool, u: int): real
    requires ValidForest(parent, time) && |state| == |parent| && 0 <= u < |parent|
  {
    BranchLength(parent, time, u) as real * Summary(f, total, state[u], polarised)
  }

  function Areas(parent: seq<int>, time: seq<int>, state: seq<int>, total: int, f: int -> real,
                 polarised: bool): nat -> real
    requires ValidForest(parent, time) && |state| == |parent|
  {
    (u: nat) => if u < |parent| then Area(parent, time, state, total, f, polarised, u) else 0.0
  }

  /** The sum of area_weighted_summary over all nodes: the value that
      running_sum is meant to hold. Every branch counts, whether or not a
      sample lies below it. */
  function Running(parent: seq<int>, time: seq<int>, state: seq<int>, total: int, f: int -> real,
                   polarised: bool): real
    requires ValidForest(parent, time) && |state| == |parent|
  {
    SumR(|parent|, Areas(parent, time, state, total, f, polarised))
  }

  /** A root contributes nothing. */
  lemma RootArea(parent: seq<int>, time: seq<int>, state: seq<int>, total: int, f: int -> real,
                 polarised: bool, u: int)
    requires ValidForest(parent, time) && |state| == |parent| && 0 <= u < |parent|
    requires parent[u] == NULL
    ensures Area(parent, time, state, total, f, polarised, u) == 0.0
  {
  }

  /** A node's area depends on its own state only. */
  lemma AreaFrame(parent: seq<int>, time: seq<int>, state: seq<int>, state': seq<int>, total: int,
                  f: int -> real, polarised: bool, u: int)
    requires ValidForest(parent, time) && |state| == |state'| == |parent| && 0 <= u < |parent|
    requires state[u] == state'[u]
    ensures Area(parent, time, state, total, f, polarised, u)
            == Area(parent, time, state', total, f, polarised, u)
  {
  }

  /** Changing one node's state changes the running total by the change in
      that node's area. */
  lemma StateUpdate(parent: seq<int>, time: seq<int>, state: seq<int>, total: int, f: int -> real,
                    polarised: bool, u: int, x: int)
    requires ValidForest(parent, time) && |state| == |parent| && 0 <= u < |parent|
    ensures Running(parent, time, state[u := x], total, f, polarised)
            == Running(parent, time, state, total, f, polarised)
               - Area(parent, time, state, total, f, polarised, u)
               + Area(parent, time, state[u := x], total, f, polarised, u)
  {
    SumRUpdate(|parent|, u, Areas(parent, time, state, total, f, polarised),
               Areas(parent, time, state[u := x], total, f, polarised));
  }

  /** Changing one node's parent changes the running total by the change in
      that node's area. */
  lemma ParentUpdate(parent: seq<int>, time: seq<int>, state: seq<int>, total: int, f: int -> real,
                     polarised: bool, c: int, p: int)
    requires ValidForest(parent, time) && |state| == |parent| && 0 <= c < |parent|
    requires ValidForest(parent[c := p], time)
    ensures Running(parent[c := p], time, state, total, f, polarised)
            == Running(parent, time, state, total, f, polarised)
               - Area(parent, time, state, total, f, polarised, c)
               + Area(parent[c := p], time, state, total, f, polarised, c)
  {
    SumRUpdate(|parent|, c, Areas(parent, time, state, total, f, polarised),
               Areas(parent[c := p], time, state, total, f, polarised));
  }

  /** One ancestor step of the edge loops: take u's area out of the running
      sum, change u's state by delta, put the new area back. */
  method UpdateAncestor(parent: seq<int>, time: seq<int>, state: seq<int>, total: int,
                        f: int -> real, polarised: bool, running: real, u: int, delta: int)
      returns (state': seq<int>, running': real)
    requires ValidForest(parent, time) && |state| == |parent| && 0 <= u < |parent|
    ensures state' == state[u := state[u] + delta]
    ensures running' - Running(parent, time, state', total, f, polarised)
            == running - Running(parent, time, state, total, f, polarised)
  {
    running' := running - Area(parent, time, state, total, f, polarised, u);
    state' := state[u := state[u] + delta];
    running' := running' + Area(parent, time, state', total, f, polarised, u);
    StateUpdate(parent, time, state, total, f, polarised, u, state[u] + delta);
  }

  /** The walk of the edge loops from `top` up to its root: every node on
      the way has its area taken out of the running sum, its state changed
      by delta, and its new area put back. In the source delta is
      +-state[edge.child], which the walk never changes, since the child is
      not above its parent. */
  method AddToPath(parent: seq<int>, time: seq<int>, state: seq<int>, total: int, f: int -> real,
                   polarised: bool, running: real, top: int, delta: int)
      returns (state': seq<int>, running': real)
    requires ValidForest(parent, time) && |state| == |parent|
    requires top == NULL || 0 <= top < |parent|
    ensures |state'| == |state|
    ensures forall x :: 0 <= x < |state| ==>
              state'[x] == if x in Path(parent, time, top) then state[x] + delta else state[x]
    ensures running' - Running(parent, time, state', total, f, polarised)
            == running - Running(parent, time, state, total, f, polarised)
  {
    PathFacts(parent, time, top);
    state', running' := state, running;
    var u := top;
    while u != NULL
      invariant u == NULL || 0 <= u < |parent|
      invariant forall x :: x in Path(parent, time, u) ==> x in Path(parent, time, top)
      invariant |state'| == |state|
      invariant forall x :: 0 <= x < |state| ==>
                  state'[x] == if x in Path(parent, time, top) && x !in Path(parent, time, u)
                               then state[x] + delta else state[x]
      invariant running' - Running(parent, time, state', total, f, polarised)
                == running - Running(parent, time, state, total, f, polarised)
      decreases Height(parent, time, u)
    {
      PathFacts(parent, time, parent[u]);
      assert u in Path(parent, time, top);
      assert Path(parent, time, u) == [u] + Path(parent, time, parent[u]);
      state', running' := UpdateAncestor(parent, time, state', total, f, polarised, running', u, delta);
      u := parent[u];
    }
  }

  /** The edges_out step of branch_general_stat: take the child's area out,
      walk from the edge's parent to the root subtracting the child's state
      (keeping the running sum in step), then detach the child. Afterwards
      the running sum is again the sum of all areas. */
  method RemoveEdgeBranch(parent: seq<int>, time: seq<int>, state: seq<int>, total: int,
                          f: int -> real, polarised: bool, running: real, e: Edge)
      returns (parent': seq<int>, state': seq<int>, running': real)
    requires ValidForest(parent, time) && |state| == |parent|
    requires e.child < |parent| && parent[e.child] == e.parent
    requires running == Running(parent, time, state, total, f, polarised)
    ensures parent' == parent[e.child := NULL] && ValidForest(parent', time)
    ensures |state'| == |state|
    ensures forall u :: 0 <= u < |state| ==>
              state'[u] == if u in Path(parent, time, e.parent)
                           then state[u] - state[e.child] else state[u]
    ensures running' == Running(parent', time, state', total, f, polarised)
  {
    var c := e.child;
    running' := running - Area(parent, time, state, total, f, polarised, c);
    PathFacts(parent, time, e.parent);
    assert c !in Path(parent, time, e.parent);
    state', running' := AddToPath(parent, time, state, total, f, polarised, running', e.parent, -state[c]);
    AreaFrame(parent, time, state, state', total, f, polarised, c);
    parent' := parent[c := NULL];
    ParentUpdate(parent, time, state', total, f, polarised, c, NULL);
    RootArea(parent', time, state', total, f, polarised, c);
  }

  /** The edges_in step of branch_general_stat: attach the child, add its
      area, then walk from the edge's parent to the root adding the child's
      state (keeping the running sum in step). */
  method InsertEdgeBranch(parent: seq<int>, time: seq<int>, state: seq<int>, total: int,
                          f: int -> real, polarised: bool, running: real, e: Edge)
      returns (parent': seq<int>, state': seq<int>, running': real)
    requires ValidForest(parent, time) && |state| == |parent|
    requires e.child < |parent| && e.parent < |parent|
    requires parent[e.child] == NULL && time[e.child] < time[e.parent]
    requires running == Running(parent, time, state, total, f, polarised)
    ensures parent' == parent[e.child := e.parent] && ValidForest(parent', time)
    ensures |state'| == |state|
    ensures forall u :: 0 <= u < |state| ==>
              state'[u] == if u in Path(parent, time, e.parent)
                           then state[u] + state[e.child] else state[u]
    ensures running' == Running(parent', time, state', total, f, polarised)
  {
    var c := e.child;
    parent' := parent[c := e.parent];
    assert ValidForest(parent', time);
    ParentUpdate(parent, time, state, total, f, polarised, c, e.parent);
    RootArea(parent, time, state, total, f, polarised, c);
    running' := running + Area(parent', time, state, total, f, polarised, c);
    PathFacts(parent, time, e.parent);
    PathFrame(parent, time, c, e.parent, e.parent);
    state', running' := AddToPath(parent', time, state, total, f, polarised, running', e.parent, state[c]);
  }

  /** The edges_out loop of branch_general_stat. */
  method RemoveEdgesBranch(parent: seq<int>, time: seq<int>, ghost w: seq<int>, state: seq<int>,
                           total: int, f: int -> real, polarised: bool, running: real,
                           edges: seq<Edge>)
      returns (parent': seq<int>, state': seq<int>, running': real)
    requires Matches(parent, time, w, state) && RemovalsValid(parent, edges)
    requires running == Running(parent, time, state, total, f, polarised)
    ensures parent' == Detach(parent, edges) && Matches(parent', time, w, state')
    ensures running' == Running(parent', time, state', total, f, polarised)
  {
    parent', state', running' := parent, state, running;
    var i := 0;
    while i < |edges|
      invariant 0 <= i <= |edges|
      invariant Matches(parent', time, w, state') && RemovalsValid(parent', edges[i..])
      invariant Detach(parent', edges[i..]) == Detach(parent, edges)
      invariant running' == Running(parent', time, state', total, f, polarised)
    {
      var e := edges[i];
      assert edges[i..][0] == e && edges[i..][1..] == edges[i + 1..];
      ghost var before := state';
      ghost var p := parent';
      parent', state', running' := RemoveEdgeBranch(parent', time, state', total, f, polarised, running', e);
      RemoveEdgeKeepsSums(p, time, w, before, e.child, state');
      i := i + 1;
    }
  }

  /** The edges_in loop of branch_general_stat. */
  method InsertEdgesBranch(parent: seq<int>, time: seq<int>, ghost w: seq<int>, state: seq<int>,
                           total: int, f: int -> real, polarised: bool, running: real,
                           edges: seq<Edge>)
      returns (parent': seq<int>, state': seq<int>, running': real)
    requires Matches(parent, time, w, state) && InsertionsValid(parent, time, edges)
    requires running == Running(parent, time, state, total, f, polarised)
    ensures parent' == Attach(parent, edges) && Matches(parent', time, w, state')
    ensures running' == Running(parent', time, state', total, f, polarised)
  {
    parent', state', running' := parent, state, running;
    var i := 0;
    while i < |edges|
      invariant 0 <= i <= |edges|
      invariant Matches(parent', time, w, state') && InsertionsValid(parent', time, edges[i..])
      invariant Attach(parent', edges[i..]) == Attach(parent, edges)
      invariant running' == Running(parent', time, state', total, f, polarised)
    {
      var e := edges[i];
      assert edges[i..][0] == e && edges[i..][1..] == edges[i + 1..];
      ghost var before := state';
      ghost var p := parent';
      parent', state', running' := InsertEdgeBranch(parent', time, state', total, f, polarised, running', e);
      InsertEdgeKeepsSums(p, time, w, before, e.child, e.parent, state');
      i := i + 1;
    }
  }

  /** Moving to the next tree, keeping the running sum. */
  method ApplyDiffBranch(parent: seq<int>, time: seq<int>, ghost w: seq<int>, state: seq<int>,
                         total: int, f: int -> real, polarised: bool, running: real, d: TreeDiff)
      returns (parent': seq<int>, state': seq<int>, running': real)
    requires Matches(parent, time, w, state) && DiffValid(parent, time, d)
    requires running == Running(parent, time, state, total, f, polarised)
    ensures parent' == Apply(parent, d) && Matches(parent', time, w, state')
    ensures running' == Running(parent', time, state', total, f, polarised)
  {
    parent', state', running' := RemoveEdgesBranch(parent, time, w, state, total, f, polarised, running, d.edgesOut);
    parent', state', running' := InsertEdgesBranch(parent', time, w, state', total, f, polarised, running', d.edgesIn);
  }

  /** A tree's statistic: the sum over its nodes of branch length times the
      summary of the node's subtree sum of weights. */
  ghost function TreeValue(parent: seq<int>, time: seq<int>, w: seq<int>, f: int -> real,
                           polarised: bool): real
    requires ValidForest(parent, time) && |w| == |parent|
  {
    Running(parent, time, SubtreeSums(parent, time, w), TotalWeight(w), f, polarised)
  }

  /** The statistic of every tree the diffs lead to from the empty forest. */
  ghost function TreeValues(time: seq<int>, w: seq<int>, f: int -> real, polarised: bool,
                            diffs: seq<TreeDiff>): (v: seq<real>)
    requires |w| == |time| && DiffsValid(NoEdges(|time|), time, diffs)
    ensures |v| == |diffs|
  {
    var trees := Trees(NoEdges(|time|), diffs);
    TreesValid(NoEdges(|time|), time, diffs);
    seq(|diffs|, t requires 0 <= t < |diffs| => TreeValue(trees[t], time, w, f, polarised))
  }

  /** A running sum kept in step with subtree sums is the tree's value. */
  lemma TreeValueAt(time: seq<int>, w: seq<int>, f: int -> real, polarised: bool,
                    diffs: seq<TreeDiff>, t: nat, parent: seq<int>, state: seq<int>, running: real)
    requires |w| == |time| && DiffsValid(NoEdges(|time|), time, diffs) && t < |diffs|
    requires parent == Trees(NoEdges(|time|), diffs)[t] && Matches(parent, time, w, state)
    requires running == Running(parent, time, state, TotalWeight(w), f, polarised)
    ensures TreeValues(time, w, f, polarised, diffs)[t] == running
  {
    MatchesSums(parent, time, w, state);
  }

  /** With no edges every node is a root, so the running sum starts at 0. */
  lemma NoEdgesRunning(time: seq<int>, state: seq<int>, total: int, f: int -> real, polarised: bool)
    requires |state| == |time|
    ensures ValidForest(NoEdges(|time|), time)
    ensures Running(NoEdges(|time|), time, state, total, f, polarised) == 0.0
  {
    var parent := NoEdges(|time|);
    forall u: nat | u < |parent|
      ensures Areas(parent, time, state, total, f, polarised)(u) == 0.0
    {
      RootArea(parent, time, state, total, f, polarised, u);
    }
    SumRZeroR(|parent|, Areas(parent, time, state, total, f, polarised));
  }

  /** The edge loops for tree t: afterwards the running sum is tree t's value. */
  method NextTreeState(time: seq<int>, ghost w: seq<int>, total: int, f: int -> real, polarised: bool,
                       diffs: seq<TreeDiff>, t: nat, parent: seq<int>, state: seq<int>, running: real)
      returns (parent': seq<int>, state': seq<int>, running': real)
    requires |w| == |time| && total == TotalWeight(w) && DiffsValid(NoEdges(|time|), time, diffs)
    requires t < |diffs| && AtTree(time, w, diffs, t, parent, state)
    requires running == Running(parent, time, state, total, f, polarised)
    ensures AtTree(time, w, diffs, t + 1, parent', state')
    ensures running' == Running(parent', time, state', total, f, polarised)
    ensures running' == TreeValues(time, w, f, polarised, diffs)[t]
  {
    NextDiff(parent, time, diffs, t, Trees(NoEdges(|time|), diffs));
    parent', state', running' := ApplyDiffBranch(parent, time, w, state, total, f, polarised, running, diffs[t]);
    TreeValueAt(time, w, f, polarised, diffs, t, parent', state', running');
  }

  /** The tree loop of branch_general_stat, with window j's terms given by
      F(j): apply each diff, then sweep the running sum over the windows the
      tree meets. */
  method BranchSweep(time: seq<int>, w: seq<int>, total: int, f: int -> real, polarised: bool,
                     diffs: seq<TreeDiff>, windows: seq<real>, ghost b: seq<real>,
                     ghost values: seq<real>, ghost F: nat -> (nat -> real))
      returns (result: seq<real>, wi: nat)
    requires |w| == |time| && total == TotalWeight(w)
    requires DiffsValid(NoEdges(|time|), time, diffs)
    requires |b| == |diffs| + 1 && Spans(windows, b)
    requires forall t :: 0 <= t < |diffs| ==> b[t] == diffs[t].left && b[t + 1] == diffs[t].right
    requires values == TreeValues(time, w, f, polarised, diffs)
    requires FamilyOf(F, b, values, windows)
    ensures |result| == |windows| - 1 && wi == |windows| - 1
    ensures forall j :: 0 <= j < |result| ==> result[j] == SumR(|diffs|, F(j))
  {
    var nw := |windows| - 1;
    result := seq(nw, _ => 0.0);
    var parent := NoEdges(|time|);
    var state := w;
    EmptyForestSums(time, w);
    NoEdgesRunning(time, w, total, f, polarised);
    var running := 0.0;
    wi := 0;
    var t := 0;
    while t < |diffs|
      invariant 0 <= t <= |diffs| && |result| == nw
      invariant AtTree(time, w, diffs, t, parent, state)
      invariant running == Running(parent, time, state, total, f, polarised)
      invariant t < |diffs| ==> wi < nw && windows[wi] <= b[t] < windows[wi + 1]
      invariant t == |diffs| ==> wi == nw
      invariant Accumulated(F, result, t)
    {
      parent, state, running := NextTreeState(time, w, total, f, polarised, diffs, t, parent, state, running);
      assert wi < nw;
      ghost var before := result;
      result, wi := SweepTree(windows, diffs[t].left, diffs[t].right, running, result, wi);
      AccumulateTree(windows, b, values, F, t, before, result);
      NextTree(windows, b, t, wi);
      t := t + 1;
    }
  }

  /** branch_general_stat: window j receives the integral over it of the
      tree statistic (each tree's value held over the tree's interval),
      divided by the window's length when span-normalised. */
  method BranchGeneralStat(time: seq<int>, w: seq<int>, f: int -> real, diffs: seq<TreeDiff>,
                           windows: seq<real>, polarised: bool, spanNormalise: bool)
      returns (result: seq<real>)
    requires |w| == |time|
    requires Contiguous(diffs) && DiffsValid(NoEdges(|time|), time, diffs)
    requires Spans(windows, Breakpoints(diffs))
    ensures WindowTotals(result, Breakpoints(diffs), TreeValues(time, w, f, polarised, diffs),
                         windows, spanNormalise)
  {
    ghost var b := Breakpoints(diffs);
    ghost var values := TreeValues(time, w, f, polarised, diffs);
    var total := SumWeights(w);
    ColumnsFamily(b, values, windows);
    var wi;
    BreakpointsOfTrees(diffs);
    result, wi := BranchSweep(time, w, total, f, polarised, diffs, windows, b, values,
                              WindowColumns(b, values, windows));
    assert wi == |windows| - 1;
    FamilyTotals(result, WindowColumns(b, values, windows), b, values, windows);
    if spanNormalise {
      var r := SpanNormalise(result, windows);
      NormaliseTotals(result, r, b, values, windows);
      result := r;
    }
  }

  /** The branch lengths of the nodes a listing leaves out. */
  function UnlistedLengths(parent: seq<int>, time: seq<int>, order: seq<int>): nat -> real
    requires ValidForest(parent, time)
  {
    (u: nat) => if u < |parent| && u !in order then BranchLength(parent, time, u) as real else 0.0
  }

  /** Every node the listing leaves out is a root: no branch is missing. */
  predicate NoUnlistedBranch(parent: seq<int>, order: seq<int>)
  {
    forall u :: 0 <= u < |parent| && u !in order ==> parent[u] == NULL
  }

  /** The left-out branches have total length 0 exactly when there are none. */
  lemma UnlistedLengthZero(parent: seq<int>, time: seq<int>, order: seq<int>)
    requires ValidForest(parent, time)
    ensures SumR(|parent|, UnlistedLengths(parent, time, order)) == 0.0
            <==> NoUnlistedBranch(parent, order)
  {
    var L := UnlistedLengths(parent, time, order);
    if NoUnlistedBranch(parent, order) {
      SumRZeroR(|parent|, L);
    } else {
      var u :| 0 <= u < |parent| && u !in order && parent[u] != NULL;
      SumRAtLeast(|parent|, u, L);
    }
  }

  /** The areas of the nodes a listing leaves out. */
  function UnlistedAreas(parent: seq<int>, time: seq<int>, state: seq<int>, total: int, f: int -> real,
                         polarised: bool, order: seq<int>): nat -> real
    requires ValidForest(parent, time) && |state| == |parent|
  {
    (u: nat) => if u < |parent| && u !in order then Area(parent, time, state, total, f, polarised, u) else 0.0
  }

  /** Branch length times c for each node a listing leaves out: the areas
      those nodes have when each of their states has summary c. */
  function MissingAreas(parent: seq<int>, time: seq<int>, c: real, order: seq<int>): nat -> real
    requires ValidForest(parent, time)
  {
    (u: nat) => if u < |parent| && u !in order then BranchLength(parent, time, u) as real * c else 0.0
  }

  /** The missing areas add up to 0 exactly when c is 0 or no branch is
      missing. */
  lemma MissingZero(parent: seq<int>, time: seq<int>, c: real, order: seq<int>)
    requires ValidForest(parent, time)
    ensures SumR(|parent|, MissingAreas(parent, time, c, order)) == 0.0
            <==> c == 0.0 || NoUnlistedBranch(parent, order)
  {
    var L := UnlistedLengths(parent, time, order);
    var M := MissingAreas(parent, time, c, order);
    forall u: nat | u < |parent|
      ensures M(u) == c * L(u)
    {
    }
    SumRScale(|parent|, c, L, M);
    UnlistedLengthZero(parent, time, order);
    SumRNonNegative(|parent|, L);
  }

  /** A node with an empty state has its branch length times the summary
      of an empty state as its area. */
  lemma EmptyArea(parent: seq<int>, time: seq<int>, state: seq<int>, total: int, f: int -> real,
                  polarised: bool, u: int)
    requires ValidForest(parent, time) && |state| == |parent| && 0 <= u < |parent| && state[u] == 0
    ensures Area(parent, time, state, total, f, polarised, u)
            == BranchLength(parent, time, u) as real * Summary(f, total, 0, polarised)
  {
  }

  /** Nodes whose state is empty have their branch lengths times the
      summary of an empty state as their areas. */
  lemma UnlistedAreasMissing(parent: seq<int>, time: seq<int>, state: seq<int>, total: int,
                             f: int -> real, polarised: bool, order: seq<int>)
    requires ValidForest(parent, time) && |state| == |parent|
    requires forall u :: 0 <= u < |parent| && u !in order ==> state[u] == 0
    ensures SumR(|parent|, UnlistedAreas(parent, time, state, total, f, polarised, order))
            == SumR(|parent|, MissingAreas(parent, time, Summary(f, total, 0, polarised), order))
  {
    var c := Summary(f, total, 0, polarised);
    forall u: nat | u < |parent|
      ensures UnlistedAreas(parent, time, state, total, f, polarised, order)(u)
              == MissingAreas(parent, time, c, order)(u)
    {
      if u !in order {
        EmptyArea(parent, time, state, total, f, polarised, u);
      }
    }
    SumRExt(|parent|, UnlistedAreas(parent, time, state, total, f, polarised, order),
            MissingAreas(parent, time, c, order));
  }

  /** Summed over the nodes of a listing, the areas miss exactly the
      left-out branches; those lie in trees without weight, so each weighs
      the summary of an empty state. */
  lemma ListedRunning(parent: seq<int>, time: seq<int>, w: seq<int>, state: seq<int>, total: int,
                      f: int -> real, polarised: bool, order: seq<int>)
    requires Matches(parent, time, w, state) && IsPostorder(parent, w, order)
    ensures SumR(|order|, AtEntries(order, Areas(parent, time, state, total, f, polarised)))
            == Running(parent, time, state, total, f, polarised)
               - SumR(|parent|, MissingAreas(parent, time, Summary(f, total, 0, polarised), order))
  {
    var n := |parent|;
    var A := Areas(parent, time, state, total, f, polarised);
    SumROver(n, order, A);
    SumRAdd(n, OnList(order, A), UnlistedAreas(parent, time, state, total, f, polarised, order), A);
    forall u | 0 <= u < n && u !in order
      ensures state[u] == 0
    {
      UnlistedEmpty(parent, time, w, order, u);
    }
    UnlistedAreasMissing(parent, time, state, total, f, polarised, order);
  }

  /** The areas of the listed nodes, added up in listing order. */
  method SumListed(parent: seq<int>, time: seq<int>, state: seq<int>, total: int,
                   f: int -> real, polarised: bool, order: seq<int>) returns (s: real)
    requires ValidForest(parent, time) && |state| == |parent|
    requires forall i :: 0 <= i < |order| ==> 0 <= order[i] < |parent|
    ensures s == SumR(|order|, AtEntries(order, Areas(parent, time, state, total, f, polarised)))
  {
    s := 0.0;
    var i := 0;
    while i < |order|
      invariant 0 <= i <= |order|
      invariant s == SumR(i, AtEntries(order, Areas(parent, time, state, total, f, polarised)))
    {
      var area := Area(parent, time, state, total, f, polarised, order[i]);
      SumRStep(i, AtEntries(order, Areas(parent, time, state, total, f, polarised)), s, area);
      s := s + area;
      i := i + 1;
    }
  }

  /** The sum over tree.nodes() of every node's area, in listing order. */
  method SumAreas(parent: seq<int>, time: seq<int>, ghost w: seq<int>, state: seq<int>, total: int,
                  f: int -> real, polarised: bool, order: seq<int>) returns (s: real)
    requires Matches(parent, time, w, state) && IsPostorder(parent, w, order)
    ensures s == Running(parent, time, state, total, f, polarised)
                 - SumR(|parent|, MissingAreas(parent, time, Summary(f, total, 0, polarised), order))
  {
    s := SumListed(parent, time, state, total, f, polarised, order);
    ListedRunning(parent, time, w, state, total, f, polarised, order);
  }

  /** What naive_branch_general_stat finds for a tree listed by `order`:
      the tree's statistic less the summary of an empty state over every
      branch the listing leaves out. */
  ghost function NaiveTreeValue(parent: seq<int>, time: seq<int>, w: seq<int>, f: int -> real,
                                polarised: bool, order: seq<int>): real
    requires ValidForest(parent, time) && |w| == |parent|
  {
    TreeValue(parent, time, w, f, polarised)
      - SumR(|parent|, MissingAreas(parent, time, Summary(f, TotalWeight(w), 0, polarised), order))
  }

  /** The naive value of a tree is its statistic exactly when no branch is
      left out, or the summary of an empty state is 0. */
  lemma NaiveTreeAgrees(parent: seq<int>, time: seq<int>, w: seq<int>, f: int -> real,
                        polarised: bool, order: seq<int>)
    requires ValidForest(parent, time) && |w| == |parent|
    ensures NaiveTreeValue(parent, time, w, f, polarised, order) == TreeValue(parent, time, w, f, polarised)
            <==> Summary(f, TotalWeight(w), 0, polarised) == 0.0 || NoUnlistedBranch(parent, order)
  {
    MissingZero(parent, time, Summary(f, TotalWeight(w), 0, polarised), order);
  }

  /** What naive_branch_general_stat finds for every tree, orders[t]
      listing tree t. */
  ghost function NaiveTreeValues(time: seq<int>, w: seq<int>, f: int -> real, polarised: bool,
                                 diffs: seq<TreeDiff>, orders: seq<seq<int>>): (v: seq<real>)
    requires |w| == |time| && DiffsValid(NoEdges(|time|), time, diffs) && |orders| == |diffs|
    ensures |v| == |diffs|
  {
    var trees := Trees(NoEdges(|time|), diffs);
    TreesValid(NoEdges(|time|), time, diffs);
    seq(|diffs|, t requires 0 <= t < |diffs| => NaiveTreeValue(trees[t], time, w, f, polarised, orders[t]))
  }

  /** The naive values are the trees' statistics exactly when the summary
      of an empty state is 0 or no listing leaves out a branch. */
  lemma NaiveValuesAgree(time: seq<int>, w: seq<int>, f: int -> real, polarised: bool,
                         diffs: seq<TreeDiff>, orders: seq<seq<int>>)
    requires |w| == |time| && DiffsValid(NoEdges(|time|), time, diffs) && |orders| == |diffs|
    ensures NaiveTreeValues(time, w, f, polarised, diffs, orders) == TreeValues(time, w, f, polarised, diffs)
            <==> Summary(f, TotalWeight(w), 0, polarised) == 0.0
                 || forall t :: 0 <= t < |diffs| ==> NoUnlistedBranch(Trees(NoEdges(|time|), diffs)[t], orders[t])
  {
    var trees := Trees(NoEdges(|time|), diffs);
    var naive := NaiveTreeValues(time, w, f, polarised, diffs, orders);
    var values := TreeValues(time, w, f, polarised, diffs);
    var c := Summary(f, TotalWeight(w), 0, polarised);
    TreesValid(NoEdges(|time|), time, diffs);
    forall t | 0 <= t < |diffs|
      ensures naive[t] == values[t] <==> c == 0.0 || NoUnlistedBranch(trees[t], orders[t])
    {
      NaiveTreeAgrees(trees[t], time, w, f, polarised, orders[t]);
    }
    if naive == values && c != 0.0 {
      forall t | 0 <= t < |diffs|
        ensures NoUnlistedBranch(trees[t], orders[t])
      {
        assert naive[t] == values[t];
      }
    }
  }

  /** The naive per-tree computation of naive_branch_general_stat: subtree
      sums by a postorder pass, then the sum over the listed nodes of
      branch length times summary. */
  method NaiveBranchTree(parent: seq<int>, time: seq<int>, w: seq<int>, order: seq<int>,
                         total: int, f: int -> real, polarised: bool) returns (s: real)
    requires ValidForest(parent, time) && |w| == |parent| && IsPostorder(parent, w, order)
    requires total == TotalWeight(w)
    ensures s == NaiveTreeValue(parent, time, w, f, polarised, order)
  {
    var x := PostorderSums(parent, time, w, order);
    MatchesSums(parent, time, w, x);
    s := SumAreas(parent, time, w, x, total, f, polarised, order);
  }

  /** Nodes 0 (a sample of weight 1), 1 (no sample) and 2, at times 0, 0
      and 1, with one edge from 2 down to 1: tskit lists node 0 alone.
      With summary_func the identity, unpolarised, the branch above node 1
      weighs f(0) + f(1) = 1 in branch_general_stat and is missing from
      naive_branch_general_stat. */
  lemma SampleFreeBranchDiffers()
    ensures ValidForest([NULL, 2, NULL], [0, 0, 1])
    ensures IsPostorder([NULL, 2, NULL], [1, 0, 0], [0])
    ensures NaiveTreeValue([NULL, 2, NULL], [0, 0, 1], [1, 0, 0], (x: int) => x as real, false, [0])
            != TreeValue([NULL, 2, NULL], [0, 0, 1], [1, 0, 0], (x: int) => x as real, false)
  {
    var w := [1, 0, 0];
    assert TotalWeight(w) == 1 by {
      assert Sum(3, Weights(w)) == Sum(2, Weights(w)) + 0;
    }
    assert 1 !in [0];
    NaiveTreeAgrees([NULL, 2, NULL], [0, 0, 1], w, (x: int) => x as real, false, [0]);
  }

  /** Entry t of SpanTimes is tree t's value times the tree's span. */
  lemma SpanTimesAt(v: seq<real>, b: seq<real>, t: nat, s: real, l: real, r: real, x: real)
    requires |b| == |v| + 1 && t < |v| && s == v[t] && b[t] == l && b[t + 1] == r
    requires PerLength(s, l, r, x)
    ensures SpanTimes(v, b)[t] == x
  {
  }

  /** The state of naive_branch_general_stat before tree t: the forest of
      the tree before it, and sigma holding the first t entries. */
  ghost predicate NaiveBranchLoop(time: seq<int>, diffs: seq<TreeDiff>, expected: seq<real>, t: nat,
                                  parent: seq<int>, sigma: seq<real>)
  {
    && t <= |diffs| && t <= |expected|
    && DiffsValid(parent, time, diffs[t..])
    && Trees(parent, diffs[t..]) == Trees(NoEdges(|time|), diffs)[t..]
    && sigma == expected[..t]
  }

  /** One tree of naive_branch_general_stat: its value by the postorder
      accumulation, times its span. */
  method NaiveBranchStep(time: seq<int>, w: seq<int>, f: int -> real, diffs: seq<TreeDiff>,
                         orders: seq<seq<int>>, polarised: bool, ghost b: seq<real>, total: int, t: nat,
                         parent: seq<int>, sigma: seq<real>) returns (parent': seq<int>, sigma': seq<real>)
    requires |w| == |time| && DiffsValid(NoEdges(|time|), time, diffs) && total == TotalWeight(w)
    requires |orders| == |diffs| && t < |diffs| && IsPostorder(Trees(NoEdges(|time|), diffs)[t], w, orders[t])
    requires |b| == |diffs| + 1
    requires forall t :: 0 <= t < |diffs| ==> b[t] == diffs[t].left && b[t + 1] == diffs[t].right
    requires NaiveBranchLoop(time, diffs, SpanTimes(NaiveTreeValues(time, w, f, polarised, diffs, orders), b), t, parent, sigma)
    ensures NaiveBranchLoop(time, diffs, SpanTimes(NaiveTreeValues(time, w, f, polarised, diffs, orders), b), t + 1,
                            parent', sigma')
  {
    ghost var values := NaiveTreeValues(time, w, f, polarised, diffs, orders);
    TreesValid(NoEdges(|time|), time, diffs);
    NextDiff(parent, time, diffs, t, Trees(NoEdges(|time|), diffs));
    parent' := Apply(parent, diffs[t]);
    var s := NaiveBranchTree(parent', time, w, orders[t], total, f, polarised);
    var x := s * (diffs[t].right - diffs[t].left);
    assert PerLength(s, diffs[t].left, diffs[t].right, x);
    SpanTimesAt(values, b, t, s, diffs[t].left, diffs[t].right, x);
    sigma' := sigma + [x];
    assert SpanTimes(values, b)[..t + 1] == SpanTimes(values, b)[..t] + [SpanTimes(values, b)[t]];
  }

  /** sigma of naive_branch_general_stat: every tree's value times its span
      b[t+1] - b[t], visiting the trees in order. orders[t] is the postorder
      of tree t. */
  method NaiveSigma(time: seq<int>, w: seq<int>, f: int -> real, diffs: seq<TreeDiff>,
                    orders: seq<seq<int>>, polarised: bool, ghost b: seq<real>) returns (sigma: seq<real>)
    requires |w| == |time| && DiffsValid(NoEdges(|time|), time, diffs)
    requires |orders| == |diffs|
    requires forall t :: 0 <= t < |diffs| ==> IsPostorder(Trees(NoEdges(|time|), diffs)[t], w, orders[t])
    requires |b| == |diffs| + 1
    requires forall t :: 0 <= t < |diffs| ==> b[t] == diffs[t].left && b[t + 1] == diffs[t].right
    ensures sigma == SpanTimes(NaiveTreeValues(time, w, f, polarised, diffs, orders), b)
  {
    var total := SumWeights(w);
    sigma := [];
    var parent := NoEdges(|time|);
    assert diffs[0..] == diffs;
    var t := 0;
    while t < |diffs|
      invariant t <= |diffs|
      invariant NaiveBranchLoop(time, diffs, SpanTimes(NaiveTreeValues(time, w, f, polarised, diffs, orders), b), t, parent, sigma)
    {
      parent, sigma := NaiveBranchStep(time, w, f, diffs, orders, polarised, b, total, t, parent, sigma);
      t := t + 1;
    }
    assert SpanTimes(NaiveTreeValues(time, w, f, polarised, diffs, orders), b)[..t]
             == SpanTimes(NaiveTreeValues(time, w, f, polarised, diffs, orders), b);
  }

  /** naive_branch_general_stat with windows: hand sigma to
      windowed_tree_stat. */
  method NaiveBranchGeneralStat(time: seq<int>, w: seq<int>, f: int -> real, diffs: seq<TreeDiff>,
                                orders: seq<seq<int>>, windows: seq<real>, polarised: bool,
                                spanNormalise: bool) returns (result: seq<real>)
    requires |w| == |time| && Contiguous(diffs) && DiffsValid(NoEdges(|time|), time, diffs)
    requires |orders| == |diffs|
    requires forall t :: 0 <= t < |diffs| ==> IsPostorder(Trees(NoEdges(|time|), diffs)[t], w, orders[t])
    requires Spans(windows, Breakpoints(diffs))
    ensures WindowTotals(result, Breakpoints(diffs), NaiveTreeValues(time, w, f, polarised, diffs, orders),
                         windows, spanNormalise)
  {
    var b := Breakpoints(diffs);
    BreakpointsOfTrees(diffs);
    var sigma := NaiveSigma(time, w, f, diffs, orders, polarised, b);
    result := WindowedTreeStat(b, sigma, windows, spanNormalise);
    DensitiesOfSpans(b, NaiveTreeValues(time, w, f, polarised, diffs, orders), sigma);
  }

  /** naive_branch_general_stat with windows="trees": one value per tree,
      sigma divided by the tree's span when span-normalised, so each tree's
      own value. */
  method NaiveBranchPerTree(time: seq<int>, w: seq<int>, f: int -> real, diffs: seq<TreeDiff>,
                            orders: seq<seq<int>>, polarised: bool, spanNormalise: bool)
      returns (result: seq<real>)
    requires |w| == |time| && Contiguous(diffs) && DiffsValid(NoEdges(|time|), time, diffs)
    requires |orders| == |diffs|
    requires forall t :: 0 <= t < |diffs| ==> IsPostorder(Trees(NoEdges(|time|), diffs)[t], w, orders[t])
    ensures |result| == |diffs|
    ensures spanNormalise ==> result == NaiveTreeValues(time, w, f, polarised, diffs, orders)
    ensures !spanNormalise ==> result == SpanTimes(NaiveTreeValues(time, w, f, polarised, diffs, orders), Breakpoints(diffs))
  {
    var b := Breakpoints(diffs);
    BreakpointsOfTrees(diffs);
    var sigma := NaiveSigma(time, w, f, diffs, orders, polarised, b);
    result := sigma;
    if spanNormalise {
      BreakpointsIncreasing(diffs);
      result := Densities(b, sigma);
      DensitiesOfSpans(b, NaiveTreeValues(time, w, f, polarised, diffs, orders), sigma);
    }
  }

  /** compare_general_stat: the naive and the incremental branch statistics
      give the same window values whenever the listings leave out no
      branch, as in a tree sequence where every edge has a sample below it,
      or the summary of an empty state is 0. */
  method CompareBranchStats(time: seq<int>, w: seq<int>, f: int -> real, diffs: seq<TreeDiff>,
                            orders: seq<seq<int>>, windows: seq<real>, polarised: bool,
                            spanNormalise: bool) returns (naive: seq<real>, incremental: seq<real>)
    requires |w| == |time| && Contiguous(diffs) && DiffsValid(NoEdges(|time|), time, diffs)
    requires |orders| == |diffs|
    requires forall t :: 0 <= t < |diffs| ==> IsPostorder(Trees(NoEdges(|time|), diffs)[t], w, orders[t])
    requires Spans(windows, Breakpoints(diffs))
    ensures |naive| == |windows| - 1 && |incremental| == |windows| - 1
    ensures WindowTotals(naive, Breakpoints(diffs), NaiveTreeValues(time, w, f, polarised, diffs, orders),
                         windows, spanNormalise)
    ensures WindowTotals(incremental, Breakpoints(diffs), TreeValues(time, w, f, polarised, diffs),
                         windows, spanNormalise)
    ensures (Summary(f, TotalWeight(w), 0, polarised) == 0.0
             || forall t :: 0 <= t < |diffs| ==> NoUnlistedBranch(Trees(NoEdges(|time|), diffs)[t], orders[t]))
            ==> naive == incremental
  {
    naive := NaiveBranchGeneralStat(time, w, f, diffs, orders, windows, polarised, spanNormalise);
    incremental := BranchGeneralStat(time, w, f, diffs, windows, polarised, spanNormalise);
    NaiveValuesAgree(time, w, f, polarised, diffs, orders);
    if NaiveTreeValues(time, w, f, polarised, diffs, orders) == TreeValues(time, w, f, polarised, diffs) {
      WindowTotalsUnique(naive, incremental, Breakpoints(diffs), TreeValues(time, w, f, polarised, diffs),
                         windows, spanNormalise);
    }
  }
}

=== FILE: forest.dfy ===
/** The parent-pointer forest of one tree of a tree sequence, the subtree
    sums that the naive postorder loop builds over it, and the incremental
    maintenance of those sums when an edge is removed or inserted.

    Nodes are 0..n-1. `parent[v]` is another node or NULL (-1, a root).
    Every edge joins a child to a parent whose time is strictly greater,
    as tskit requires of its edge table; this is what makes the walk
    towards the root terminate, and it stays true after any insertion
    that respects it. */
module Forest {
  import opened Sums

  /** tskit's NULL node id. */
  const NULL: int := -1

  datatype Edge = Edge(parent: nat, child: nat)

  /** Every node's parent is NULL or a node with strictly greater time. */
  predicate ValidForest(parent: seq<int>, time: seq<int>)
  {
    && |parent| == |time|
    && forall v :: 0 <= v < |parent| ==>
         parent[v] == NULL || (0 <= parent[v] < |parent| && time[v] < time[parent[v]])
  }

  /** The largest node time (0 for no nodes). */
  function MaxTime(time: seq<int>): (m: int)
    ensures forall v :: 0 <= v < |time| ==> time[v] <= m
    ensures |time| > 0 ==> m in time
  {
    if |time| == 0 then 0
    else if |time| == 1 then time[0]
    else
      var rest := MaxTime(time[..|time| - 1]);
      assert rest in time[..|time| - 1];
      if time[|time| - 1] >= rest then time[|time| - 1] else rest
  }

  /** A measure that strictly decreases from a node to its parent. */
  function Height(parent: seq<int>, time: seq<int>, u: int): nat
    requires ValidForest(parent, time)
    requires u == NULL || 0 <= u < |parent|
  {
    if u == NULL then 0 else MaxTime(time) - time[u] + 1
  }

  /** The nodes from u up to its root, in order (empty for NULL). */
  function Path(parent: seq<int>, time: seq<int>, u: int): seq<int>
    requires ValidForest(parent, time)
    requires u == NULL || 0 <= u < |parent|
    decreases Height(parent, time, u)
  {
    if u == NULL then [] else [u] + Path(parent, time, parent[u])
  }

  /** Every node on a path is a node, and every node above the start is
      strictly older than it. */
  lemma {:induction false} PathFacts(parent: seq<int>, time: seq<int>, u: int)
    requires ValidForest(parent, time)
    requires u == NULL || 0 <= u < |parent|
    ensures forall x :: x in Path(parent, time, u) ==>
              0 <= x < |parent| && (x == u || time[u] < time[x])
    decreases Height(parent, time, u)
  {
    if u != NULL {
      PathFacts(parent, time, parent[u]);
    }
  }

  /** Ancestry is transitive. */
  lemma {:induction false} PathTrans(parent: seq<int>, time: seq<int>, u: int, x: int, y: int)
    requires ValidForest(parent, time)
    requires u == NULL || 0 <= u < |parent|
    requires 0 <= x < |parent| && x in Path(parent, time, u)
    requires y in Path(parent, time, x)
    ensures y in Path(parent, time, u)
    decreases Height(parent, time, u)
  {
    PathFacts(parent, time, u);
    if x != u {
      PathTrans(parent, time, parent[u], x, y);
    }
  }

  /** Weight of x counted towards u: w[x] when u is on x's root path. */
  ghost function Indicator(parent: seq<int>, time: seq<int>, w: seq<int>, u: int): nat -> int
    requires ValidForest(parent, time) && |w| == |parent|
  {
    (x: nat) => if x < |parent| && u in Path(parent, time, x) then w[x] else 0
  }

  /** The sum of the weights of every node in u's subtree, u included:
      the value the naive postorder accumulation assigns to u. */
  ghost function SubtreeSum(parent: seq<int>, time: seq<int>, w: seq<int>, u: int): int
    requires ValidForest(parent, time) && |w| == |parent|
  {
    Sum(|parent|, Indicator(parent, time, w, u))
  }

  function Weights(w: seq<int>): nat -> int
  {
    (x: nat) => if x < |w| then w[x] else 0
  }

  /** The total sample weight. */
  function TotalWeight(w: seq<int>): int
  {
    Sum(|w|, Weights(w))
  }

  /** The total of the sample weights, added up node by node. */
  method SumWeights(w: seq<int>) returns (total: int)
    ensures total == TotalWeight(w)
  {
    total := 0;
    var i := 0;
    while i < |w|
      invariant 0 <= i <= |w| && total == Sum(i, Weights(w))
    {
      total := total + w[i];
      i := i + 1;
    }
  }

  /** `state` holds every node's subtree sum under `parent`. */
  ghost predicate Matches(parent: seq<int>, time: seq<int>, w: seq<int>, state: seq<int>)
  {
    && ValidForest(parent, time)
    && |w| == |parent|
    && |state| == |parent|
    && forall u :: 0 <= u < |parent| ==> state[u] == SubtreeSum(parent, time, w, u)
  }

  /** The forest with no edges, where edge_diffs starts. */
  function NoEdges(n: nat): seq<int>
  {
    seq(n, _ => NULL)
  }

  /** With no edges every node is its own subtree: the initial state is the weights. */
  lemma EmptyForestSums(time: seq<int>, w: seq<int>)
    requires |w| == |time|
    ensures Matches(NoEdges(|time|), time, w, w)
  {
    var parent := NoEdges(|time|);
    forall u | 0 <= u < |parent|
      ensures w[u] == SubtreeSum(parent, time, w, u)
    {
      forall x: nat | x < |parent| && x != u
        ensures Indicator(parent, time, w, u)(x) == 0
      {
        assert Path(parent, time, x) == [x];
      }
      assert Path(parent, time, u) == [u];
      SumSingle(|parent|, u, Indicator(parent, time, w, u));
    }
  }

  // ---------------------------------------------------------------------
  // Removing and inserting an edge

  /** Cutting c from its parent: u stays above x exactly when it was above
      x before, unless the cut separates them (x under c, u above c). */
  lemma {:induction false} CutMembership(parent: seq<int>, time: seq<int>, c: int, u: int, x: int)
    requires ValidForest(parent, time)
    requires 0 <= c < |parent| && parent[c] != NULL
    requires x == NULL || 0 <= x < |parent|
    ensures ValidForest(parent[c := NULL], time)
    ensures u in Path(parent[c := NULL], time, x) <==>
              u in Path(parent, time, x) &&
              !(c in Path(parent, time, x) && u in Path(parent, time, parent[c]))
    decreases Height(parent, time, x)
  {
    var cut := parent[c := NULL];
    assert ValidForest(cut, time);
    PathFacts(parent, time, parent[c]);
    if x != NULL {
      PathFacts(parent, time, x);
      if x == c {
        assert Path(cut, time, c) == [c];
      } else {
        CutMembership(parent, time, c, u, parent[x]);
        assert Path(cut, time, x) == [x] + Path(cut, time, parent[x]);
        PathFacts(parent, time, parent[x]);
      }
    }
  }

  /** Cutting c subtracts c's subtree sum from the sum of each of c's
      former ancestors, and leaves every other subtree sum unchanged. */
  lemma CutSubtreeSum(parent: seq<int>, time: seq<int>, w: seq<int>, c: int, u: int)
    requires ValidForest(parent, time) && |w| == |parent|
    requires 0 <= c < |parent| && parent[c] != NULL
    ensures ValidForest(parent[c := NULL], time)
    ensures SubtreeSum(parent[c := NULL], time, w, u) ==
              SubtreeSum(parent, time, w, u) -
              (if u in Path(parent, time, parent[c]) then SubtreeSum(parent, time, w, c) else 0)
  {
    var cut := parent[c := NULL];
    CutMembership(parent, time, c, u, NULL);
    var before := Indicator(parent, time, w, u);
    var after := Indicator(cut, time, w, u);
    var below := Indicator(parent, time, w, c);
    if u in Path(parent, time, parent[c]) {
      forall x: nat | x < |parent|
        ensures before(x) == after(x) + below(x)
      {
        CutMembership(parent, time, c, u, x);
        if c in Path(parent, time, x) {
          PathFacts(parent, time, c);
          assert Path(parent, time, c) == [c] + Path(parent, time, parent[c]);
          PathTrans(parent, time, x, c, u);
        }
      }
      SumAdd(|parent|, after, below, before);
    } else {
      forall x: nat | x < |parent|
        ensures before(x) == after(x)
      {
        CutMembership(parent, time, c, u, x);
      }
      SumExt(|parent|, before, after);
    }
  }

  /** Paths that avoid c do not see a change of c's parent. */
  lemma {:induction false} PathFrame(parent: seq<int>, time: seq<int>, c: int, p: int, x: int)
    requires 0 <= c < |parent|
    requires ValidForest(parent, time) && ValidForest(parent[c := p], time)
    requires x == NULL || 0 <= x < |parent|
    requires c !in Path(parent, time, x)
    ensures Path(parent[c := p], time, x) == Path(parent, time, x)
    decreases Height(parent, time, x)
  {
    if x != NULL {
      PathFrame(parent, time, c, p, parent[x]);
    }
  }

  /** Linking root c under p adds c's subtree sum to the sum of p and of
      each of p's ancestors, and leaves every other subtree sum unchanged. */
  lemma LinkSubtreeSum(parent: seq<int>, time: seq<int>, w: seq<int>, c: int, p: int, u: int)
    requires ValidForest(parent, time) && |w| == |parent|
    requires 0 <= c < |parent| && 0 <= p < |parent|
    requires parent[c] == NULL && time[c] < time[p]
    ensures ValidForest(parent[c := p], time)
    ensures Path(parent[c := p], time, p) == Path(parent, time, p)
    ensures SubtreeSum(parent[c := p], time, w, u) ==
              SubtreeSum(parent, time, w, u) +
              (if u in Path(parent, time, p) then SubtreeSum(parent, time, w, c) else 0)
  {
    var linked := parent[c := p];
    assert ValidForest(linked, time);
    PathFacts(parent, time, p);
    PathFrame(parent, time, c, p, p);
    assert linked[c := NULL] == parent;
    CutSubtreeSum(linked, time, w, c, u);
    CutSubtreeSum(linked, time, w, c, c);
  }

  /** The edges_out step: walk from the edge's parent to the root,
      subtracting the child's state from each ancestor, then detach the
      child. */
  method RemoveEdge(parent: seq<int>, time: seq<int>, state: seq<int>, e: Edge)
      returns (parent': seq<int>, state': seq<int>)
    requires ValidForest(parent, time) && |state| == |parent|
    requires e.child < |parent| && parent[e.child] == e.parent
    ensures parent' == parent[e.child := NULL] && ValidForest(parent', time)
    ensures |state'| == |state|
    ensures forall u :: 0 <= u < |state| ==>
              state'[u] == if u in Path(parent, time, e.parent)
                           then state[u] - state[e.child] else state[u]
  {
    PathFacts(parent, time, e.parent);
    state' := state;
    var u: int := e.parent;
    while u != NULL
      invariant u == NULL || 0 <= u < |parent|
      invariant forall x :: x in Path(parent, time, u) ==> x in Path(parent, time, e.parent)
      invariant |state'| == |state|
      invariant forall x :: 0 <= x < |state| ==>
                  state'[x] == if x in Path(parent, time, e.parent) && x !in Path(parent, time, u)
                               then state[x] - state[e.child] else state[x]
      decreases Height(parent, time, u)
    {
      PathFacts(parent, time, parent[u]);
      assert u in Path(parent, time, e.parent);
      assert e.child !in Path(parent, time, e.parent);
      assert Path(parent, time, u) == [u] + Path(parent, time, parent[u]);
      state' := state'[u := state'[u] - state'[e.child]];
      u := parent[u];
    }
    parent' := parent[e.child := NULL];
  }

  /** The edges_in step: attach the child, then walk from the edge's
      parent to the root, adding the child's state to each ancestor. */
  method InsertEdge(parent: seq<int>, time: seq<int>, state: seq<int>, e: Edge)
      returns (parent': seq<int>, state': seq<int>)
    requires ValidForest(parent, time) && |state| == |parent|
    requires e.child < |parent| && e.parent < |parent|
    requires parent[e.child] == NULL && time[e.child] < time[e.parent]
    ensures parent' == parent[e.child := e.parent] && ValidForest(parent', time)
    ensures |state'| == |state|
    ensures forall u :: 0 <= u < |state| ==>
              state'[u] == if u in Path(parent, time, e.parent)
                           then state[u] + state[e.child] else state[u]
  {
    parent' := parent[e.child := e.parent];
    assert ValidForest(parent', time);
    PathFacts(parent, time, e.parent);
    PathFrame(parent, time, e.child, e.parent, e.parent);
    state' := state;
    var u: int := e.parent;
    while u != NULL
      invariant u == NULL || 0 <= u < |parent|
      invariant forall x :: x in Path(parent', time, u) ==> x in Path(parent', time, e.parent)
      invariant |state'| == |state|
      invariant forall x :: 0 <= x < |state| ==>
                  state'[x] == if x in Path(parent', time, e.parent) && x !in Path(parent', time, u)
                               then state[x] + state[e.child] else state[x]
      decreases Height(parent', time, u)
    {
      PathFacts(parent', time, parent'[u]);
      assert u in Path(parent', time, e.parent);
      assert e.child !in Path(parent', time, e.parent);
      assert Path(parent', time, u) == [u] + Path(parent', time, parent'[u]);
      state' := state'[u := state'[u] + state'[e.child]];
      u := parent'[u];
    }
  }

  /** RemoveEdge keeps `state` equal to the subtree sums. */
  lemma RemoveEdgeKeepsSums(parent: seq<int>, time: seq<int>, w: seq<int>,
                            state: seq<int>, c: int, state': seq<int>)
    requires Matches(parent, time, w, state)
    requires 0 <= c < |parent| && parent[c] != NULL
    requires |state'| == |state|
    requires forall u :: 0 <= u < |state| ==>
               state'[u] == if u in Path(parent, time, parent[c])
                            then state[u] - state[c] else state[u]
    ensures Matches(parent[c := NULL], time, w, state')
  {
    forall u | 0 <= u < |parent|
      ensures state'[u] == SubtreeSum(parent[c := NULL], time, w, u)
    {
      CutSubtreeSum(parent, time, w, c, u);
    }
  }

  /** InsertEdge keeps `state` equal to the subtree sums. */
  lemma InsertEdgeKeepsSums(parent: seq<int>, time: seq<int>, w: seq<int>,
                            state: seq<int>, c: int, p: int, state': seq<int>)
    requires Matches(parent, time, w, state)
    requires 0 <= c < |parent| && 0 <= p < |parent|
    requires parent[c] == NULL && time[c] < time[p]
    requires |state'| == |state|
    requires forall u :: 0 <= u < |state| ==>
               state'[u] == if u in Path(parent, time, p)
                            then state[u] + state[c] else state[u]
    ensures Matches(parent[c := p], time, w, state')
  {
    forall u | 0 <= u < |parent|
      ensures state'[u] == SubtreeSum(parent[c := p], time, w, u)
    {
      LinkSubtreeSum(parent, time, w, c, p, u);
    }
  }

  /** Every node's subtree sum in a forest. */
  ghost function SubtreeSums(parent: seq<int>, time: seq<int>, w: seq<int>): (x: seq<int>)
    requires ValidForest(parent, time) && |w| == |parent|
    ensures |x| == |parent|
  {
    seq(|parent|, u requires 0 <= u < |parent| => SubtreeSum(parent, time, w, u))
  }

  lemma MatchesSums(parent: seq<int>, time: seq<int>, w: seq<int>, state: seq<int>)
    requires Matches(parent, time, w, state)
    ensures state == SubtreeSums(parent, time, w)
  {
  }
}

=== FILE: matrix.dfy ===
/** upper_tri_to_matrix: rebuild a symmetric n x n matrix from its upper
    triangle, diagonal included, listed row by row. The side n is recovered
    from the vector's length by inverting u = n(n+1)/2 with a square root;
    entries beyond the first n(n+1)/2 are ignored. */
module Matrix {
  /** The number of entries on and above the diagonal of an n x n matrix. */
  function Triangle(n: nat): nat
  {
    if n == 0 then 0 else Triangle(n - 1) + n
  }

  /** The closed form the source inverts: n(n+1)/2, and 8u + 1 is the
      square of 2n + 1. */
  lemma {:induction false} TriangleClosedForm(n: nat)
    ensures 2 * Triangle(n) == n * (n + 1)
    ensures 8 * Triangle(n) + 1 == (2 * n + 1) * (2 * n + 1)
  {
    if n > 0 {
      TriangleClosedForm(n - 1);
    }
  }

  /** The side int((sqrt(1 + 8u) - 1) / 2): the largest n whose triangle
      fits in u entries, which is the n with (2n+1)^2 <= 1 + 8u < (2n+3)^2. */
  method Side(u: nat) returns (n: nat)
    ensures Triangle(n) <= u < Triangle(n + 1)
    ensures (2 * n + 1) * (2 * n + 1) <= 1 + 8 * u < (2 * n + 3) * (2 * n + 3)
  {
    n := 0;
    while Triangle(n + 1) <= u
      invariant Triangle(n) <= u
      decreases u - Triangle(n)
    {
      n := n + 1;
    }
    TriangleClosedForm(n);
    TriangleClosedForm(n + 1);
  }

  /** Where row i starts in the row-major listing of the upper triangle:
      rows 0 .. i-1 hold n, n-1, .., n-i+1 entries. */
  function RowStart(i: nat, n: nat): nat
    requires i <= n
  {
    if i == 0 then 0 else RowStart(i - 1, n) + (n - (i - 1))
  }

  /** The rows together hold the whole triangle. */
  lemma {:induction false} RowStartEnd(i: nat, n: nat)
    requires i <= n
    ensures RowStart(i, n) + Triangle(n - i) == Triangle(n)
  {
    if i > 0 {
      RowStartEnd(i - 1, n);
    }
  }

  /** Row starts increase by the row's length. */
  lemma {:induction false} RowStartMonotone(i: nat, k: nat, n: nat)
    requires i <= k <= n
    ensures RowStart(i, n) + (k - i) <= RowStart(k, n)
    decreases k - i
  {
    if i < k {
      RowStartMonotone(i, k - 1, n);
    }
  }

  /** The position of entry (i, j), i <= j, in the row-major listing. */
  function Offset(i: nat, j: nat, n: nat): nat
    requires i <= j < n
  {
    RowStart(i, n) + (j - i)
  }

  /** Every entry lies in the listing, and distinct entries have distinct
      positions. */
  lemma OffsetBounds(i: nat, j: nat, n: nat)
    requires i <= j < n
    ensures RowStart(i, n) <= Offset(i, j, n) < RowStart(i + 1, n) <= Triangle(n)
  {
    RowStartEnd(i + 1, n);
  }

  /** A square matrix of side n. */
  predicate IsSquare(m: seq<seq<real>>, n: nat)
  {
    |m| == n && forall i :: 0 <= i < n ==> |m[i]| == n
  }

  predicate Symmetric(m: seq<seq<real>>)
    requires IsSquare(m, |m|)
  {
    forall i, j :: 0 <= i < |m| && 0 <= j < |m| ==> m[i][j] == m[j][i]
  }

  /** The upper triangle of m from row i on, diagonal included, row by row. */
  function UpperRows(m: seq<seq<real>>, i: nat): (x: seq<real>)
    requires IsSquare(m, |m|) && i <= |m|
    ensures |x| == Triangle(|m| - i)
    decreases |m| - i
  {
    if i == |m| then [] else m[i][i..] + UpperRows(m, i + 1)
  }

  /** The upper triangle of m, diagonal included, in row-major order: the
      vector upper_tri_to_matrix reads. */
  function UpperTri(m: seq<seq<real>>): (x: seq<real>)
    requires IsSquare(m, |m|)
    ensures |x| == Triangle(|m|)
  {
    UpperRows(m, 0)
  }

  /** Entry (i, j) of the triangle sits at Offset(i, j) of the listing. */
  lemma {:induction false} UpperRowsAt(m: seq<seq<real>>, r: nat, i: nat, j: nat)
    requires IsSquare(m, |m|) && r <= i <= j < |m|
    ensures RowStart(r, |m|) <= Offset(i, j, |m|) < RowStart(r, |m|) + |UpperRows(m, r)|
    ensures UpperRows(m, r)[Offset(i, j, |m|) - RowStart(r, |m|)] == m[i][j]
    decreases i - r
  {
    var n := |m|;
    var head := m[r][r..];
    assert UpperRows(m, r) == head + UpperRows(m, r + 1);
    OffsetBounds(i, j, n);
    if r == i {
      assert Offset(i, j, n) - RowStart(r, n) == j - i < |head|;
    } else {
      UpperRowsAt(m, r + 1, i, j);
      assert RowStart(r + 1, n) == RowStart(r, n) + |head|;
    }
  }

  lemma UpperTriAt(m: seq<seq<real>>, i: nat, j: nat)
    requires IsSquare(m, |m|) && i <= j < |m|
    ensures Offset(i, j, |m|) < |UpperTri(m)|
    ensures UpperTri(m)[Offset(i, j, |m|)] == m[i][j]
  {
    UpperRowsAt(m, 0, i, j);
  }

  /** Every position below Triangle(n) is the offset of an entry of the
      triangle. */
  lemma OffsetOnto(k: nat, n: nat) returns (i: nat, j: nat)
    requires k < Triangle(n)
    ensures i <= j < n && Offset(i, j, n) == k
  {
    i := 0;
    RowStartEnd(0, n);
    while !(k < RowStart(i + 1, n))
      invariant i < n && RowStart(i, n) <= k
      decreases n - i
    {
      RowStartEnd(i + 1, n);
      if i + 1 == n {
        assert false;
      }
      i := i + 1;
    }
    j := i + (k - RowStart(i, n));
  }

  /** The listing determines a symmetric matrix: two symmetric matrices of
      one side with the same upper triangle are equal. */
  lemma UpperTriDetermines(m: seq<seq<real>>, m': seq<seq<real>>)
    requires IsSquare(m, |m|) && IsSquare(m', |m|) && |m'| == |m|
    requires Symmetric(m) && Symmetric(m')
    requires UpperTri(m) == UpperTri(m')
    ensures m == m'
  {
    forall i, j | 0 <= i < |m| && 0 <= j < |m|
      ensures m[i][j] == m'[i][j]
    {
      if i <= j {
        UpperTriAt(m, i, j);
        UpperTriAt(m', i, j);
      } else {
        UpperTriAt(m, j, i);
        UpperTriAt(m', j, i);
      }
    }
    forall i | 0 <= i < |m|
      ensures m[i] == m'[i]
    {
    }
  }

  /** What the nested loops have written: every entry (r, c) whose smaller
      index is a finished row, or is row i up to column j, holds the
      listing's entry for it; the rest still hold 1. */
  predicate Filled(out: seq<seq<real>>, x: seq<real>, n: nat, i: nat, j: nat)
    requires IsSquare(out, n) && Triangle(n) <= |x|
  {
    forall r, c :: 0 <= r < n && 0 <= c < n ==>
      var lo := if r <= c then r else c;
      var hi := if r <= c then c else r;
      out[r][c] == if lo < i || (lo == i && hi < j) then x[(OffsetBounds(lo, hi, n); Offset(lo, hi, n))] else 1.0
  }

  /** One pass of the inner loop: entry k of the listing goes to cell
      (i, j) and to its mirror (j, i). */
  method SetPair(out: seq<seq<real>>, x: seq<real>, n: nat, i: nat, j: nat, k: nat)
      returns (out': seq<seq<real>>)
    requires IsSquare(out, n) && Triangle(n) <= |x| && i <= j < n
    requires k == Offset(i, j, n)
    requires Filled(out, x, n, i, j)
    ensures IsSquare(out', n) && Filled(out', x, n, i, j + 1)
  {
    OffsetBounds(i, j, n);
    var v := x[k];
    out' := out[i := out[i][j := v]];
    out' := out'[j := out'[j][i := v]];
    forall r, c | 0 <= r < n && 0 <= c < n
      ensures out'[r][c] == if (r == i && c == j) || (r == j && c == i) then v else out[r][c]
    {
    }
  }

  /** upper_tri_to_matrix: n is the side whose triangle fits in |x|, and
      the result is the symmetric n x n matrix whose upper triangle, row by
      row, is the first Triangle(n) entries of x. */
  method UpperTriToMatrix(x: seq<real>) returns (out: seq<seq<real>>)
    ensures Triangle(|out|) <= |x| < Triangle(|out| + 1)
    ensures IsSquare(out, |out|) && Symmetric(out)
    ensures UpperTri(out) == x[..Triangle(|out|)]
  {
    var n := Side(|x|);
    out := seq(n, _ => seq(n, _ => 1.0));
    var k := 0;
    var i := 0;
    while i < n
      invariant i <= n && IsSquare(out, n)
      invariant k == RowStart(i, n)
      invariant Filled(out, x, n, i, i)
    {
      var j := i;
      while j < n
        invariant i <= j <= n && IsSquare(out, n)
        invariant k == RowStart(i, n) + (j - i)
        invariant Filled(out, x, n, i, j)
      {
        out := SetPair(out, x, n, i, j, k);
        k := k + 1;
        j := j + 1;
      }
      i := i + 1;
    }
    Assembled(out, x, n);
    assert |out| == n;
  }

  /** Once every row is done, the matrix is symmetric and lists x. */
  lemma Assembled(out: seq<seq<real>>, x: seq<real>, n: nat)
    requires IsSquare(out, n) && Triangle(n) <= |x| && Filled(out, x, n, n, n)
    ensures Symmetric(out)
    ensures UpperTri(out) == x[..Triangle(n)]
  {
    forall k | 0 <= k < Triangle(n)
      ensures UpperTri(out)[k] == x[k]
    {
      var i, j := OffsetOnto(k, n);
      UpperTriAt(out, i, j);
    }
  }
}

=== FILE: nodes.dfy ===
/** Node-mode statistics. Each node u carries, along the genome, the
    summary of its subtree sum of weights in the tree covering the
    position (plus the summary of the complement unless polarised); the
    statistic of window j for node u is the integral of that value over the
    window, divided by the window's length when span-normalised.

    naive_node_general_stat recomputes every tree from scratch by a
    postorder pass and hands the per-tree values, times the tree spans, to
    windowed_tree_stat. node_general_stat keeps the subtree sums up to date
    edge by edge and accumulates lazily: current_values[u] holds u's value,
    last_update[u] the position up to which u's integral has been added to
    the current window, and the pending stretch is added whenever u's value
    is about to change or a window closes. */
module Nodes {
  import opened Sums
  import opened Forest
  import opened TreeSeq
  import opened Windows
  import opened Postorder
  import opened Branch

  // ---------------------------------------------------------------------
  // What both versions compute

  /** vals[u][t]: node u's value in tree t, the summary of its subtree sum. */
  ghost function NodeValues(time: seq<int>, w: seq<int>, f: int -> real, polarised: bool,
                            diffs: seq<TreeDiff>): (vals: seq<seq<real>>)
    requires |w| == |time| && DiffsValid(NoEdges(|time|), time, diffs)
    ensures |vals| == |time| && forall u :: 0 <= u < |time| ==> |vals[u]| == |diffs|
  {
    var trees := Trees(NoEdges(|time|), diffs);
    TreesValid(NoEdges(|time|), time, diffs);
    seq(|time|, u requires 0 <= u < |time| =>
          seq(|diffs|, t requires 0 <= t < |diffs| =>
                Summary(f, TotalWeight(w), SubtreeSum(trees[t], time, w, u), polarised)))
  }

  /** vals holds every node's value in every tree, stated for any state
      that holds a tree's subtree sums. */
  ghost predicate NodeValuesAt(time: seq<int>, w: seq<int>, f: int -> real, polarised: bool,
                               diffs: seq<TreeDiff>, vals: seq<seq<real>>)
  {
    && |vals| == |time| && (forall u :: 0 <= u < |time| ==> |vals[u]| == |diffs|)
    && forall t, state :: 0 <= t < |diffs| && Matches(Trees(NoEdges(|time|), diffs)[t], time, w, state) ==>
         forall u :: 0 <= u < |time| ==> vals[u][t] == Summary(f, TotalWeight(w), state[u], polarised)
  }

  lemma AllNodeValues(time: seq<int>, w: seq<int>, f: int -> real, polarised: bool, diffs: seq<TreeDiff>)
    requires |w| == |time| && DiffsValid(NoEdges(|time|), time, diffs)
    ensures NodeValuesAt(time, w, f, polarised, diffs, NodeValues(time, w, f, polarised, diffs))
  {
    var vals := NodeValues(time, w, f, polarised, diffs);
    forall t, state | 0 <= t < |diffs| && Matches(Trees(NoEdges(|time|), diffs)[t], time, w, state)
      ensures forall u :: 0 <= u < |time| ==> vals[u][t] == Summary(f, TotalWeight(w), state[u], polarised)
    {
      MatchesSums(Trees(NoEdges(|time|), diffs)[t], time, w, state);
    }
  }

  /** A windows-by-nodes matrix. */
  predicate IsGrid(m: seq<seq<real>>, rows: nat, cols: nat)
  {
    |m| == rows && forall j :: 0 <= j < rows ==> |m[j]| == cols
  }

  /** result[j][u] is node u's statistic in window j: the integral of u's
      value over the window, per unit length when normalised. */
  ghost predicate NodeTotals(result: seq<seq<real>>, b: seq<real>, vals: seq<seq<real>>,
                             windows: seq<real>, normalise: bool)
    requires |b| > 0 && |windows| > 0
  {
    && IsGrid(result, |windows| - 1, |vals|)
    && forall u :: 0 <= u < |vals| ==> WindowTotals(Column(result, u), b, vals[u], windows, normalise)
  }

  /** The node statistic is determined by the nodes' values: two results
      with the totals property are equal. */
  lemma NodeTotalsUnique(a: seq<seq<real>>, a': seq<seq<real>>, b: seq<real>, vals: seq<seq<real>>,
                         windows: seq<real>, normalise: bool)
    requires |b| > 0 && ValidWindows(windows)
    requires NodeTotals(a, b, vals, windows, normalise) && NodeTotals(a', b, vals, windows, normalise)
    ensures a == a'
  {
    forall u | 0 <= u < |vals|
      ensures Column(a, u) == Column(a', u)
    {
      WindowTotalsUnique(Column(a, u), Column(a', u), b, vals[u], windows, normalise);
    }
    forall j | 0 <= j < |a|
      ensures a[j] == a'[j]
    {
      forall u | 0 <= u < |vals|
        ensures a[j][u] == a'[j][u]
      {
        assert Column(a, u)[j] == a[j][u] && Column(a', u)[j] == a'[j][u];
      }
    }
  }

  // ---------------------------------------------------------------------
  // Lazy accumulation

  /** One catch-up of a node's accumulator: its value held from the last
      update to now, added to what it has gathered. */
  function Advance(acc: real, last: real, now: real, value: real): real
  {
    acc + value * (now - last)
  }

  /** An empty stretch integrates to nothing. */
  lemma WindowedEmpty(b: seq<real>, v: seq<real>, x: real)
    requires |b| > 0
    ensures Windowed(b, v, x, x) == 0.0
  {
    forall t: nat | t < |b| - 1
      ensures LengthTerms(b, x, x)(t) == 0.0
    {
    }
    WeightedZero(|b| - 1, v, LengthTerms(b, x, x));
  }

  /** x(a + b) = xa + xb, with the products kept apart from the terms. */
  lemma Distribute(x: real, a: real, b: real, o: real)
    requires o == a + b
    ensures x * o == x * a + x * b
  {
  }

  /** Tree t's contribution to [l, r) is its contribution to [l, m) plus
      its contribution to [m, r). */
  lemma TermSplit(b: seq<real>, v: seq<real>, l: real, m: real, r: real, t: nat)
    requires t + 1 < |b| && |v| == |b| - 1 && b[t] <= b[t + 1] && l <= m <= r
    ensures WindowTerms(b, v, l, r)(t) == WindowTerms(b, v, l, m)(t) + WindowTerms(b, v, m, r)(t)
  {
    OverlapSplit(l, m, r, b[t], b[t + 1]);
    Distribute(v[t], Overlap(b[t], b[t + 1], l, m), Overlap(b[t], b[t + 1], m, r),
               Overlap(b[t], b[t + 1], l, r));
  }

  /** Over [m, r), tree t contributes c times its overlap when its value
      is c or it does not meet the stretch. */
  lemma TermConstant(b: seq<real>, v: seq<real>, m: real, r: real, c: real, t: nat)
    requires t + 1 < |b| && |v| == |b| - 1 && b[t] <= b[t + 1] && m <= r
    requires v[t] == c || r <= b[t] || b[t + 1] <= m
    ensures WindowTerms(b, v, m, r)(t) == c * LengthTerms(b, m, r)(t)
  {
    if v[t] != c {
      assert Overlap(b[t], b[t + 1], m, r) == 0.0;
    }
  }

  /** The integral over [l, r) splits at m. */
  lemma WindowedSplit(b: seq<real>, v: seq<real>, l: real, m: real, r: real)
    requires Increasing(b) && |b| >= 2 && |v| == |b| - 1 && l <= m <= r
    ensures Windowed(b, v, l, r) == Windowed(b, v, l, m) + Windowed(b, v, m, r)
  {
    var n := |b| - 1;
    forall t: nat | t < n
      ensures WindowTerms(b, v, l, r)(t) == WindowTerms(b, v, l, m)(t) + WindowTerms(b, v, m, r)(t)
    {
      TermSplit(b, v, l, m, r, t);
    }
    SumRAdd(n, WindowTerms(b, v, l, m), WindowTerms(b, v, m, r), WindowTerms(b, v, l, r));
  }

  /** Over a stretch [m, r) ending by b[k], on which every one of the
      first k trees that meets it has value c, v integrates like the
      constant c. */
  lemma ConstantTerms(b: seq<real>, v: seq<real>, m: real, r: real, c: real, k: nat)
    requires Increasing(b) && |b| >= 2 && |v| == |b| - 1
    requires m <= r && k < |b| && r <= b[k]
    requires forall t :: 0 <= t < k && m < b[t + 1] ==> v[t] == c
    ensures Windowed(b, v, m, r) == Windowed(b, seq(|v|, _ => c), m, r)
  {
    var n := |b| - 1;
    var cs := seq(|v|, _ => c);
    forall t: nat | t < n
      ensures WindowTerms(b, v, m, r)(t) == WindowTerms(b, cs, m, r)(t)
    {
      if k <= t {
        assert b[k] <= b[t];
      }
      TermConstant(b, v, m, r, c, t);
      TermConstant(b, cs, m, r, c, t);
    }
    SumRExt(n, WindowTerms(b, v, m, r), WindowTerms(b, cs, m, r));
  }

  /** The same, per unit length: the integral is c times the stretch's
      length. */
  lemma WindowedConstant(b: seq<real>, v: seq<real>, m: real, r: real, c: real, k: nat)
    requires ValidWindows(b) && |v| == |b| - 1
    requires b[0] <= m <= r && k < |b| && r <= b[k]
    requires forall t :: 0 <= t < k && m < b[t + 1] ==> v[t] == c
    ensures PerLength(c, m, r, Windowed(b, v, m, r))
  {
    ConstantTerms(b, v, m, r, c, k);
    assert r <= b[|b| - 1] by {
      if k < |b| - 1 {
        assert b[k] < b[|b| - 1];
      }
    }
    Coverage(b, m, r);
    ConstantCovered(b, seq(|v|, _ => c), c, m, r);
  }

  /** Integrating v up to m and then adding the constant c for the stretch
      [m, r) gives the integral up to r, when v is c on every tree that
      meets [m, r) among the first k, and the stretch ends by b[k]. */
  lemma WindowedExtend(b: seq<real>, v: seq<real>, l: real, m: real, r: real, c: real, k: nat)
    requires ValidWindows(b) && |v| == |b| - 1
    requires b[0] <= l <= m <= r && k < |b| && r <= b[k]
    requires forall t :: 0 <= t < k && m < b[t + 1] ==> v[t] == c
    ensures Advance(Windowed(b, v, l, m), m, r, c) == Windowed(b, v, l, r)
  {
    WindowedSplit(b, v, l, m, r);
    WindowedConstant(b, v, m, r, c, k);
  }

  /** Node u's accumulators after the first k trees have been entered:
      the windows before wi are final; window wi holds the integral up to
      last; the later windows are still 0; and u's value has been `value`
      on every one of the first k trees since last. */
  ghost predicate Flushed(b: seq<real>, windows: seq<real>, v: seq<real>, result: seq<seq<real>>,
                          u: nat, wi: nat, k: nat, last: real, value: real)
  {
    && |b| == |v| + 1 && |b| > 0 && k < |b| && |result| == |windows| - 1 && wi <= |result|
    && (forall j :: 0 <= j < wi ==>
          u < |result[j]| && result[j][u] == Windowed(b, v, windows[j], windows[j + 1]))
    && (wi < |result| ==>
          && windows[wi] <= last <= windows[wi + 1] && last <= b[k]
          && u < |result[wi]| && result[wi][u] == Windowed(b, v, windows[wi], last))
    && (forall j :: wi < j < |result| ==> u < |result[j]| && result[j][u] == 0.0)
    && (forall t :: 0 <= t < k && last < b[t + 1] ==> v[t] == value)
  }

  /** Every node's accumulators are as Flushed describes. */
  ghost predicate AllFlushed(b: seq<real>, windows: seq<real>, vals: seq<seq<real>>, result: seq<seq<real>>,
                             wi: nat, k: nat, lu: seq<real>, cv: seq<real>)
  {
    && |lu| == |vals| && |cv| == |vals|
    && forall u :: 0 <= u < |vals| ==> Flushed(b, windows, vals[u], result, u, wi, k, lu[u], cv[u])
  }

  /** current_values holds node_summary of every node's state. */
  predicate CurrentValues(cv: seq<real>, state: seq<int>, total: int, f: int -> real, polarised: bool)
  {
    |cv| == |state| && forall u :: 0 <= u < |state| ==> cv[u] == Summary(f, total, state[u], polarised)
  }

  // ---------------------------------------------------------------------
  // The edge loops

  /** The effect of one walk from `top` to its root at position pos: every
      node on the way has its pending stretch added to window wi, its last
      update moved to pos, its state changed by delta and its value
      recomputed; nothing else changes. */
  ghost predicate Walked(parent: seq<int>, time: seq<int>, top: int, delta: int, pos: real, wi: nat,
                         total: int, f: int -> real, polarised: bool,
                         state: seq<int>, result: seq<seq<real>>, lu: seq<real>, cv: seq<real>,
                         state': seq<int>, result': seq<seq<real>>, lu': seq<real>, cv': seq<real>)
    requires ValidForest(parent, time) && (top == NULL || 0 <= top < |parent|)
  {
    && |state| == |parent| && |state'| == |parent| && |lu| == |parent| && |lu'| == |parent|
    && |cv| == |parent| && |cv'| == |parent|
    && |result'| == |result| && wi < |result| && |result[wi]| == |parent| && |result'[wi]| == |parent|
    && (forall j :: 0 <= j < |result| && j != wi ==> result'[j] == result[j])
    && forall x :: 0 <= x < |parent| ==>
         if x in Path(parent, time, top) then
           && state'[x] == state[x] + delta && lu'[x] == pos
           && cv'[x] == Summary(f, total, state'[x], polarised)
           && result'[wi][x] == Advance(result[wi][x], lu[x], pos, cv[x])
         else
           && state'[x] == state[x] && lu'[x] == lu[x] && cv'[x] == cv[x]
           && result'[wi][x] == result[wi][x]
  }

  /** The walk of node_general_stat from a node up to its root. In the
      source delta is the child's state, negated on removal; the walk never
      changes it, since the child is not above its parent. */
  method NodeWalk(parent: seq<int>, time: seq<int>, state: seq<int>, total: int, f: int -> real,
                  polarised: bool, result: seq<seq<real>>, lu: seq<real>, cv: seq<real>, wi: nat,
                  pos: real, top: int, delta: int)
      returns (state': seq<int>, result': seq<seq<real>>, lu': seq<real>, cv': seq<real>)
    requires ValidForest(parent, time) && |state| == |parent| && |lu| == |parent| && |cv| == |parent|
    requires wi < |result| && |result[wi]| == |parent|
    requires top == NULL || 0 <= top < |parent|
    ensures Walked(parent, time, top, delta, pos, wi, total, f, polarised,
                   state, result, lu, cv, state', result', lu', cv')
  {
    PathFacts(parent, time, top);
    state', result', lu', cv' := state, result, lu, cv;
    var v := top;
    while v != NULL
      invariant v == NULL || 0 <= v < |parent|
      invariant forall x :: x in Path(parent, time, v) ==> x in Path(parent, time, top)
      invariant |state'| == |parent| && |lu'| == |parent| && |cv'| == |parent|
      invariant |result'| == |result| && |result'[wi]| == |parent|
      invariant forall j :: 0 <= j < |result| && j != wi ==> result'[j] == result[j]
      invariant forall x :: 0 <= x < |parent| ==>
                  if x in Path(parent, time, top) && x !in Path(parent, time, v) then
                    && state'[x] == state[x] + delta && lu'[x] == pos
                    && cv'[x] == Summary(f, total, state'[x], polarised)
                    && result'[wi][x] == Advance(result[wi][x], lu[x], pos, cv[x])
                  else
                    && state'[x] == state[x] && lu'[x] == lu[x] && cv'[x] == cv[x]
                    && result'[wi][x] == result[wi][x]
      decreases Height(parent, time, v)
    {
      PathFacts(parent, time, parent[v]);
      assert v in Path(parent, time, top);
      assert Path(parent, time, v) == [v] + Path(parent, time, parent[v]);
      result' := result'[wi := result'[wi][v := Advance(result'[wi][v], lu'[v], pos, cv'[v])]];
      lu' := lu'[v := pos];
      state' := state'[v := state'[v] + delta];
      cv' := cv'[v := Summary(f, total, state'[v], polarised)];
      v := parent[v];
    }
  }

  /** A walk at the left end of tree k keeps every node's accumulators
      right: a node on the walk has its integral brought up to pos, and
      since pos is where tree k starts, no earlier tree lies after it. */
  lemma WalkKeepsFlushed(parent: seq<int>, time: seq<int>, top: int, delta: int, pos: real, wi: nat,
                         total: int, f: int -> real, polarised: bool,
                         state: seq<int>, result: seq<seq<real>>, lu: seq<real>, cv: seq<real>,
                         state': seq<int>, result': seq<seq<real>>, lu': seq<real>, cv': seq<real>,
                         b: seq<real>, windows: seq<real>, vals: seq<seq<real>>, k: nat)
    requires ValidForest(parent, time) && (top == NULL || 0 <= top < |parent|)
    requires Walked(parent, time, top, delta, pos, wi, total, f, polarised,
                    state, result, lu, cv, state', result', lu', cv')
    requires Spans(windows, b) && |vals| == |parent|
    requires k < |b| && pos == b[k] && wi + 1 < |windows| && windows[wi] <= pos < windows[wi + 1]
    requires AllFlushed(b, windows, vals, result, wi, k, lu, cv)
    ensures AllFlushed(b, windows, vals, result', wi, k, lu', cv')
  {
    forall u | 0 <= u < |vals|
      ensures Flushed(b, windows, vals[u], result', u, wi, k, lu'[u], cv'[u])
    {
      assert Flushed(b, windows, vals[u], result, u, wi, k, lu[u], cv[u]);
      if u in Path(parent, time, top) {
        assert windows[0] <= windows[wi];
        WindowedExtend(b, vals[u], windows[wi], lu[u], pos, cv[u], k);
        forall t | 0 <= t < k
          ensures b[t + 1] <= pos || vals[u][t] == cv'[u]
        {
          if t + 1 < k {
            assert b[t + 1] < b[k];
          }
        }
      }
    }
  }

  /** The edges_out step of node_general_stat: walk from the edge's parent
      to the root subtracting the child's state, then detach the child. */
  method RemoveEdgeNode(parent: seq<int>, time: seq<int>, ghost w: seq<int>, state: seq<int>, total: int,
                        f: int -> real, polarised: bool, result: seq<seq<real>>, lu: seq<real>,
                        cv: seq<real>, wi: nat, pos: real, e: Edge,
                        ghost b: seq<real>, ghost windows: seq<real>, ghost vals: seq<seq<real>>, ghost k: nat)
      returns (parent': seq<int>, state': seq<int>, result': seq<seq<real>>, lu': seq<real>, cv': seq<real>)
    requires Matches(parent, time, w, state) && CurrentValues(cv, state, total, f, polarised)
    requires e.child < |parent| && parent[e.child] == e.parent
    requires Spans(windows, b) && |vals| == |parent| && IsGrid(result, |windows| - 1, |parent|)
    requires k < |b| && pos == b[k] && wi + 1 < |windows| && windows[wi] <= pos < windows[wi + 1]
    requires AllFlushed(b, windows, vals, result, wi, k, lu, cv)
    ensures parent' == parent[e.child := NULL] && Matches(parent', time, w, state')
    ensures CurrentValues(cv', state', total, f, polarised) && IsGrid(result', |windows| - 1, |parent|)
    ensures AllFlushed(b, windows, vals, result', wi, k, lu', cv')
  {
    state', result', lu', cv' := NodeWalk(parent, time, state, total, f, polarised, result, lu, cv, wi,
                                          pos, e.parent, -state[e.child]);
    WalkKeepsFlushed(parent, time, e.parent, -state[e.child], pos, wi, total, f, polarised,
                     state, result, lu, cv, state', result', lu', cv', b, windows, vals, k);
    parent' := parent[e.child := NULL];
    RemoveEdgeKeepsSums(parent, time, w, state, e.child, state');
  }

  /** The edges_in step of node_general_stat: attach the child, then walk
      from the edge's parent to the root adding the child's state. */
  method InsertEdgeNode(parent: seq<int>, time: seq<int>, ghost w: seq<int>, state: seq<int>, total: int,
                        f: int -> real, polarised: bool, result: seq<seq<real>>, lu: seq<real>,
                        cv: seq<real>, wi: nat, pos: real, e: Edge,
                        ghost b: seq<real>, ghost windows: seq<real>, ghost vals: seq<seq<real>>, ghost k: nat)
      returns (parent': seq<int>, state': seq<int>, result': seq<seq<real>>, lu': seq<real>, cv': seq<real>)
    requires Matches(parent, time, w, state) && CurrentValues(cv, state, total, f, polarised)
    requires e.child < |parent| && e.parent < |parent|
    requires parent[e.child] == NULL && time[e.child] < time[e.parent]
    requires Spans(windows, b) && |vals| == |parent| && IsGrid(result, |windows| - 1, |parent|)
    requires k < |b| && pos == b[k] && wi + 1 < |windows| && windows[wi] <= pos < windows[wi + 1]
    requires AllFlushed(b, windows, vals, result, wi, k, lu, cv)
    ensures parent' == parent[e.child := e.parent] && Matches(parent', time, w, state')
    ensures CurrentValues(cv', state', total, f, polarised) && IsGrid(result', |windows| - 1, |parent|)
    ensures AllFlushed(b, windows, vals, result', wi, k, lu', cv')
  {
    parent' := parent[e.child := e.parent];
    assert ValidForest(parent', time);
    PathFacts(parent, time, e.parent);
    PathFrame(parent, time, e.child, e.parent, e.parent);
    state', result', lu', cv' := NodeWalk(parent', time, state, total, f, polarised, result, lu, cv, wi,
                                          pos, e.parent, state[e.child]);
    WalkKeepsFlushed(parent', time, e.parent, state[e.child], pos, wi, total, f, polarised,
                     state, result, lu, cv, state', result', lu', cv', b, windows, vals, k);
    InsertEdgeKeepsSums(parent, time, w, state, e.child, e.parent, state');
  }

  /** The edges_out loop of node_general_stat. */
  method RemoveEdgesNode(parent: seq<int>, time: seq<int>, ghost w: seq<int>, state: seq<int>, total: int,
                         f: int -> real, polarised: bool, result: seq<seq<real>>, lu: seq<real>,
                         cv: seq<real>, wi: nat, pos: real, edges: seq<Edge>,
                         ghost b: seq<real>, ghost windows: seq<real>, ghost vals: seq<seq<real>>, ghost k: nat)
      returns (parent': seq<int>, state': seq<int>, result': seq<seq<real>>, lu': seq<real>, cv': seq<real>)
    requires Matches(parent, time, w, state) && CurrentValues(cv, state, total, f, polarised)
    requires RemovalsValid(parent, edges)
    requires Spans(windows, b) && |vals| == |parent| && IsGrid(result, |windows| - 1, |parent|)
    requires k < |b| && pos == b[k] && wi + 1 < |windows| && windows[wi] <= pos < windows[wi + 1]
    requires AllFlushed(b, windows, vals, result, wi, k, lu, cv)
    ensures parent' == Detach(parent, edges) && Matches(parent', time, w, state')
    ensures CurrentValues(cv', state', total, f, polarised) && IsGrid(result', |windows| - 1, |parent|)
    ensures AllFlushed(b, windows, vals, result', wi, k, lu', cv')
  {
    parent', state', result', lu', cv' := parent, state, result, lu, cv;
    var i := 0;
    while i < |edges|
      invariant 0 <= i <= |edges|
      invariant Matches(parent', time, w, state') && RemovalsValid(parent', edges[i..])
      invariant Detach(parent', edges[i..]) == Detach(parent, edges)
      invariant CurrentValues(cv', state', total, f, polarised) && IsGrid(result', |windows| - 1, |parent|)
      invariant AllFlushed(b, windows, vals, result', wi, k, lu', cv')
    {
      var e := edges[i];
      assert edges[i..][0] == e && edges[i..][1..] == edges[i + 1..];
      parent', state', result', lu', cv' :=
        RemoveEdgeNode(parent', time, w, state', total, f, polarised, result', lu', cv', wi, pos, e,
                       b, windows, vals, k);
      i := i + 1;
    }
  }

  /** The edges_in loop of node_general_stat. */
  method InsertEdgesNode(parent: seq<int>, time: seq<int>, ghost w: seq<int>, state: seq<int>, total: int,
                         f: int -> real, polarised: bool, result: seq<seq<real>>, lu: seq<real>,
                         cv: seq<real>, wi: nat, pos: real, edges: seq<Edge>,
                         ghost b: seq<real>, ghost windows: seq<real>, ghost vals: seq<seq<real>>, ghost k: nat)
      returns (parent': seq<int>, state': seq<int>, result': seq<seq<real>>, lu': seq<real>, cv': seq<real>)
    requires Matches(parent, time, w, state) && CurrentValues(cv, state, total, f, polarised)
    requires InsertionsValid(parent, time, edges)
    requires Spans(windows, b) && |vals| == |parent| && IsGrid(result, |windows| - 1, |parent|)
    requires k < |b| && pos == b[k] && wi + 1 < |windows| && windows[wi] <= pos < windows[wi + 1]
    requires AllFlushed(b, windows, vals, result, wi, k, lu, cv)
    ensures parent' == Attach(parent, edges) && Matches(parent', time, w, state')
    ensures CurrentValues(cv', state', total, f, polarised) && IsGrid(result', |windows| - 1, |parent|)
    ensures AllFlushed(b, windows, vals, result', wi, k, lu', cv')
  {
    parent', state', result', lu', cv' := parent, state, result, lu, cv;
    var i := 0;
    while i < |edges|
      invariant 0 <= i <= |edges|
      invariant Matches(parent', time, w, state') && InsertionsValid(parent', time, edges[i..])
      invariant Attach(parent', edges[i..]) == Attach(parent, edges)
      invariant CurrentValues(cv', state', total, f, polarised) && IsGrid(result', |windows| - 1, |parent|)
      invariant AllFlushed(b, windows, vals, result', wi, k, lu', cv')
    {
      var e := edges[i];
      assert edges[i..][0] == e && edges[i..][1..] == edges[i + 1..];
      parent', state', result', lu', cv' :=
        InsertEdgeNode(parent', time, w, state', total, f, polarised, result', lu', cv', wi, pos, e,
                       b, windows, vals, k);
      i := i + 1;
    }
  }

  // ---------------------------------------------------------------------
  // The window loop

  /** Once tree k's edges are in, every node's value is its value in tree
      k, so the accumulators cover tree k as well. */
  lemma TreeEntered(b: seq<real>, windows: seq<real>, vals: seq<seq<real>>, result: seq<seq<real>>,
                    wi: nat, k: nat, lu: seq<real>, cv: seq<real>)
    requires Increasing(b) && k + 1 < |b|
    requires AllFlushed(b, windows, vals, result, wi, k, lu, cv)
    requires forall u :: 0 <= u < |vals| ==> vals[u][k] == cv[u]
    ensures AllFlushed(b, windows, vals, result, wi, k + 1, lu, cv)
  {
    forall u | 0 <= u < |vals|
      ensures Flushed(b, windows, vals[u], result, u, wi, k + 1, lu[u], cv[u])
    {
      assert Flushed(b, windows, vals[u], result, u, wi, k, lu[u], cv[u]);
      assert b[k] < b[k + 1];
    }
  }

  /** Closing window wi: every node's value, held since its last update,
      is added up to the window's right end, which becomes every node's
      last update. */
  method FlushWindow(result: seq<seq<real>>, lu: seq<real>, cv: seq<real>, wi: nat, wr: real)
      returns (result': seq<seq<real>>, lu': seq<real>)
    requires wi < |result| && |result[wi]| == |lu| && |cv| == |lu|
    ensures |result'| == |result| && |lu'| == |lu| && |result'[wi]| == |lu|
    ensures forall j :: 0 <= j < |result| && j != wi ==> result'[j] == result[j]
    ensures forall u :: 0 <= u < |lu| ==>
              result'[wi][u] == Advance(result[wi][u], lu[u], wr, cv[u]) && lu'[u] == wr
  {
    result', lu' := result, lu;
    var u := 0;
    while u < |lu|
      invariant 0 <= u <= |lu| && |result'| == |result| && |lu'| == |lu| && |result'[wi]| == |lu|
      invariant forall j :: 0 <= j < |result| && j != wi ==> result'[j] == result[j]
      invariant forall x :: 0 <= x < u ==>
                  result'[wi][x] == Advance(result[wi][x], lu[x], wr, cv[x]) && lu'[x] == wr
      invariant forall x :: u <= x < |lu| ==> result'[wi][x] == result[wi][x] && lu'[x] == lu[x]
    {
      result' := result'[wi := result'[wi][u := Advance(result'[wi][u], lu'[u], wr, cv[u])]];
      lu' := lu'[u := wr];
      u := u + 1;
    }
  }

  /** Flushing window wi at its right end, inside the first k trees,
      completes it and opens window wi + 1 at its left end. */
  lemma FlushKeepsFlushed(b: seq<real>, windows: seq<real>, vals: seq<seq<real>>,
                          result: seq<seq<real>>, result': seq<seq<real>>, wi: nat, k: nat,
                          lu: seq<real>, lu': seq<real>, cv: seq<real>)
    requires Spans(windows, b) && AllFlushed(b, windows, vals, result, wi, k, lu, cv)
    requires k < |b| && wi + 1 < |windows| && windows[wi + 1] <= b[k] && wi < |result|
    requires |result'| == |result| && |lu'| == |lu|
    requires forall j :: 0 <= j < |result| && j != wi ==> result'[j] == result[j]
    requires |result'[wi]| == |lu| && |result[wi]| == |lu|
    requires forall u :: 0 <= u < |lu| ==>
               result'[wi][u] == Advance(result[wi][u], lu[u], windows[wi + 1], cv[u])
               && lu'[u] == windows[wi + 1]
    ensures AllFlushed(b, windows, vals, result', wi + 1, k, lu', cv)
  {
    var wr := windows[wi + 1];
    forall u | 0 <= u < |vals|
      ensures Flushed(b, windows, vals[u], result', u, wi + 1, k, lu'[u], cv[u])
    {
      assert Flushed(b, windows, vals[u], result, u, wi, k, lu[u], cv[u]);
      assert windows[0] <= windows[wi];
      WindowedExtend(b, vals[u], windows[wi], lu[u], wr, cv[u], k);
      WindowedEmpty(b, vals[u], wr);
      if wi + 2 < |windows| {
        assert wr < windows[wi + 2];
      }
    }
  }

  /** The "Update the windows" loop of node_general_stat after tree k - 1:
      flush every window that ends by the tree's right end. The window
      index ends at the window holding that end, or past the last window
      when the end is the sequence length. */
  method FlushWindows(result: seq<seq<real>>, lu: seq<real>, cv: seq<real>, wi: nat, right: real,
                      windows: seq<real>, ghost b: seq<real>, ghost vals: seq<seq<real>>, ghost k: nat)
      returns (result': seq<seq<real>>, lu': seq<real>, wi': nat)
    requires Spans(windows, b) && k < |b| && right == b[k]
    requires IsGrid(result, |windows| - 1, |vals|)
    requires wi < |windows| - 1 && windows[wi] <= right
    requires AllFlushed(b, windows, vals, result, wi, k, lu, cv)
    ensures IsGrid(result', |windows| - 1, |vals|) && AllFlushed(b, windows, vals, result', wi', k, lu', cv)
    ensures || (wi' < |windows| - 1 && windows[wi'] <= right < windows[wi' + 1])
            || (wi' == |windows| - 1 && windows[wi'] == right)
  {
    var nw := |windows| - 1;
    result', lu', wi' := result, lu, wi;
    while wi' < nw && windows[wi' + 1] <= right
      invariant wi' <= nw && windows[wi'] <= right
      invariant IsGrid(result', nw, |vals|) && AllFlushed(b, windows, vals, result', wi', k, lu', cv)
      decreases nw - wi'
    {
      ghost var before, lastBefore := result', lu';
      result', lu' := FlushWindow(result', lu', cv, wi', windows[wi' + 1]);
      FlushKeepsFlushed(b, windows, vals, before, result', wi', k, lastBefore, lu', cv);
      wi' := wi' + 1;
    }
    if wi' == nw {
      assert right <= b[|b| - 1] by {
        if k < |b| - 1 {
          assert b[k] < b[|b| - 1];
        }
      }
    }
  }

  // ---------------------------------------------------------------------
  // The tree loop

  /** The state of node_general_stat before tree t: the forest and subtree
      sums of the tree before it, every value current, the window index at
      the window holding the tree's left end (past the last window after
      the last tree), and every node's accumulators as Flushed describes. */
  ghost predicate NodeLoop(time: seq<int>, w: seq<int>, f: int -> real, polarised: bool, diffs: seq<TreeDiff>,
                           windows: seq<real>, vals: seq<seq<real>>, t: nat, parent: seq<int>, state: seq<int>,
                           cv: seq<real>, lu: seq<real>, result: seq<seq<real>>, wi: nat)
  {
    && |diffs| > 0 && |windows| > 0 && |w| == |time| && |vals| == |time| && t <= |diffs|
    && AtTree(time, w, diffs, t, parent, state)
    && CurrentValues(cv, state, TotalWeight(w), f, polarised)
    && IsGrid(result, |windows| - 1, |time|)
    && (t < |diffs| ==> wi < |windows| - 1 && windows[wi] <= Breakpoints(diffs)[t] < windows[wi + 1])
    && (t == |diffs| ==> wi == |windows| - 1)
    && AllFlushed(Breakpoints(diffs), windows, vals, result, wi, t, lu, cv)
  }

  /** One pass of the tree loop of node_general_stat: the edges out, the
      edges in, then the window flushes. */
  method NodeTree(time: seq<int>, w: seq<int>, f: int -> real, diffs: seq<TreeDiff>, windows: seq<real>,
                  polarised: bool, ghost vals: seq<seq<real>>, total: int, t: nat,
                  parent: seq<int>, state: seq<int>, cv: seq<real>, lu: seq<real>, result: seq<seq<real>>, wi: nat)
      returns (parent': seq<int>, state': seq<int>, cv': seq<real>, lu': seq<real>,
               result': seq<seq<real>>, wi': nat)
    requires |w| == |time| && total == TotalWeight(w)
    requires Contiguous(diffs) && DiffsValid(NoEdges(|time|), time, diffs)
    requires Spans(windows, Breakpoints(diffs))
    requires NodeValuesAt(time, w, f, polarised, diffs, vals)
    requires t < |diffs| && NodeLoop(time, w, f, polarised, diffs, windows, vals, t, parent, state, cv, lu, result, wi)
    ensures NodeLoop(time, w, f, polarised, diffs, windows, vals, t + 1, parent', state', cv', lu', result', wi')
  {
    ghost var b := Breakpoints(diffs);
    BreakpointsOfTrees(diffs);
    NextDiff(parent, time, diffs, t, Trees(NoEdges(|time|), diffs));
    var d := diffs[t];
    parent', state', result', lu', cv' :=
      RemoveEdgesNode(parent, time, w, state, total, f, polarised, result, lu, cv, wi, d.left, d.edgesOut,
                      b, windows, vals, t);
    parent', state', result', lu', cv' :=
      InsertEdgesNode(parent', time, w, state', total, f, polarised, result', lu', cv', wi, d.left, d.edgesIn,
                      b, windows, vals, t);
    assert parent' == Trees(NoEdges(|time|), diffs)[t];
    TreeEntered(b, windows, vals, result', wi, t, lu', cv');
    result', lu', wi' := FlushWindows(result', lu', cv', wi, d.right, windows, b, vals, t + 1);
    NextTree(windows, b, t, wi');
  }

  /** The accumulators before the first tree: nothing added yet, every
      last update at the start of the sequence. */
  lemma StartFlushed(b: seq<real>, windows: seq<real>, vals: seq<seq<real>>, result: seq<seq<real>>,
                     lu: seq<real>, cv: seq<real>)
    requires Spans(windows, b) && b[0] == 0.0
    requires forall u :: 0 <= u < |vals| ==> |vals[u]| == |b| - 1
    requires IsGrid(result, |windows| - 1, |vals|)
    requires forall j, u :: 0 <= j < |result| && 0 <= u < |vals| ==> result[j][u] == 0.0
    requires |lu| == |vals| && |cv| == |vals| && forall u :: 0 <= u < |lu| ==> lu[u] == 0.0
    ensures AllFlushed(b, windows, vals, result, 0, 0, lu, cv)
  {
    forall u | 0 <= u < |vals|
      ensures Flushed(b, windows, vals[u], result, u, 0, 0, lu[u], cv[u])
    {
      WindowedEmpty(b, vals[u], 0.0);
    }
  }

  /** current_values at the start, for every node: the summary of its
      state. */
  method StartValues(state: seq<int>, total: int, f: int -> real, polarised: bool) returns (cv: seq<real>)
    ensures CurrentValues(cv, state, total, f, polarised)
  {
    cv := [];
    var u := 0;
    while u < |state|
      invariant u <= |state| && |cv| == u
      invariant forall x :: 0 <= x < u ==> cv[x] == Summary(f, total, state[x], polarised)
    {
      cv := cv + [Summary(f, total, state[u], polarised)];
      u := u + 1;
    }
  }

  /** The tree loop of node_general_stat, from the empty forest. When it
      ends, window j of node u holds the integral of u's value over the
      window. */
  method NodeSweep(time: seq<int>, w: seq<int>, f: int -> real, diffs: seq<TreeDiff>, windows: seq<real>,
                   polarised: bool, ghost vals: seq<seq<real>>) returns (result: seq<seq<real>>)
    requires |w| == |time| && Contiguous(diffs) && DiffsValid(NoEdges(|time|), time, diffs)
    requires Spans(windows, Breakpoints(diffs)) && Breakpoints(diffs)[0] == 0.0
    requires NodeValuesAt(time, w, f, polarised, diffs, vals)
    ensures AllFlushedAt(Breakpoints(diffs), windows, vals, result)
  {
    var n := |time|;
    var nw := |windows| - 1;
    var total := SumWeights(w);
    result := seq(nw, _ => seq(n, _ => 0.0));
    var parent := NoEdges(n);
    var state := w;
    EmptyForestSums(time, w);
    var cv := StartValues(state, total, f, polarised);
    var lu := seq(n, _ => 0.0);
    var wi := 0;
    assert diffs[0..] == diffs;
    StartFlushed(Breakpoints(diffs), windows, vals, result, lu, cv);
    var t := 0;
    while t < |diffs|
      invariant t <= |diffs|
      invariant NodeLoop(time, w, f, polarised, diffs, windows, vals, t, parent, state, cv, lu, result, wi)
    {
      parent, state, cv, lu, result, wi :=
        NodeTree(time, w, f, diffs, windows, polarised, vals, total, t, parent, state, cv, lu, result, wi);
      t := t + 1;
    }
    FinalTotals(Breakpoints(diffs), windows, vals, result, wi, t, lu, cv);
  }

  /** Every window of every node is final. */
  ghost predicate AllFlushedAt(b: seq<real>, windows: seq<real>, vals: seq<seq<real>>, result: seq<seq<real>>)
    requires |b| > 0 && |windows| > 0
  {
    NodeTotals(result, b, vals, windows, false)
  }

  /** With the window index past the last window, every window is final. */
  lemma FinalTotals(b: seq<real>, windows: seq<real>, vals: seq<seq<real>>, result: seq<seq<real>>,
                    wi: nat, k: nat, lu: seq<real>, cv: seq<real>)
    requires |b| > 0 && |windows| > 0 && IsGrid(result, |windows| - 1, |vals|)
    requires wi == |windows| - 1 && AllFlushed(b, windows, vals, result, wi, k, lu, cv)
    ensures AllFlushedAt(b, windows, vals, result)
  {
    forall u | 0 <= u < |vals|
      ensures WindowTotals(Column(result, u), b, vals[u], windows, false)
    {
      assert Flushed(b, windows, vals[u], result, u, wi, k, lu[u], cv[u]);
    }
  }

  /** Span normalisation of the node statistic: every row divided by its
      window's length. */
  method NormaliseRows(result: seq<seq<real>>, windows: seq<real>, n: nat) returns (r: seq<seq<real>>)
    requires ValidWindows(windows) && IsGrid(result, |windows| - 1, n)
    ensures IsGrid(r, |windows| - 1, n)
    ensures forall j, u :: 0 <= j < |result| && 0 <= u < n ==>
              PerLength(r[j][u], windows[j], windows[j + 1], result[j][u])
  {
    r := [];
    var j := 0;
    while j < |result|
      invariant j <= |result| && |r| == j
      invariant forall i :: 0 <= i < j ==> |r[i]| == n
      invariant forall i, u :: 0 <= i < j && 0 <= u < n ==>
                  PerLength(r[i][u], windows[i], windows[i + 1], result[i][u])
    {
      var len := windows[j + 1] - windows[j];
      assert len > 0.0;
      var row := seq(n, u requires 0 <= u < n => result[j][u] / len);
      forall u | 0 <= u < n
        ensures PerLength(row[u], windows[j], windows[j + 1], result[j][u])
      {
        QuotientTimes(result[j][u], len);
      }
      r := r + [row];
      j := j + 1;
    }
  }

  /** Dividing every row by its window's length turns integrals into
      span-normalised values. */
  lemma NormaliseNodeTotals(a: seq<seq<real>>, r: seq<seq<real>>, b: seq<real>, vals: seq<seq<real>>,
                            windows: seq<real>)
    requires |b| > 0 && |windows| > 0 && NodeTotals(a, b, vals, windows, false)
    requires IsGrid(r, |windows| - 1, |vals|)
    requires forall j, u :: 0 <= j < |a| && 0 <= u < |vals| ==>
               PerLength(r[j][u], windows[j], windows[j + 1], a[j][u])
    ensures NodeTotals(r, b, vals, windows, true)
  {
    forall u | 0 <= u < |vals|
      ensures WindowTotals(Column(r, u), b, vals[u], windows, true)
    {
      NormaliseTotals(Column(a, u), Column(r, u), b, vals[u], windows);
    }
  }

  /** node_general_stat: window j, node u receives the integral over the
      window of u's value (the summary of its subtree sum in the tree
      covering each position), divided by the window's length when
      span-normalised. */
  method NodeGeneralStat(time: seq<int>, w: seq<int>, f: int -> real, diffs: seq<TreeDiff>,
                         windows: seq<real>, polarised: bool, spanNormalise: bool)
      returns (result: seq<seq<real>>)
    requires |w| == |time| && Contiguous(diffs) && DiffsValid(NoEdges(|time|), time, diffs)
    requires Spans(windows, Breakpoints(diffs)) && Breakpoints(diffs)[0] == 0.0
    ensures NodeTotals(result, Breakpoints(diffs), NodeValues(time, w, f, polarised, diffs),
                       windows, spanNormalise)
  {
    ghost var vals := NodeValues(time, w, f, polarised, diffs);
    AllNodeValues(time, w, f, polarised, diffs);
    result := NodeSweep(time, w, f, diffs, windows, polarised, vals);
    if spanNormalise {
      var r := NormaliseRows(result, windows, |time|);
      NormaliseNodeTotals(result, r, Breakpoints(diffs), vals, windows);
      result := r;
    }
  }

  // ---------------------------------------------------------------------
  // The naive version

  /** One tree of naive_node_general_stat: subtree sums X by the postorder
      pass, then s[u] = f(X[u]), plus f(total - X[u]) unless polarised,
      for every node u. */
  method NaiveNodeTree(parent: seq<int>, time: seq<int>, w: seq<int>, order: seq<int>,
                       total: int, f: int -> real, polarised: bool) returns (s: seq<real>)
    requires ValidForest(parent, time) && |w| == |parent| && IsPostorder(parent, w, order)
    ensures |s| == |parent|
    ensures forall u :: 0 <= u < |parent| ==>
              s[u] == Summary(f, total, SubtreeSum(parent, time, w, u), polarised)
  {
    var x := PostorderSums(parent, time, w, order);
    s := [];
    var u := 0;
    while u < |parent|
      invariant u <= |parent| && |s| == u
      invariant forall y :: 0 <= y < u ==> s[y] == Summary(f, total, x[y], polarised)
    {
      var value := f(x[u]);
      if !polarised {
        value := value + f(total - x[u]);
      }
      s := s + [value];
      u := u + 1;
    }
  }

  /** sigma of naive_node_general_stat: row t holds every node's value in
      tree t times the tree's span. */
  ghost function NodeSpanTimes(vals: seq<seq<real>>, b: seq<real>, m: nat): (sigma: seq<seq<real>>)
    requires |b| == m + 1 && forall u :: 0 <= u < |vals| ==> |vals[u]| == m
    ensures IsGrid(sigma, m, |vals|)
  {
    seq(m, t requires 0 <= t < m =>
          seq(|vals|, u requires 0 <= u < |vals| => vals[u][t] * (b[t + 1] - b[t])))
  }

  /** Node u's column of sigma is u's values times the spans. */
  lemma SpanColumn(vals: seq<seq<real>>, b: seq<real>, m: nat, u: nat)
    requires |b| == m + 1 && (forall x :: 0 <= x < |vals| ==> |vals[x]| == m) && u < |vals|
    ensures Column(NodeSpanTimes(vals, b, m), u) == SpanTimes(vals[u], b)
  {
    var sigma := NodeSpanTimes(vals, b, m);
    forall t | 0 <= t < m
      ensures Column(sigma, u)[t] == SpanTimes(vals[u], b)[t]
    {
    }
  }

  /** Entry (t, u) of sigma is u's value in tree t times the tree's span. */
  lemma NodeSpanTimesAt(vals: seq<seq<real>>, b: seq<real>, m: nat, t: nat, u: nat,
                        s: real, l: real, r: real, x: real)
    requires |b| == m + 1 && (forall y :: 0 <= y < |vals| ==> |vals[y]| == m) && t < m && u < |vals|
    requires s == vals[u][t] && b[t] == l && b[t + 1] == r && PerLength(s, l, r, x)
    ensures NodeSpanTimes(vals, b, m)[t][u] == x
  {
  }

  /** sigma[t] = s * (right - left): every node's value times the span. */
  method SpanRow(s: seq<real>, l: real, r: real) returns (row: seq<real>)
    ensures |row| == |s| && forall u :: 0 <= u < |s| ==> PerLength(s[u], l, r, row[u])
  {
    row := seq(|s|, u requires 0 <= u < |s| => s[u] * (r - l));
  }

  /** The row of tree t's values times its span is row t of sigma. */
  lemma RowOfTree(time: seq<int>, w: seq<int>, f: int -> real, polarised: bool, diffs: seq<TreeDiff>,
                  b: seq<real>, t: nat, s: seq<real>, l: real, r: real, row: seq<real>)
    requires |w| == |time| && DiffsValid(NoEdges(|time|), time, diffs) && t < |diffs|
    requires |b| == |diffs| + 1 && b[t] == l && b[t + 1] == r
    requires ValidForest(Trees(NoEdges(|time|), diffs)[t], time)
    requires |s| == |time| && forall u :: 0 <= u < |time| ==>
               s[u] == Summary(f, TotalWeight(w), SubtreeSum(Trees(NoEdges(|time|), diffs)[t], time, w, u), polarised)
    requires |row| == |s| && forall u :: 0 <= u < |s| ==> PerLength(s[u], l, r, row[u])
    ensures row == NodeSpanTimes(NodeValues(time, w, f, polarised, diffs), b, |diffs|)[t]
  {
    var vals := NodeValues(time, w, f, polarised, diffs);
    forall u | 0 <= u < |s|
      ensures row[u] == NodeSpanTimes(vals, b, |diffs|)[t][u]
    {
      NodeSpanTimesAt(vals, b, |diffs|, t, u, s[u], l, r, row[u]);
    }
  }

  /** The state of naive_node_general_stat before tree t. */
  ghost predicate NaiveNodeLoop(time: seq<int>, diffs: seq<TreeDiff>, expected: seq<seq<real>>, t: nat,
                                parent: seq<int>, sigma: seq<seq<real>>)
  {
    && t <= |diffs| && t <= |expected|
    && DiffsValid(parent, time, diffs[t..])
    && Trees(parent, diffs[t..]) == Trees(NoEdges(|time|), diffs)[t..]
    && sigma == expected[..t]
  }

  /** One tree of naive_node_general_stat: every node's value times the
      tree's span. */
  method NaiveNodeStep(time: seq<int>, w: seq<int>, f: int -> real, diffs: seq<TreeDiff>,
                       order: seq<int>, polarised: bool, ghost b: seq<real>, total: int, t: nat,
                       parent: seq<int>, sigma: seq<seq<real>>) returns (parent': seq<int>, sigma': seq<seq<real>>)
    requires |w| == |time| && DiffsValid(NoEdges(|time|), time, diffs) && total == TotalWeight(w)
    requires t < |diffs| && IsPostorder(Trees(NoEdges(|time|), diffs)[t], w, order)
    requires |b| == |diffs| + 1
    requires forall t :: 0 <= t < |diffs| ==> b[t] == diffs[t].left && b[t + 1] == diffs[t].right
    requires NaiveNodeLoop(time, diffs, NodeSpanTimes(NodeValues(time, w, f, polarised, diffs), b, |diffs|),
                           t, parent, sigma)
    ensures NaiveNodeLoop(time, diffs, NodeSpanTimes(NodeValues(time, w, f, polarised, diffs), b, |diffs|),
                          t + 1, parent', sigma')
  {
    ghost var expected := NodeSpanTimes(NodeValues(time, w, f, polarised, diffs), b, |diffs|);
    TreesValid(NoEdges(|time|), time, diffs);
    NextDiff(parent, time, diffs, t, Trees(NoEdges(|time|), diffs));
    parent' := Apply(parent, diffs[t]);
    var s := NaiveNodeTree(parent', time, w, order, total, f, polarised);
    var row := SpanRow(s, diffs[t].left, diffs[t].right);
    RowOfTree(time, w, f, polarised, diffs, b, t, s, diffs[t].left, diffs[t].right, row);
    sigma' := sigma + [row];
    assert expected[..t + 1] == expected[..t] + [expected[t]];
  }

  /** sigma of naive_node_general_stat, tree by tree; orders[t] is the
      postorder of tree t. */
  method NaiveNodeSigma(time: seq<int>, w: seq<int>, f: int -> real, diffs: seq<TreeDiff>,
                        orders: seq<seq<int>>, polarised: bool, ghost b: seq<real>) returns (sigma: seq<seq<real>>)
    requires |w| == |time| && DiffsValid(NoEdges(|time|), time, diffs)
    requires |orders| == |diffs|
    requires forall t :: 0 <= t < |diffs| ==> IsPostorder(Trees(NoEdges(|time|), diffs)[t], w, orders[t])
    requires |b| == |diffs| + 1
    requires forall t :: 0 <= t < |diffs| ==> b[t] == diffs[t].left && b[t + 1] == diffs[t].right
    ensures sigma == NodeSpanTimes(NodeValues(time, w, f, polarised, diffs), b, |diffs|)
  {
    var total := SumWeights(w);
    sigma := [];
    var parent := NoEdges(|time|);
    assert diffs[0..] == diffs;
    var t := 0;
    while t < |diffs|
      invariant t <= |diffs|
      invariant NaiveNodeLoop(time, diffs, NodeSpanTimes(NodeValues(time, w, f, polarised, diffs), b, |diffs|),
                              t, parent, sigma)
    {
      parent, sigma := NaiveNodeStep(time, w, f, diffs, orders[t], polarised, b, total, t, parent, sigma);
      t := t + 1;
    }
    assert NodeSpanTimes(NodeValues(time, w, f, polarised, diffs), b, |diffs|)[..t]
             == NodeSpanTimes(NodeValues(time, w, f, polarised, diffs), b, |diffs|);
  }

  /** windowed_tree_stat of sigma. It acts entry by entry, so each node's
      column of sigma is windowed on its own; cols[u] holds node u's
      windows. */
  method WindowNodes(b: seq<real>, sigma: seq<seq<real>>, n: nat, windows: seq<real>, spanNormalise: bool)
      returns (cols: seq<seq<real>>)
    requires Spans(windows, b) && IsGrid(sigma, |b| - 1, n)
    ensures |cols| == n
    ensures forall u :: 0 <= u < n ==> WindowTotals(cols[u], b, Densities(b, Column(sigma, u)), windows, spanNormalise)
  {
    cols := [];
    while |cols| < n
      invariant |cols| <= n
      invariant forall u :: 0 <= u < |cols| ==>
                  WindowTotals(cols[u], b, Densities(b, Column(sigma, u)), windows, spanNormalise)
    {
      var a := WindowedTreeStat(b, Column(sigma, |cols|), windows, spanNormalise);
      cols := cols + [a];
    }
  }

  /** naive_node_general_stat: the same window values as node_general_stat
      promises. */
  method NaiveNodeGeneralStat(time: seq<int>, w: seq<int>, f: int -> real, diffs: seq<TreeDiff>,
                              orders: seq<seq<int>>, windows: seq<real>, polarised: bool,
                              spanNormalise: bool) returns (result: seq<seq<real>>)
    requires |w| == |time| && Contiguous(diffs) && DiffsValid(NoEdges(|time|), time, diffs)
    requires |orders| == |diffs|
    requires forall t :: 0 <= t < |diffs| ==> IsPostorder(Trees(NoEdges(|time|), diffs)[t], w, orders[t])
    requires Spans(windows, Breakpoints(diffs))
    ensures NodeTotals(result, Breakpoints(diffs), NodeValues(time, w, f, polarised, diffs),
                       windows, spanNormalise)
  {
    var b := Breakpoints(diffs);
    ghost var vals := NodeValues(time, w, f, polarised, diffs);
    BreakpointsOfTrees(diffs);
    BreakpointsIncreasing(diffs);
    var sigma := NaiveNodeSigma(time, w, f, diffs, orders, polarised, b);
    var cols := WindowNodes(b, sigma, |time|, windows, spanNormalise);
    forall u | 0 <= u < |time|
      ensures WindowTotals(cols[u], b, vals[u], windows, spanNormalise)
    {
      SpanColumn(vals, b, |diffs|, u);
      DensitiesOfSpans(b, vals[u], Column(sigma, u));
    }
    forall u | 0 <= u < |time|
      ensures |cols[u]| == |windows| - 1
    {
    }
    result := Transpose(cols, |windows| - 1);
  }

  /** compare_general_stat for node statistics: the naive and the
      incremental versions give the same values. */
  method CompareNodeStats(time: seq<int>, w: seq<int>, f: int -> real, diffs: seq<TreeDiff>,
                          orders: seq<seq<int>>, windows: seq<real>, polarised: bool,
                          spanNormalise: bool) returns (naive: seq<seq<real>>, incremental: seq<seq<real>>)
    requires |w| == |time| && Contiguous(diffs) && DiffsValid(NoEdges(|time|), time, diffs)
    requires |orders| == |diffs|
    requires forall t :: 0 <= t < |diffs| ==> IsPostorder(Trees(NoEdges(|time|), diffs)[t], w, orders[t])
    requires Spans(windows, Breakpoints(diffs)) && Breakpoints(diffs)[0] == 0.0
    ensures IsGrid(naive, |windows| - 1, |time|)
    ensures naive == incremental
  {
    naive := NaiveNodeGeneralStat(time, w, f, diffs, orders, windows, polarised, spanNormalise);
    incremental := NodeGeneralStat(time, w, f, diffs, windows, polarised, spanNormalise);
    NodeTotalsUnique(naive, incremental, Breakpoints(diffs), NodeValues(time, w, f, polarised, diffs),
                     windows, spanNormalise);
  }

  // ---------------------------------------------------------------------
  // current_values as the source initialises it

  /** current_values as node_general_stat sets it up: node_summary(u) for
      the samples only, 0 for every other node. */
  function StartValuesAsWritten(state: seq<int>, isSample: seq<bool>, total: int, f: int -> real,
                                polarised: bool): (cv: seq<real>)
    requires |isSample| == |state|
    ensures |cv| == |state|
    ensures forall u :: 0 <= u < |state| && isSample[u] ==> cv[u] == Summary(f, total, state[u], polarised)
    ensures forall u :: 0 <= u < |state| && !isSample[u] ==> cv[u] == 0.0
  {
    seq(|state|, u requires 0 <= u < |state| => if isSample[u] then Summary(f, total, state[u], polarised) else 0.0)
  }

  /** Only samples carry weight, so every other node starts with state 0.
      The source's start values are right exactly when every node is a
      sample or node_summary of an empty state is 0, that is f(0) = 0 and,
      unpolarised, f(total) = 0 as well. */
  lemma StartValuesAgree(state: seq<int>, isSample: seq<bool>, total: int, f: int -> real, polarised: bool)
    requires |isSample| == |state|
    requires forall u :: 0 <= u < |state| && !isSample[u] ==> state[u] == 0
    ensures CurrentValues(StartValuesAsWritten(state, isSample, total, f, polarised), state, total, f, polarised)
            <==> ((exists u :: 0 <= u < |state| && !isSample[u]) ==> Summary(f, total, 0, polarised) == 0.0)
  {
    var a := StartValuesAsWritten(state, isSample, total, f, polarised);
    if CurrentValues(a, state, total, f, polarised) {
      if u :| 0 <= u < |state| && !isSample[u] {
        assert a[u] == Summary(f, total, state[u], polarised);
      }
    }
  }

  /** Two nodes, node 0 a sample of weight 1 and node 1 not a sample;
      summary_func is the identity, unpolarised. The source starts node 1
      at 0, but its node_summary is f(0) + f(1 - 0) = 1. In a first tree
      where no edge touches node 1, node_general_stat therefore adds 0 for
      it over that tree, where naive_node_general_stat adds 1 per unit
      length. */
  lemma UnsampledStartDiffers()
    ensures StartValuesAsWritten([1, 0], [true, false], 1, (x: int) => x as real, false)[1] == 0.0
    ensures Summary((x: int) => x as real, 1, 0, false) == 1.0
    ensures !CurrentValues(StartValuesAsWritten([1, 0], [true, false], 1, (x: int) => x as real, false),
                           [1, 0], 1, (x: int) => x as real, false)
  {
    StartValuesAgree([1, 0], [true, false], 1, (x: int) => x as real, false);
  }
}

=== FILE: postorder.dfy ===
/** The naive side of the statistics: each tree's per-node sums built from
    scratch by a postorder traversal that adds every child's value into
    its parent, and the fact that the roots' sums add up to the total weight. */
module Postorder {
  import opened Sums
  import opened Forest

  /** a is strictly above x on x's root path; NULL is above every node. */
  ghost predicate Above(parent: seq<int>, time: seq<int>, x: int, a: int)
    requires ValidForest(parent, time)
    requires 0 <= x < |parent|
  {
    a == NULL || (a in Path(parent, time, x) && a != x)
  }

  /** The node of x's root path whose parent is a. */
  ghost function Below(parent: seq<int>, time: seq<int>, x: int, a: int): (v: int)
    requires ValidForest(parent, time)
    requires 0 <= x < |parent| && Above(parent, time, x, a)
    ensures 0 <= v < |parent|
    decreases Height(parent, time, x)
  {
    if parent[x] == a then x
    else
      assert Path(parent, time, x) == [x] + Path(parent, time, parent[x]);
      Below(parent, time, parent[x], a)
  }

  /** On x's root path exactly one node has parent a when a is above x, and
      none otherwise. */
  lemma {:induction false} ChildOnPath(parent: seq<int>, time: seq<int>, x: int, a: int, v: int)
    requires ValidForest(parent, time)
    requires 0 <= x < |parent| && 0 <= v < |parent|
    requires a == NULL || 0 <= a < |parent|
    ensures (v in Path(parent, time, x) && parent[v] == a) <==>
              (Above(parent, time, x, a) && v == Below(parent, time, x, a))
    decreases Height(parent, time, x)
  {
    PathFacts(parent, time, x);
    assert Path(parent, time, x) == [x] + Path(parent, time, parent[x]);
    if parent[x] != NULL {
      PathFacts(parent, time, parent[x]);
      ChildOnPath(parent, time, parent[x], a, v);
    }
    if v in Path(parent, time, x) && parent[v] == a && a != NULL {
      PathFacts(parent, time, v);
      assert Path(parent, time, v) == [v] + Path(parent, time, a);
      PathTrans(parent, time, x, v, a);
    }
  }

  /** What a node's children contribute: the subtree sum of each child. */
  ghost function ChildTerms(parent: seq<int>, time: seq<int>, w: seq<int>, a: int): nat -> int
    requires ValidForest(parent, time) && |w| == |parent|
  {
    (v: nat) => if v < |parent| && parent[v] == a then SubtreeSum(parent, time, w, v) else 0
  }

  ghost function Pairs(parent: seq<int>, time: seq<int>, w: seq<int>, a: int): (nat, nat) -> int
    requires ValidForest(parent, time) && |w| == |parent|
  {
    (v: nat, x: nat) =>
      if v < |parent| && x < |parent| && parent[v] == a && v in Path(parent, time, x)
      then w[x] else 0
  }

  /** The children's subtree sums of a node add up to its own subtree sum
      less its own weight; the roots' subtree sums (a = NULL) add up to the
      total weight. */
  lemma ChildSums(parent: seq<int>, time: seq<int>, w: seq<int>, a: int)
    requires ValidForest(parent, time) && |w| == |parent|
    requires a == NULL || 0 <= a < |parent|
    ensures Sum(|parent|, ChildTerms(parent, time, w, a)) ==
              if a == NULL then TotalWeight(w) else SubtreeSum(parent, time, w, a) - w[a]
  {
    var n := |parent|;
    var F := Pairs(parent, time, w, a);
    PairRows(parent, time, w, a);
    SumSwap(n, n, F);
    PairColumns(parent, time, w, a);
    AboveTotal(parent, time, w, a);
  }

  /** Row v of the pairs holds child v's subtree, when v is a child. */
  lemma PairRows(parent: seq<int>, time: seq<int>, w: seq<int>, a: int)
    requires ValidForest(parent, time) && |w| == |parent|
    ensures Sum(|parent|, RowSums(Pairs(parent, time, w, a), |parent|))
              == Sum(|parent|, ChildTerms(parent, time, w, a))
  {
    var n := |parent|;
    var F := Pairs(parent, time, w, a);
    forall v: nat | v < n
      ensures RowSums(F, n)(v) == ChildTerms(parent, time, w, a)(v)
    {
      var row := (x: nat) => F(v, x);
      if parent[v] == a {
        SumExt(n, row, Indicator(parent, time, w, v));
      } else {
        SumZero(n, row);
      }
    }
    SumExt(n, RowSums(F, n), ChildTerms(parent, time, w, a));
  }

  /** The weight of x when a is strictly above it. */
  ghost function AboveTerms(parent: seq<int>, time: seq<int>, w: seq<int>, a: int): nat -> int
    requires ValidForest(parent, time) && |w| == |parent|
  {
    (x: nat) => if x < |parent| && Above(parent, time, x, a) then w[x] else 0
  }

  /** Column x of the pairs holds x's weight once, at the child of a on its
      root path, when a is above x. */
  lemma PairColumns(parent: seq<int>, time: seq<int>, w: seq<int>, a: int)
    requires ValidForest(parent, time) && |w| == |parent|
    requires a == NULL || 0 <= a < |parent|
    ensures Sum(|parent|, ColSums(Pairs(parent, time, w, a), |parent|))
              == Sum(|parent|, AboveTerms(parent, time, w, a))
  {
    var n := |parent|;
    var F := Pairs(parent, time, w, a);
    var above := AboveTerms(parent, time, w, a);
    forall x: nat | x < n
      ensures ColSums(F, n)(x) == above(x)
    {
      var col := (v: nat) => F(v, x);
      forall v: nat | v < n
        ensures col(v) == if Above(parent, time, x, a) && v == Below(parent, time, x, a) then w[x] else 0
      {
        ChildOnPath(parent, time, x, a, v);
      }
      if Above(parent, time, x, a) {
        SumSingle(n, Below(parent, time, x, a), col);
      } else {
        SumZero(n, col);
      }
    }
    SumExt(n, ColSums(F, n), above);
  }

  /** Every node has the roots above it; below a node, its subtree less
      itself. */
  lemma AboveTotal(parent: seq<int>, time: seq<int>, w: seq<int>, a: int)
    requires ValidForest(parent, time) && |w| == |parent|
    requires a == NULL || 0 <= a < |parent|
    ensures Sum(|parent|, AboveTerms(parent, time, w, a)) ==
              if a == NULL then TotalWeight(w) else SubtreeSum(parent, time, w, a) - w[a]
  {
    var n := |parent|;
    var above := AboveTerms(parent, time, w, a);
    if a == NULL {
      SumExt(n, above, Weights(w));
    } else {
      var self := (x: nat) => if x == a then w[x] else 0;
      forall x: nat | x < n
        ensures Indicator(parent, time, w, a)(x) == above(x) + self(x)
      {
        if x == a {
          PathFacts(parent, time, a);
        }
      }
      SumAdd(n, above, self, Indicator(parent, time, w, a));
      SumSingle(n, a, self);
    }
  }

  /** `order` is tree.nodes(order="postorder"): distinct nodes, each child
      before its parent, every node of non-zero weight listed, and with each
      listed node its parent. tskit lists the nodes of the trees whose root
      has a sample below it, so the nodes it leaves out form whole trees
      without a sample; listing every node is the case where each tree has
      one. */
  ghost predicate IsPostorder(parent: seq<int>, w: seq<int>, order: seq<int>)
  {
    && |w| == |parent|
    && (forall i :: 0 <= i < |order| ==> 0 <= order[i] < |parent|)
    && (forall i, j :: 0 <= i < j < |order| ==> order[i] != order[j])
    && (forall v :: 0 <= v < |parent| && w[v] != 0 ==> v in order)
    && (forall i :: 0 <= i < |order| && parent[order[i]] != NULL ==> parent[order[i]] in order)
    && (forall i, j :: 0 <= i < j < |order| ==> parent[order[j]] != order[i])
  }

  /** The root path of a listed node is listed. */
  lemma {:induction false} PathListed(parent: seq<int>, time: seq<int>, w: seq<int>, order: seq<int>, x: int)
    requires ValidForest(parent, time) && IsPostorder(parent, w, order)
    requires 0 <= x < |parent| && x in order
    ensures forall y :: y in Path(parent, time, x) ==> y in order
    decreases Height(parent, time, x)
  {
    assert Path(parent, time, x) == [x] + Path(parent, time, parent[x]);
    if parent[x] != NULL {
      var i :| 0 <= i < |order| && order[i] == x;
      PathListed(parent, time, w, order, parent[x]);
    }
  }

  /** A node the order leaves out has no weight below it. */
  lemma UnlistedEmpty(parent: seq<int>, time: seq<int>, w: seq<int>, order: seq<int>, u: int)
    requires ValidForest(parent, time) && IsPostorder(parent, w, order)
    requires 0 <= u < |parent| && u !in order
    ensures SubtreeSum(parent, time, w, u) == 0
  {
    forall x: nat | x < |parent|
      ensures Indicator(parent, time, w, u)(x) == 0
    {
      if x in order {
        PathListed(parent, time, w, order, x);
      }
    }
    SumZero(|parent|, Indicator(parent, time, w, u));
  }

  /** The inner loop of the naive accumulation at node u: add the value of
      every child of u into u. When the children already hold their subtree
      sums, u ends up holding its own. */
  method AddChildren(parent: seq<int>, time: seq<int>, ghost w: seq<int>, x: seq<int>, u: int)
      returns (x': seq<int>)
    requires ValidForest(parent, time) && |w| == |parent| && |x| == |parent|
    requires 0 <= u < |parent| && x[u] == w[u]
    requires forall v :: 0 <= v < |parent| && parent[v] == u ==>
               x[v] == SubtreeSum(parent, time, w, v)
    ensures |x'| == |x| && x'[u] == SubtreeSum(parent, time, w, u)
    ensures forall y :: 0 <= y < |x| && y != u ==> x'[y] == x[y]
  {
    var n := |parent|;
    x' := x;
    var v := 0;
    while v < n
      invariant 0 <= v <= n && |x'| == n
      invariant x'[u] == w[u] + Sum(v, ChildTerms(parent, time, w, u))
      invariant forall y :: 0 <= y < n && y != u ==> x'[y] == x[y]
    {
      if parent[v] == u {
        x' := x'[u := x'[u] + x'[v]];
      }
      v := v + 1;
    }
    ChildSums(parent, time, w, u);
  }

  /** In a postorder, the listed children of the i-th node all come before
      it. */
  lemma ChildrenFirst(parent: seq<int>, time: seq<int>, w: seq<int>, order: seq<int>, i: int, v: int)
    requires ValidForest(parent, time) && IsPostorder(parent, w, order)
    requires 0 <= i < |order| && 0 <= v < |parent| && parent[v] == order[i] && v in order
    ensures v in order[..i]
  {
    var j :| 0 <= j < |order| && order[j] == v;
    assert order[..i][j] == v;
  }

  /** The naive accumulation: start from the weights and, visiting nodes in
      postorder, add every child's value into its parent. The result is the
      subtree sum of every node; the nodes the order leaves out keep their
      weight, which is 0, and so is their subtree sum. */
  method PostorderSums(parent: seq<int>, time: seq<int>, w: seq<int>, order: seq<int>)
      returns (x: seq<int>)
    requires ValidForest(parent, time) && IsPostorder(parent, w, order)
    ensures Matches(parent, time, w, x)
  {
    var n := |parent|;
    x := w;
    var i := 0;
    while i < |order|
      invariant 0 <= i <= |order| && |x| == n
      invariant forall v :: 0 <= v < n ==>
                  x[v] == if v in order[..i] then SubtreeSum(parent, time, w, v) else w[v]
    {
      var u := order[i];
      assert u !in order[..i];
      forall v | 0 <= v < n && parent[v] == u
        ensures x[v] == SubtreeSum(parent, time, w, v)
      {
        if v in order {
          ChildrenFirst(parent, time, w, order, i, v);
        } else {
          UnlistedEmpty(parent, time, w, order, v);
        }
      }
      x := AddChildren(parent, time, w, x, u);
      assert order[..i + 1] == order[..i] + [u];
      i := i + 1;
    }
    assert order[..i] == order;
    forall v | 0 <= v < n && v !in order
      ensures x[v] == SubtreeSum(parent, time, w, v)
    {
      UnlistedEmpty(parent, time, w, order, v);
    }
  }

  /** Every sample lies under exactly one root, so the roots' subtree sums
      add up to the total weight. */
  lemma RootSums(parent: seq<int>, time: seq<int>, w: seq<int>)
    requires ValidForest(parent, time) && |w| == |parent|
    ensures Sum(|parent|, ChildTerms(parent, time, w, NULL)) == TotalWeight(w)
  {
    ChildSums(parent, time, w, NULL);
  }
}

=== FILE: samplesets.dfy ===
/** The argument check of sample_count_stats: every sample set must be a
    list of distinct samples. The check takes, for each set U in turn, the
    largest number of occurrences of any element of U and raises ValueError when
    it exceeds 1. For an empty U that maximum is over nothing, and max()
    itself raises ValueError; the model reports both, with the set's index. */
module SampleSets {
  datatype Outcome =
    | Accepted
    | EmptySet(index: nat)         // max() of an empty list
    | RepeatedElement(index: nat)  // some sample occurs twice in set `index`

  /** The number of times x occurs in u. */
  function Count(u: seq<int>, x: int): nat
  {
    if |u| == 0 then 0 else (if u[0] == x then 1 else 0) + Count(u[1..], x)
  }

  /** Some sample occurs at two places of u. */
  predicate HasRepeat(u: seq<int>)
  {
    exists i, j :: 0 <= i < j < |u| && u[i] == u[j]
  }

  /** A set the check lets through: not empty, no sample twice. */
  predicate WellFormed(u: seq<int>)
  {
    |u| > 0 && !HasRepeat(u)
  }

  /** x occurs in u at least twice exactly when its count exceeds 1, and at
      least once exactly when its count is positive. */
  lemma {:induction false} CountRepeats(u: seq<int>, x: int)
    ensures Count(u, x) > 0 <==> x in u
    ensures Count(u, x) > 1 <==> exists i, j :: 0 <= i < j < |u| && u[i] == x && u[j] == x
  {
    if |u| > 0 {
      var t := u[1..];
      CountRepeats(t, x);
      if Count(u, x) > 1 {
        if u[0] == x {
          var k :| 0 <= k < |t| && t[k] == x;
          assert u[0] == x && u[k + 1] == x;
        } else {
          var i, j :| 0 <= i < j < |t| && t[i] == x && t[j] == x;
          assert u[i + 1] == x && u[j + 1] == x;
        }
      }
      if exists i, j :: 0 <= i < j < |u| && u[i] == x && u[j] == x {
        var i, j :| 0 <= i < j < |u| && u[i] == x && u[j] == x;
        if i == 0 {
          assert t[j - 1] == x;
        } else {
          assert t[i - 1] == x && t[j - 1] == x;
        }
      }
      assert x in u <==> u[0] == x || x in t;
    }
  }

  /** The largest number of times any element occurs in a non-empty U.
      Visiting U's elements in list order reaches the same maximum as
      visiting each distinct element once. */
  method MaxCount(u: seq<int>) returns (m: nat)
    requires |u| > 0
    ensures exists i :: 0 <= i < |u| && m == Count(u, u[i])
    ensures forall x :: x in u ==> Count(u, x) <= m
  {
    m := Count(u, u[0]);
    var k := 1;
    while k < |u|
      invariant 1 <= k <= |u|
      invariant exists i :: 0 <= i < k && m == Count(u, u[i])
      invariant forall i :: 0 <= i < k ==> Count(u, u[i]) <= m
    {
      var c := Count(u, u[k]);
      if c > m {
        m := c;
      }
      k := k + 1;
    }
  }

  /** The largest count exceeds 1 exactly when some sample is repeated. */
  lemma MaxCountRepeats(u: seq<int>, m: nat)
    requires |u| > 0
    requires exists i :: 0 <= i < |u| && m == Count(u, u[i])
    requires forall x :: x in u ==> Count(u, x) <= m
    ensures m > 1 <==> HasRepeat(u)
  {
    var i :| 0 <= i < |u| && m == Count(u, u[i]);
    CountRepeats(u, u[i]);
    if HasRepeat(u) {
      var a, b :| 0 <= a < b < |u| && u[a] == u[b];
      CountRepeats(u, u[a]);
    }
  }

  /** The loop over sample_sets: the first set that is empty or repeats a
      sample stops the check with that set's index and kind; when none
      does, the sets are accepted, which happens exactly when every set is
      well formed. */
  method CheckSampleSets(sets: seq<seq<int>>) returns (r: Outcome)
    ensures r == Accepted <==> forall k :: 0 <= k < |sets| ==> WellFormed(sets[k])
    ensures r.EmptySet? ==> r.index < |sets| && |sets[r.index]| == 0
    ensures r.RepeatedElement? ==> r.index < |sets| && |sets[r.index]| > 0 && HasRepeat(sets[r.index])
    ensures !r.Accepted? ==> forall k :: 0 <= k < r.index ==> WellFormed(sets[k])
  {
    var k := 0;
    while k < |sets|
      invariant k <= |sets|
      invariant forall q :: 0 <= q < k ==> WellFormed(sets[q])
    {
      if |sets[k]| == 0 {
        return EmptySet(k);
      }
      var m := MaxCount(sets[k]);
      MaxCountRepeats(sets[k], m);
      if m > 1 {
        return RepeatedElement(k);
      }
      k := k + 1;
    }
    return Accepted;
  }
}

=== FILE: sfs.dfy ===
/** branch_sample_frequency_spectrum for one sample set. Every sample of
    the set starts with count 1; a node's count is the number of the set's
    samples below it. Bin k of a tree's spectrum is the total length of the
    branches above exactly k of those samples, and the result per window is
    the span-normalised integral of each bin.

    The source keeps all bins at once in a vector running sum. Vector
    arithmetic acts bin by bin, so bin k evolves exactly as the running sum
    of branch_general_stat with the summary "count is k", polarised; the
    method below runs that computation for each bin, and HistogramIsArea
    shows the two summaries agree node by node. */
module Sfs {
  import opened Sums
  import opened Forest
  import opened TreeSeq
  import opened Windows
  import opened Branch

  /** The summary of bin k: 1 for a count of exactly k, else 0. */
  function CountIs(k: int): int -> real
  {
    (x: int) => if x == k then 1.0 else 0.0
  }

  /** area_weighted_summary of the spectrum, bin k: u's branch length if
      the branch is positive and u's count is k, and 0 otherwise. */
  function HistogramArea(parent: seq<int>, time: seq<int>, state: seq<int>, u: int, k: int): real
    requires ValidForest(parent, time) && |state| == |parent| && 0 <= u < |parent|
  {
    var branchLength := if parent[u] != NULL then time[parent[u]] - time[u] else 0;
    if branchLength > 0 && state[u] == k then branchLength as real else 0.0
  }

  /** The histogram area of bin k is the branch statistic's area for the
      polarised summary CountIs(k): branches of length 0 contribute
      nothing either way. */
  lemma HistogramIsArea(parent: seq<int>, time: seq<int>, state: seq<int>, total: int,
                        u: int, k: int)
    requires ValidForest(parent, time) && |state| == |parent| && 0 <= u < |parent|
    ensures HistogramArea(parent, time, state, u, k) == Area(parent, time, state, total, CountIs(k), true, u)
  {
  }

  /** Bin k of u's histogram, as a function of the bin. */
  function NodeBins(parent: seq<int>, time: seq<int>, state: seq<int>, u: int): nat -> real
    requires ValidForest(parent, time) && |state| == |parent| && 0 <= u < |parent|
  {
    (k: nat) => HistogramArea(parent, time, state, u, k)
  }

  /** Every branch lands in exactly one bin: over bins 0 .. nOut - 1, which
      include u's count, u's histogram areas add up to its branch length. */
  lemma BinsPartition(parent: seq<int>, time: seq<int>, state: seq<int>, u: int, nOut: nat)
    requires ValidForest(parent, time) && |state| == |parent| && 0 <= u < |parent|
    requires 0 <= state[u] < nOut
    ensures SumR(nOut, NodeBins(parent, time, state, u)) == BranchLength(parent, time, u) as real
  {
    SumRSingle(nOut, state[u], NodeBins(parent, time, state, u));
  }

  /** The areas of bin k, node by node. */
  function BinAreas(parent: seq<int>, time: seq<int>, state: seq<int>, k: int): nat -> real
    requires ValidForest(parent, time) && |state| == |parent|
  {
    (u: nat) => if u < |parent| then HistogramArea(parent, time, state, u, k) else 0.0
  }

  /** Bin k of a tree's spectrum: the sum of its nodes' histogram areas. */
  function Spectrum(parent: seq<int>, time: seq<int>, state: seq<int>, k: int): real
    requires ValidForest(parent, time) && |state| == |parent|
  {
    SumR(|parent|, BinAreas(parent, time, state, k))
  }

  /** A tree's spectrum bin is the branch statistic's running sum for the
      summary CountIs(k). */
  lemma SpectrumIsRunning(parent: seq<int>, time: seq<int>, state: seq<int>, total: int, k: int)
    requires ValidForest(parent, time) && |state| == |parent|
    ensures Spectrum(parent, time, state, k) == Running(parent, time, state, total, CountIs(k), true)
  {
    forall u: nat | u < |parent|
      ensures BinAreas(parent, time, state, k)(u) == Areas(parent, time, state, total, CountIs(k), true)(u)
    {
      HistogramIsArea(parent, time, state, total, u, k);
    }
    SumRExt(|parent|, BinAreas(parent, time, state, k), Areas(parent, time, state, total, CountIs(k), true));
  }

  function Lengths(parent: seq<int>, time: seq<int>): nat -> real
    requires ValidForest(parent, time)
  {
    (u: nat) => if u < |parent| then BranchLength(parent, time, u) as real else 0.0
  }

  /** The total branch length of a forest. */
  function TotalBranchLength(parent: seq<int>, time: seq<int>): real
    requires ValidForest(parent, time)
  {
    SumR(|parent|, Lengths(parent, time))
  }

  /** Bins of a tree's spectrum, as a function of the bin. */
  function SpectrumBins(parent: seq<int>, time: seq<int>, state: seq<int>): nat -> real
    requires ValidForest(parent, time) && |state| == |parent|
  {
    (k: nat) => Spectrum(parent, time, state, k)
  }

  /** When every count lies in 0 .. nOut - 1, the bins of a tree's spectrum
      add up to the tree's total branch length. */
  lemma SpectrumTotal(parent: seq<int>, time: seq<int>, state: seq<int>, nOut: nat)
    requires ValidForest(parent, time) && |state| == |parent|
    requires forall u :: 0 <= u < |parent| ==> 0 <= state[u] < nOut
    ensures SumR(nOut, SpectrumBins(parent, time, state)) == TotalBranchLength(parent, time)
  {
    var n := |parent|;
    var F := (k: nat, u: nat) => BinAreas(parent, time, state, k)(u);
    forall k: nat | k < nOut
      ensures RowSumsR(F, n)(k) == SpectrumBins(parent, time, state)(k)
    {
      SumRExt(n, (u: nat) => F(k, u), BinAreas(parent, time, state, k));
    }
    SumRExt(nOut, RowSumsR(F, n), SpectrumBins(parent, time, state));
    SumRSwap(nOut, n, F);
    forall u: nat | u < n
      ensures ColSumsR(F, nOut)(u) == Lengths(parent, time)(u)
    {
      forall k: nat | k < nOut
        ensures F(k, u) == NodeBins(parent, time, state, u)(k)
      {
        assert F(k, u) == BinAreas(parent, time, state, k)(u);
      }
      SumRExt(nOut, (k: nat) => F(k, u), NodeBins(parent, time, state, u));
      BinsPartition(parent, time, state, u, nOut);
    }
    SumRExt(n, ColSumsR(F, nOut), Lengths(parent, time));
  }

  /** The initial state of a sample set: 1 at each of its nodes, 0
      elsewhere (a node listed twice still gets 1). */
  function Membership(n: nat, sampleSet: seq<int>): (w: seq<int>)
    ensures |w| == n
  {
    seq(n, u => if u in sampleSet then 1 else 0)
  }

  /** Weight 1 for each node of the sample set, set one node at a time.
      The total weight is at most the length of the list. */
  method SampleWeights(n: nat, sampleSet: seq<int>) returns (w: seq<int>)
    requires forall i :: 0 <= i < |sampleSet| ==> 0 <= sampleSet[i] < n
    ensures w == Membership(n, sampleSet)
    ensures TotalWeight(w) <= |sampleSet|
  {
    w := seq(n, _ => 0);
    SumZero(n, Weights(w));
    var i := 0;
    while i < |sampleSet|
      invariant 0 <= i <= |sampleSet| && |w| == n
      invariant forall u :: 0 <= u < n ==> w[u] == if u in sampleSet[..i] then 1 else 0
      invariant TotalWeight(w) <= i
    {
      var x := sampleSet[i];
      ghost var before := w;
      w := w[x := 1];
      SumUpdate(n, x, Weights(before), Weights(w));
      assert sampleSet[..i + 1] == sampleSet[..i] + [x];
      i := i + 1;
    }
    assert sampleSet[..i] == sampleSet;
  }

  /** With non-negative weights every subtree sum lies between 0 and the
      total weight. */
  lemma CountsInRange(parent: seq<int>, time: seq<int>, w: seq<int>, u: int)
    requires ValidForest(parent, time) && |w| == |parent| && 0 <= u < |parent|
    requires forall x :: 0 <= x < |w| ==> w[x] >= 0
    ensures 0 <= SubtreeSum(parent, time, w, u) <= TotalWeight(w)
  {
    var n := |parent|;
    SumLe(n, Indicator(parent, time, w, u), Weights(w));
    SumZero(n, (x: nat) => 0);
    SumLe(n, (x: nat) => 0, Indicator(parent, time, w, u));
  }

  /** Bin k of every tree's spectrum, for the subtree counts of weights w. */
  ghost function TreeSpectra(time: seq<int>, w: seq<int>, diffs: seq<TreeDiff>, k: int): (v: seq<real>)
    requires |w| == |time| && DiffsValid(NoEdges(|time|), time, diffs)
    ensures |v| == |diffs|
  {
    var trees := Trees(NoEdges(|time|), diffs);
    TreesValid(NoEdges(|time|), time, diffs);
    seq(|diffs|, t requires 0 <= t < |diffs| =>
          Spectrum(trees[t], time, SubtreeSums(trees[t], time, w), k))
  }

  /** Bin k of every tree's spectrum is the tree statistic of
      branch_general_stat for the polarised summary CountIs(k). */
  lemma SpectraAreTreeValues(time: seq<int>, w: seq<int>, diffs: seq<TreeDiff>, k: int)
    requires |w| == |time| && DiffsValid(NoEdges(|time|), time, diffs)
    ensures TreeSpectra(time, w, diffs, k) == TreeValues(time, w, CountIs(k), true, diffs)
  {
    var trees := Trees(NoEdges(|time|), diffs);
    TreesValid(NoEdges(|time|), time, diffs);
    forall t | 0 <= t < |diffs|
      ensures TreeSpectra(time, w, diffs, k)[t] == TreeValues(time, w, CountIs(k), true, diffs)[t]
    {
      SpectrumIsRunning(trees[t], time, SubtreeSums(trees[t], time, w), TotalWeight(w), k);
    }
  }

  /** With non-negative weights and more bins than the total weight, the
      bins of a tree's spectrum add up to its total branch length. */
  lemma SpectrumCoversTree(parent: seq<int>, time: seq<int>, w: seq<int>, nOut: nat)
    requires ValidForest(parent, time) && |w| == |parent|
    requires forall x :: 0 <= x < |w| ==> w[x] >= 0
    requires TotalWeight(w) < nOut
    ensures SumR(nOut, SpectrumBins(parent, time, SubtreeSums(parent, time, w))) == TotalBranchLength(parent, time)
  {
    var state := SubtreeSums(parent, time, w);
    forall u | 0 <= u < |parent|
      ensures 0 <= state[u] < nOut
    {
      CountsInRange(parent, time, w, u);
    }
    SpectrumTotal(parent, time, state, nOut);
  }

  /** A bin above the total weight is empty in every tree: no node has
      that many samples below it. */
  lemma EmptyBin(parent: seq<int>, time: seq<int>, w: seq<int>, k: int)
    requires ValidForest(parent, time) && |w| == |parent|
    requires forall x :: 0 <= x < |w| ==> w[x] >= 0
    requires TotalWeight(w) < k
    ensures Spectrum(parent, time, SubtreeSums(parent, time, w), k) == 0.0
  {
    var state := SubtreeSums(parent, time, w);
    forall u: nat | u < |parent|
      ensures BinAreas(parent, time, state, k)(u) == 0.0
    {
      CountsInRange(parent, time, w, u);
    }
    SumRZeroR(|parent|, BinAreas(parent, time, state, k));
  }

  /** The window results of a bin above the total weight are all 0. */
  lemma EmptyColumn(time: seq<int>, w: seq<int>, diffs: seq<TreeDiff>, windows: seq<real>,
                    k: int, a: seq<real>)
    requires |w| == |time| && DiffsValid(NoEdges(|time|), time, diffs) && |diffs| > 0
    requires Spans(windows, Breakpoints(diffs))
    requires forall x :: 0 <= x < |w| ==> w[x] >= 0
    requires TotalWeight(w) < k
    requires WindowTotals(a, Breakpoints(diffs), TreeSpectra(time, w, diffs, k), windows, true)
    ensures forall j :: 0 <= j < |a| ==> a[j] == 0.0
  {
    var v := TreeSpectra(time, w, diffs, k);
    TreesValid(NoEdges(|time|), time, diffs);
    forall t | 0 <= t < |v|
      ensures v[t] == 0.0
    {
      EmptyBin(Trees(NoEdges(|time|), diffs)[t], time, w, k);
    }
    ConstantNormalised(a, Breakpoints(diffs), v, 0.0, windows);
  }

  /** branch_sample_frequency_spectrum for one sample set. nOut is the
      number of bins, one more than the size of the longest set of the call,
      so at least one more than this set's size. Column k of the result
      holds, per window, the span-normalised integral of bin k of the
      trees' spectra; bins above the set's size stay 0. */
  method BranchSampleFrequencySpectrum(time: seq<int>, sampleSet: seq<int>, diffs: seq<TreeDiff>,
                                       windows: seq<real>, nOut: nat) returns (result: seq<seq<real>>)
    requires forall i :: 0 <= i < |sampleSet| ==> 0 <= sampleSet[i] < |time|
    requires Contiguous(diffs) && DiffsValid(NoEdges(|time|), time, diffs)
    requires Spans(windows, Breakpoints(diffs))
    requires |sampleSet| < nOut
    ensures |result| == |windows| - 1
    ensures forall j :: 0 <= j < |result| ==> |result[j]| == nOut
    ensures forall k :: 0 <= k < nOut ==>
              WindowTotals(Column(result, k), Breakpoints(diffs),
                           TreeSpectra(time, Membership(|time|, sampleSet), diffs, k), windows, true)
    ensures forall j, k :: 0 <= j < |result| && |sampleSet| < k < nOut ==> result[j][k] == 0.0
    ensures forall t :: 0 <= t < |diffs| ==>
              var tree := Trees(NoEdges(|time|), diffs)[t];
              ValidForest(tree, time) &&
              SumR(nOut, SpectrumBins(tree, time, SubtreeSums(tree, time, Membership(|time|, sampleSet))))
                == TotalBranchLength(tree, time)
  {
    var w := SampleWeights(|time|, sampleSet);
    var bins := SpectrumColumns(time, w, diffs, windows, nOut);
    result := Transpose(bins, |windows| - 1);
    SpectraCoverTrees(time, w, diffs, nOut);
    forall j, k | 0 <= j < |result| && |sampleSet| < k < nOut
      ensures result[j][k] == 0.0
    {
      EmptyColumn(time, w, diffs, windows, k, Column(result, k));
      assert Column(result, k)[j] == result[j][k];
    }
  }

  /** One call of the windowed branch statistic per bin k < nOut, with
      summary function [x == k]. */
  method SpectrumColumns(time: seq<int>, w: seq<int>, diffs: seq<TreeDiff>, windows: seq<real>, nOut: nat)
      returns (bins: seq<seq<real>>)
    requires |w| == |time| && Contiguous(diffs) && DiffsValid(NoEdges(|time|), time, diffs)
    requires Spans(windows, Breakpoints(diffs))
    ensures |bins| == nOut
    ensures forall k :: 0 <= k < nOut ==> |bins[k]| == |windows| - 1
    ensures forall k :: 0 <= k < nOut ==>
              WindowTotals(bins[k], Breakpoints(diffs), TreeSpectra(time, w, diffs, k), windows, true)
  {
    bins := [];
    while |bins| < nOut
      invariant |bins| <= nOut
      invariant forall k :: 0 <= k < |bins| ==> |bins[k]| == |windows| - 1
      invariant forall k :: 0 <= k < |bins| ==>
                  WindowTotals(bins[k], Breakpoints(diffs), TreeSpectra(time, w, diffs, k), windows, true)
    {
      var k := |bins|;
      var column := BranchGeneralStat(time, w, CountIs(k), diffs, windows, true, true);
      SpectraAreTreeValues(time, w, diffs, k);
      bins := bins + [column];
    }
  }

  /** The bins of every tree's spectrum cover its total branch length. */
  lemma SpectraCoverTrees(time: seq<int>, w: seq<int>, diffs: seq<TreeDiff>, nOut: nat)
    requires |w| == |time| && DiffsValid(NoEdges(|time|), time, diffs)
    requires TotalWeight(w) < nOut && forall u :: 0 <= u < |w| ==> 0 <= w[u]
    ensures forall t :: 0 <= t < |diffs| ==>
              var tree := Trees(NoEdges(|time|), diffs)[t];
              ValidForest(tree, time) &&
              SumR(nOut, SpectrumBins(tree, time, SubtreeSums(tree, time, w))) == TotalBranchLength(tree, time)
  {
    TreesValid(NoEdges(|time|), time, diffs);
    forall t | 0 <= t < |diffs|
      ensures var tree := Trees(NoEdges(|time|), diffs)[t];
              SumR(nOut, SpectrumBins(tree, time, SubtreeSums(tree, time, w))) == TotalBranchLength(tree, time)
    {
      SpectrumCoversTree(Trees(NoEdges(|time|), diffs)[t], time, w, nOut);
    }
  }
}

=== FILE: sites.dfy ===
/** The site statistics. windowed_sitewise_stat adds each site's value into
    the window holding the site. site_general_stat keeps every node's
    subtree sum up to date through the edge diffs and evaluates each site
    against the tree whose interval holds it; naive_site_general_stat
    recomputes the subtree sums of every tree from scratch and hands the
    per-site values to windowed_sitewise_stat. */
module Sites {
  import opened Sums
  import opened Forest
  import opened TreeSeq
  import opened Windows
  import opened Postorder
  import opened Alleles

  function Positions(sites: seq<Site>): (p: seq<real>)
    ensures |p| == |sites|
  {
    seq(|sites|, i requires 0 <= i < |sites| => sites[i].position)
  }

  predicate Sorted(p: seq<real>)
  {
    forall i, j :: 0 <= i < j < |p| ==> p[i] <= p[j]
  }

  predicate Within(p: seq<real>, lo: real, hi: real)
  {
    forall i :: 0 <= i < |p| ==> lo <= p[i] < hi
  }

  /** Sites in position order inside [lo, hi), each with mutations on the
      n nodes. */
  predicate SitesValid(sites: seq<Site>, n: nat, lo: real, hi: real)
  {
    && Sorted(Positions(sites)) && Within(Positions(sites), lo, hi)
    && forall i :: 0 <= i < |sites| ==> MutationsValid(sites[i], n)
  }

  /** The interval [b[t], b[t+1]) of an increasing sequence that holds pos. */
  function IntervalOf(b: seq<real>, pos: real): (t: nat)
    requires |b| >= 2 && Increasing(b) && b[0] <= pos < b[|b| - 1]
    ensures t < |b| - 1 && b[t] <= pos < b[t + 1]
    decreases |b|
  {
    if pos < b[1] then 0 else 1 + IntervalOf(b[1..], pos)
  }

  /** Only one interval holds pos. */
  lemma IntervalOfUnique(b: seq<real>, pos: real, t: nat)
    requires |b| >= 2 && Increasing(b) && t < |b| - 1 && b[t] <= pos < b[t + 1]
    ensures IntervalOf(b, pos) == t
  {
    assert forall i, j :: 0 <= i <= j < |b| ==> b[i] <= b[j];
  }

  /** Site i's share of the window [wl, wr): its value when the window
      holds it. */
  function SiteTerms(p: seq<real>, sigma: seq<real>, wl: real, wr: real): nat -> real
  {
    (i: nat) => if i < |p| && i < |sigma| && wl <= p[i] < wr then sigma[i] else 0.0
  }

  /** The sum of the values of the sites in [wl, wr). */
  function InWindow(p: seq<real>, sigma: seq<real>, wl: real, wr: real): real
  {
    SumR(|p|, SiteTerms(p, sigma, wl, wr))
  }

  /** Window j's terms, for every window j. */
  function SiteColumns(p: seq<real>, sigma: seq<real>, windows: seq<real>): nat -> (nat -> real)
  {
    (j: nat) => if j + 1 < |windows| then SiteTerms(p, sigma, windows[j], windows[j + 1])
                else (i: nat) => 0.0
  }

  /** Window j holds the sum of the values of the sites inside it, divided
      by the window's length when normalised. */
  predicate SiteTotals(a: seq<real>, p: seq<real>, sigma: seq<real>, windows: seq<real>,
                       normalise: bool)
  {
    && |a| == |windows| - 1
    && forall j :: 0 <= j < |a| ==>
         if normalise then PerLength(a[j], windows[j], windows[j + 1], InWindow(p, sigma, windows[j], windows[j + 1]))
         else a[j] == InWindow(p, sigma, windows[j], windows[j + 1])
  }

  /** The inner step shared by windowed_sitewise_stat and site_general_stat:
      advance the window pointer to the window holding pos and add x to it. */
  method AddToWindow(a: seq<real>, windows: seq<real>, wi: nat, pos: real, x: real)
      returns (a': seq<real>, wi': nat)
    requires ValidWindows(windows) && |a| == |windows| - 1 && wi < |a|
    requires windows[wi] <= pos < windows[|windows| - 1]
    ensures wi <= wi' < |a| && windows[wi'] <= pos < windows[wi' + 1]
    ensures a' == a[wi' := a[wi'] + x]
  {
    wi' := wi;
    while windows[wi' + 1] <= pos
      invariant wi <= wi' < |a| && windows[wi'] <= pos
      decreases |a| - wi'
    {
      wi' := wi' + 1;
    }
    a' := a[wi' := a[wi'] + x];
  }

  /** Adding site i's value to the window holding it extends every
      window's sum by one site. */
  lemma AddSiteStep(a: seq<real>, a': seq<real>, p: seq<real>, sigma: seq<real>, windows: seq<real>,
                    i: nat, wi: nat)
    requires ValidWindows(windows) && |a| == |windows| - 1 && i < |p| && i < |sigma|
    requires wi < |a| && windows[wi] <= p[i] < windows[wi + 1]
    requires a' == a[wi := a[wi] + sigma[i]]
    requires Accumulated(SiteColumns(p, sigma, windows), a, i)
    ensures Accumulated(SiteColumns(p, sigma, windows), a', i + 1)
  {
    var F := SiteColumns(p, sigma, windows);
    forall j | 0 <= j < |a|
      ensures a'[j] == a[j] + F(j)(i)
    {
      SiteColumnAt(p, sigma, windows, i, j);
      if j < wi {
        assert windows[j + 1] <= windows[wi];
        assert F(j)(i) == 0.0;
      } else if j > wi {
        assert windows[wi + 1] <= windows[j];
        assert F(j)(i) == 0.0;
      }
    }
    SumRExtendAll(|a|, i, a, a', F);
  }

  /** Site i's term in window j. */
  lemma SiteColumnAt(p: seq<real>, sigma: seq<real>, windows: seq<real>, i: nat, j: nat)
    requires i < |p| && i < |sigma| && j + 1 < |windows|
    ensures SiteColumns(p, sigma, windows)(j)(i)
              == if windows[j] <= p[i] < windows[j + 1] then sigma[i] else 0.0
  {
  }

  /** Site i's value goes into the window holding it: the window sums
      then cover the first i + 1 sites. */
  method AddSite(a: seq<real>, ghost p: seq<real>, ghost sigma: seq<real>, windows: seq<real>,
                 i: nat, wi: nat, pos: real, x: real) returns (a': seq<real>, wi': nat)
    requires ValidWindows(windows) && |a| == |windows| - 1 && i < |p| && i < |sigma|
    requires pos == p[i] && x == sigma[i]
    requires wi < |a| && windows[wi] <= pos < windows[|windows| - 1]
    requires Accumulated(SiteColumns(p, sigma, windows), a, i)
    ensures |a'| == |a| && wi <= wi' < |a| && windows[wi'] <= pos
    ensures Accumulated(SiteColumns(p, sigma, windows), a', i + 1)
  {
    a', wi' := AddToWindow(a, windows, wi, pos, x);
    AddSiteStep(a, a', p, sigma, windows, i, wi');
  }

  /** The accumulated sums over every site are the window totals. */
  lemma AccumulatedTotals(a: seq<real>, p: seq<real>, sigma: seq<real>, windows: seq<real>)
    requires |a| == |windows| - 1
    requires Accumulated(SiteColumns(p, sigma, windows), a, |p|)
    ensures SiteTotals(a, p, sigma, windows, false)
  {
    forall j | 0 <= j < |a|
      ensures a[j] == InWindow(p, sigma, windows[j], windows[j + 1])
    {
      ColumnSum(a[j], p, sigma, windows, j);
    }
  }

  /** Window j's column sums to the window's total. */
  lemma ColumnSum(x: real, p: seq<real>, sigma: seq<real>, windows: seq<real>, j: nat)
    requires j + 1 < |windows| && x == SumR(|p|, SiteColumns(p, sigma, windows)(j))
    ensures x == InWindow(p, sigma, windows[j], windows[j + 1])
  {
    assert SiteColumns(p, sigma, windows)(j) == SiteTerms(p, sigma, windows[j], windows[j + 1]);
  }

  /** Span normalisation turns window sums into window sums per unit length. */
  lemma NormaliseSiteTotals(a: seq<real>, r: seq<real>, p: seq<real>, sigma: seq<real>, windows: seq<real>)
    requires SiteTotals(a, p, sigma, windows, false) && |r| == |a|
    requires forall j :: 0 <= j < |a| ==> PerLength(r[j], windows[j], windows[j + 1], a[j])
    ensures SiteTotals(r, p, sigma, windows, true)
  {
  }

  /** windowed_sitewise_stat: window j receives the values of the sites it
      holds, divided by its length when span_normalise is set. */
  method WindowedSitewiseStat(p: seq<real>, sigma: seq<real>, windows: seq<real>, spanNormalise: bool)
      returns (a: seq<real>)
    requires ValidWindows(windows) && |sigma| == |p|
    requires Sorted(p) && Within(p, windows[0], windows[|windows| - 1])
    ensures SiteTotals(a, p, sigma, windows, spanNormalise)
  {
    var nw := |windows| - 1;
    a := seq(nw, _ => 0.0);
    var wi := 0;
    var i := 0;
    while i < |p|
      invariant 0 <= i <= |p| && |a| == nw && wi < nw
      invariant i < |p| ==> windows[wi] <= p[i]
      invariant Accumulated(SiteColumns(p, sigma, windows), a, i)
    {
      a, wi := AddSite(a, p, sigma, windows, i, wi, p[i], sigma[i]);
      i := i + 1;
    }
    AccumulatedTotals(a, p, sigma, windows);
    if spanNormalise {
      var r := SpanNormalise(a, windows);
      NormaliseSiteTotals(a, r, p, sigma, windows);
      a := r;
    }
  }

  /** Window totals, normalised or not, are determined by the sites. */
  lemma SiteTotalsUnique(a: seq<real>, a': seq<real>, p: seq<real>, sigma: seq<real>,
                         windows: seq<real>, normalise: bool)
    requires ValidWindows(windows)
    requires SiteTotals(a, p, sigma, windows, normalise) && SiteTotals(a', p, sigma, windows, normalise)
    ensures a == a'
  {
    forall j | 0 <= j < |a|
      ensures a[j] == a'[j]
    {
      var s := InWindow(p, sigma, windows[j], windows[j + 1]);
      if normalise {
        assert PerLength(a[j], windows[j], windows[j + 1], s);
        assert PerLength(a'[j], windows[j], windows[j + 1], s);
        CancelPositive(a[j], a'[j], windows[j], windows[j + 1], s);
      } else {
        assert a[j] == s && a'[j] == s;
      }
    }
  }

  function Entries(s: seq<real>): nat -> real
  {
    (i: nat) => if i < |s| then s[i] else 0.0
  }

  /** Site i's share of window j. */
  function Share(p: seq<real>, sigma: seq<real>, windows: seq<real>): (nat, nat) -> real
  {
    (j: nat, i: nat) => SiteColumns(p, sigma, windows)(j)(i)
  }

  /** Row j of the shares adds up to window j's total. */
  lemma ShareRows(a: seq<real>, p: seq<real>, sigma: seq<real>, windows: seq<real>)
    requires SiteTotals(a, p, sigma, windows, false)
    ensures SumR(|a|, RowSumsR(Share(p, sigma, windows), |p|)) == SumR(|a|, Entries(a))
  {
    var F := Share(p, sigma, windows);
    forall j: nat | j < |a|
      ensures RowSumsR(F, |p|)(j) == Entries(a)(j)
    {
      assert SiteColumns(p, sigma, windows)(j) == SiteTerms(p, sigma, windows[j], windows[j + 1]);
      SumRExt(|p|, (i: nat) => F(j, i), SiteTerms(p, sigma, windows[j], windows[j + 1]));
    }
    SumRExt(|a|, RowSumsR(F, |p|), Entries(a));
  }

  /** Column i of the shares holds only site i's value, in the window
      holding the site. */
  lemma ShareColumn(p: seq<real>, sigma: seq<real>, windows: seq<real>, i: nat)
    requires ValidWindows(windows) && |sigma| == |p| && i < |p|
    requires windows[0] <= p[i] < windows[|windows| - 1]
    ensures ColSumsR(Share(p, sigma, windows), |windows| - 1)(i) == sigma[i]
  {
    var F := Share(p, sigma, windows);
    var nw := |windows| - 1;
    var k := IntervalOf(windows, p[i]);
    forall j: nat | j < nw && j != k
      ensures F(j, i) == 0.0
    {
      SiteColumnAt(p, sigma, windows, i, j);
      if j < k {
        assert windows[j + 1] <= windows[k];
      } else {
        assert windows[k + 1] <= windows[j];
      }
    }
    SiteColumnAt(p, sigma, windows, i, k);
    SumRSingle(nw, k, (j: nat) => F(j, i));
  }

  /** Each site lands in exactly one window, so the unnormalised window
      totals add up to the sum of all the site values. */
  lemma SitesPartition(a: seq<real>, p: seq<real>, sigma: seq<real>, windows: seq<real>)
    requires ValidWindows(windows) && |sigma| == |p| && Within(p, windows[0], windows[|windows| - 1])
    requires SiteTotals(a, p, sigma, windows, false)
    ensures SumR(|a|, Entries(a)) == SumR(|p|, Entries(sigma))
  {
    var F := Share(p, sigma, windows);
    SumRSwap(|a|, |p|, F);
    ShareRows(a, p, sigma, windows);
    forall i: nat | i < |p|
      ensures ColSumsR(F, |a|)(i) == Entries(sigma)(i)
    {
      ShareColumn(p, sigma, windows, i);
    }
    SumRExt(|p|, ColSumsR(F, |a|), Entries(sigma));
  }

  /** The value of every site, evaluated on the tree whose interval holds
      it, with the whole weight as the ancestral allele's starting weight. */
  ghost function SiteValues(time: seq<int>, w: seq<int>, f: int -> real, polarised: bool,
                            diffs: seq<TreeDiff>, sites: seq<Site>): (v: seq<real>)
    requires |w| == |time| && Contiguous(diffs) && DiffsValid(NoEdges(|time|), time, diffs)
    requires SitesValid(sites, |time|, Breakpoints(diffs)[0], Breakpoints(diffs)[|diffs|])
    ensures |v| == |sites|
  {
    var trees := Trees(NoEdges(|time|), diffs);
    var b := Breakpoints(diffs);
    TreesValid(NoEdges(|time|), time, diffs);
    BreakpointsIncreasing(diffs);
    seq(|sites|, i requires 0 <= i < |sites| =>
      var t := IntervalOf(b, Positions(sites)[i]);
      SiteValue(SubtreeSums(trees[t], time, w), TotalWeight(w), sites[i], f, polarised))
  }

  /** Evaluated against subtree sums of tree t, a site inside tree t's
      interval gets its value. */
  lemma SiteValueAt(time: seq<int>, w: seq<int>, f: int -> real, polarised: bool,
                    diffs: seq<TreeDiff>, sites: seq<Site>, t: nat, i: nat, state: seq<int>)
    requires |w| == |time| && Contiguous(diffs) && DiffsValid(NoEdges(|time|), time, diffs)
    requires SitesValid(sites, |time|, Breakpoints(diffs)[0], Breakpoints(diffs)[|diffs|])
    requires t < |diffs| && i < |sites|
    requires diffs[t].left <= sites[i].position < diffs[t].right
    requires Matches(Trees(NoEdges(|time|), diffs)[t], time, w, state)
    ensures MutationsValid(sites[i], |state|)
    ensures SiteValue(state, TotalWeight(w), sites[i], f, polarised)
              == SiteValues(time, w, f, polarised, diffs, sites)[i]
  {
    var b := Breakpoints(diffs);
    BreakpointsOfTrees(diffs);
    BreakpointsIncreasing(diffs);
    assert Positions(sites)[i] == sites[i].position;
    IntervalOfUnique(b, sites[i].position, t);
    MatchesSums(Trees(NoEdges(|time|), diffs)[t], time, w, state);
  }

  /** Against the states of tree t, every site in tree t's interval
      evaluates to its value. */
  lemma TreeSiteValues(time: seq<int>, w: seq<int>, f: int -> real, polarised: bool,
                       diffs: seq<TreeDiff>, sites: seq<Site>, t: nat, state: seq<int>)
    requires |w| == |time| && Contiguous(diffs) && DiffsValid(NoEdges(|time|), time, diffs)
    requires SitesValid(sites, |time|, Breakpoints(diffs)[0], Breakpoints(diffs)[|diffs|])
    requires t < |diffs|
    requires Matches(Trees(NoEdges(|time|), diffs)[t], time, w, state)
    ensures EvaluatesTo(sites, diffs[t].left, diffs[t].right, state, TotalWeight(w), f, polarised,
                        SiteValues(time, w, f, polarised, diffs, sites))
  {
    forall i | 0 <= i < |sites| && diffs[t].left <= sites[i].position < diffs[t].right
      ensures MutationsValid(sites[i], |state|)
      ensures SiteValue(state, TotalWeight(w), sites[i], f, polarised)
                == SiteValues(time, w, f, polarised, diffs, sites)[i]
    {
      SiteValueAt(time, w, f, polarised, diffs, sites, t, i, state);
    }
  }

  /** Against the subtree sums of any tree, every site in that tree's
      interval evaluates to its value in `values`. */
  ghost predicate ValuesAtTrees(time: seq<int>, w: seq<int>, f: int -> real, polarised: bool,
                                diffs: seq<TreeDiff>, sites: seq<Site>, values: seq<real>)
  {
    forall t, state :: 0 <= t < |diffs| && Matches(Trees(NoEdges(|time|), diffs)[t], time, w, state) ==>
      EvaluatesTo(sites, diffs[t].left, diffs[t].right, state, TotalWeight(w), f, polarised, values)
  }

  lemma AllTreeSiteValues(time: seq<int>, w: seq<int>, f: int -> real, polarised: bool,
                          diffs: seq<TreeDiff>, sites: seq<Site>)
    requires |w| == |time| && Contiguous(diffs) && DiffsValid(NoEdges(|time|), time, diffs)
    requires SitesValid(sites, |time|, Breakpoints(diffs)[0], Breakpoints(diffs)[|diffs|])
    ensures ValuesAtTrees(time, w, f, polarised, diffs, sites, SiteValues(time, w, f, polarised, diffs, sites))
  {
    forall t, state | 0 <= t < |diffs| && Matches(Trees(NoEdges(|time|), diffs)[t], time, w, state)
      ensures EvaluatesTo(sites, diffs[t].left, diffs[t].right, state, TotalWeight(w), f, polarised,
                          SiteValues(time, w, f, polarised, diffs, sites))
    {
      TreeSiteValues(time, w, f, polarised, diffs, sites, t, state);
    }
  }

  /** Every site in [left, right) evaluates to its value against `state`. */
  ghost predicate EvaluatesTo(sites: seq<Site>, left: real, right: real, state: seq<int>, total: int,
                              f: int -> real, polarised: bool, values: seq<real>)
  {
    && |values| == |sites|
    && forall i :: 0 <= i < |sites| && left <= sites[i].position < right ==>
         MutationsValid(sites[i], |state|) && SiteValue(state, total, sites[i], f, polarised) == values[i]
  }

  /** One site of the tree over [left, right): its allele states give
      site_result, which goes into the window holding the site. */
  method TreeSite(f: int -> real, polarised: bool, sites: seq<Site>, windows: seq<real>,
                  left: real, right: real, state: seq<int>, total: int,
                  ghost values: seq<real>, result: seq<real>, si: nat, wi: nat)
      returns (result': seq<real>, wi': nat)
    requires ValidWindows(windows)
    requires Sorted(Positions(sites)) && Within(Positions(sites), windows[0], windows[|windows| - 1])
    requires EvaluatesTo(sites, left, right, state, total, f, polarised, values)
    requires |result| == |windows| - 1 && si < |sites| && wi < |result|
    requires left <= sites[si].position < right && windows[wi] <= sites[si].position
    requires Accumulated(SiteColumns(Positions(sites), values, windows), result, si)
    ensures |result'| == |result| && wi' < |result|
    ensures si + 1 < |sites| ==> left <= sites[si + 1].position && windows[wi'] <= sites[si + 1].position
    ensures Accumulated(SiteColumns(Positions(sites), values, windows), result', si + 1)
  {
    var pos := sites[si].position;
    assert Positions(sites)[si] == pos;
    var value := SiteValue(state, total, sites[si], f, polarised);
    result', wi' := AddSite(result, Positions(sites), values, windows, si, wi, pos, value);
    if si + 1 < |sites| {
      assert Positions(sites)[si] <= Positions(sites)[si + 1];
    }
  }

  /** The site loop of site_general_stat for the tree over [left, right):
      every site left of `right` is evaluated against the current states
      and added into its window. */
  method TreeSites(f: int -> real, polarised: bool, sites: seq<Site>, windows: seq<real>,
                   left: real, right: real, state: seq<int>, total: int,
                   ghost values: seq<real>, result: seq<real>, si: nat, wi: nat)
      returns (result': seq<real>, si': nat, wi': nat)
    requires ValidWindows(windows)
    requires Sorted(Positions(sites)) && Within(Positions(sites), windows[0], windows[|windows| - 1])
    requires EvaluatesTo(sites, left, right, state, total, f, polarised, values)
    requires |result| == |windows| - 1 && si <= |sites| && wi < |result|
    requires si < |sites| ==> left <= sites[si].position && windows[wi] <= sites[si].position
    requires Accumulated(SiteColumns(Positions(sites), values, windows), result, si)
    ensures |result'| == |result| && si <= si' <= |sites| && wi' < |result|
    ensures si' < |sites| ==> right <= sites[si'].position && windows[wi'] <= sites[si'].position
    ensures Accumulated(SiteColumns(Positions(sites), values, windows), result', si')
  {
    result', si', wi' := result, si, wi;
    while si' < |sites| && sites[si'].position < right
      invariant |result'| == |result| && si <= si' <= |sites| && wi' < |result|
      invariant si' < |sites| ==> left <= sites[si'].position && windows[wi'] <= sites[si'].position
      invariant Accumulated(SiteColumns(Positions(sites), values, windows), result', si')
    {
      result', wi' := TreeSite(f, polarised, sites, windows, left, right, state, total, values,
                               result', si', wi');
      si' := si' + 1;
    }
  }

  /** The state of site_general_stat before tree t: the subtree sums of
      the tree before it, the next site to the right of the trees done, the
      window pointer at or left of that site, and the windows holding the
      values of the sites done. */
  ghost predicate SiteLoop(time: seq<int>, w: seq<int>, diffs: seq<TreeDiff>, sites: seq<Site>,
                           windows: seq<real>, values: seq<real>, t: nat, parent: seq<int>,
                           state: seq<int>, result: seq<real>, si: nat, wi: nat)
  {
    && |diffs| > 0 && t <= |diffs| && |result| == |windows| - 1 && si <= |sites| && wi < |result|
    && AtTree(time, w, diffs, t, parent, state)
    && (si < |sites| ==> Breakpoints(diffs)[t] <= Positions(sites)[si] && windows[wi] <= Positions(sites)[si])
    && Accumulated(SiteColumns(Positions(sites), values, windows), result, si)
  }

  /** One tree of site_general_stat: the edge diffs bring the subtree sums
      to tree t, then every site of the tree goes into its window. */
  method SiteTree(time: seq<int>, w: seq<int>, f: int -> real, diffs: seq<TreeDiff>,
                  sites: seq<Site>, windows: seq<real>, polarised: bool, total: int, t: nat,
                  parent: seq<int>, state: seq<int>, ghost values: seq<real>,
                  result: seq<real>, si: nat, wi: nat)
      returns (parent': seq<int>, state': seq<int>, result': seq<real>, si': nat, wi': nat)
    requires |w| == |time| && Contiguous(diffs) && DiffsValid(NoEdges(|time|), time, diffs)
    requires Sorted(Positions(sites))
    requires ValidWindows(windows) && Within(Positions(sites), windows[0], windows[|windows| - 1])
    requires total == TotalWeight(w) && ValuesAtTrees(time, w, f, polarised, diffs, sites, values)
    requires t < |diffs| && SiteLoop(time, w, diffs, sites, windows, values, t, parent, state, result, si, wi)
    ensures SiteLoop(time, w, diffs, sites, windows, values, t + 1, parent', state', result', si', wi')
  {
    BreakpointsOfTrees(diffs);
    NextDiff(parent, time, diffs, t, Trees(NoEdges(|time|), diffs));
    parent', state' := ApplyDiff(parent, time, w, state, diffs[t]);
    result', si', wi' := TreeSites(f, polarised, sites, windows, diffs[t].left, diffs[t].right,
                                   state', total, values, result, si, wi);
  }

  /** site_general_stat: window j receives the values of the sites it
      holds, each site evaluated on its own tree, divided by the window's
      length when span-normalised. */
  method SiteGeneralStat(time: seq<int>, w: seq<int>, f: int -> real, diffs: seq<TreeDiff>,
                         sites: seq<Site>, windows: seq<real>, polarised: bool, spanNormalise: bool)
      returns (result: seq<real>)
    requires |w| == |time| && Contiguous(diffs) && DiffsValid(NoEdges(|time|), time, diffs)
    requires Spans(windows, Breakpoints(diffs))
    requires SitesValid(sites, |time|, Breakpoints(diffs)[0], Breakpoints(diffs)[|diffs|])
    ensures SiteTotals(result, Positions(sites), SiteValues(time, w, f, polarised, diffs, sites),
                       windows, spanNormalise)
  {
    ghost var values := SiteValues(time, w, f, polarised, diffs, sites);
    AllTreeSiteValues(time, w, f, polarised, diffs, sites);
    result := SiteSweep(time, w, f, diffs, sites, windows, polarised, values);
    AccumulatedTotals(result, Positions(sites), values, windows);
    if spanNormalise {
      var r := SpanNormalise(result, windows);
      NormaliseSiteTotals(result, r, Positions(sites), values, windows);
      result := r;
    }
  }

  /** The tree loop of site_general_stat: every site's value ends up in the
      window holding it. */
  method SiteSweep(time: seq<int>, w: seq<int>, f: int -> real, diffs: seq<TreeDiff>,
                   sites: seq<Site>, windows: seq<real>, polarised: bool, ghost values: seq<real>)
      returns (result: seq<real>)
    requires |w| == |time| && Contiguous(diffs) && DiffsValid(NoEdges(|time|), time, diffs)
    requires Spans(windows, Breakpoints(diffs))
    requires Sorted(Positions(sites)) && Within(Positions(sites), Breakpoints(diffs)[0], Breakpoints(diffs)[|diffs|])
    requires ValuesAtTrees(time, w, f, polarised, diffs, sites, values)
    ensures |result| == |windows| - 1
    ensures Accumulated(SiteColumns(Positions(sites), values, windows), result, |sites|)
  {
    var total := SumWeights(w);
    result := seq(|windows| - 1, _ => 0.0);
    var parent := NoEdges(|time|);
    var state := w;
    EmptyForestSums(time, w);
    assert diffs[0..] == diffs;
    var si: nat, wi: nat, t: nat := 0, 0, 0;
    while t < |diffs|
      invariant t <= |diffs|
      invariant SiteLoop(time, w, diffs, sites, windows, values, t, parent, state, result, si, wi)
    {
      parent, state, result, si, wi := SiteTree(time, w, f, diffs, sites, windows, polarised, total,
                                                t, parent, state, values, result, si, wi);
      t := t + 1;
    }
    assert si == |sites|;
  }

  /** The subtree sums of the roots added up: with X the subtree sums,
      the roots together hold the whole weight. */
  method RootTotal(parent: seq<int>, time: seq<int>, ghost w: seq<int>, x: seq<int>) returns (s: int)
    requires Matches(parent, time, w, x)
    ensures s == TotalWeight(w)
  {
    s := 0;
    var u := 0;
    while u < |parent|
      invariant 0 <= u <= |parent|
      invariant s == Sum(u, ChildTerms(parent, time, w, NULL))
    {
      if parent[u] == NULL {
        s := s + x[u];
      }
      u := u + 1;
    }
    RootSums(parent, time, w);
  }

  /** The state of naive_site_general_stat before tree t: the forest of
      the tree before it, the next site to the right of the trees done, and
      sigma holding the values of the sites done. */
  ghost predicate NaiveLoop(time: seq<int>, diffs: seq<TreeDiff>, sites: seq<Site>, values: seq<real>,
                            t: nat, parent: seq<int>, sigma: seq<real>, si: nat)
  {
    && |diffs| > 0 && t <= |diffs| && si <= |sites| == |values|
    && DiffsValid(parent, time, diffs[t..])
    && Trees(parent, diffs[t..]) == Trees(NoEdges(|time|), diffs)[t..]
    && (si < |sites| ==> Breakpoints(diffs)[t] <= Positions(sites)[si])
    && sigma == values[..si]
  }

  /** One tree of naive_site_general_stat: the subtree sums of tree t from
      scratch, then the value of every site of the tree. */
  method NaiveSiteTree(time: seq<int>, w: seq<int>, f: int -> real, diffs: seq<TreeDiff>,
                       order: seq<int>, sites: seq<Site>, polarised: bool, t: nat,
                       parent: seq<int>, ghost values: seq<real>, sigma: seq<real>, si: nat)
      returns (parent': seq<int>, sigma': seq<real>, si': nat)
    requires |w| == |time| && Contiguous(diffs) && DiffsValid(NoEdges(|time|), time, diffs)
    requires t < |diffs| && IsPostorder(Trees(NoEdges(|time|), diffs)[t], w, order)
    requires Sorted(Positions(sites)) && ValuesAtTrees(time, w, f, polarised, diffs, sites, values)
    requires NaiveLoop(time, diffs, sites, values, t, parent, sigma, si)
    ensures NaiveLoop(time, diffs, sites, values, t + 1, parent', sigma', si')
  {
    BreakpointsOfTrees(diffs);
    NextDiff(parent, time, diffs, t, Trees(NoEdges(|time|), diffs));
    TreesValid(NoEdges(|time|), time, diffs);
    parent' := Apply(parent, diffs[t]);
    var x := PostorderSums(parent', time, w, order);
    var rootTotal := RootTotal(parent', time, w, x);
    sigma', si' := NaiveTreeSites(f, polarised, sites, diffs[t].left, diffs[t].right, x, rootTotal,
                                  values, sigma, si);
  }

  /** sigma of naive_site_general_stat: for every tree, the subtree sums by
      the postorder accumulation, then the value of every site in the
      tree's interval, starting the ancestral allele at the roots' total. */
  method NaiveSiteSigma(time: seq<int>, w: seq<int>, f: int -> real, diffs: seq<TreeDiff>,
                        orders: seq<seq<int>>, sites: seq<Site>, polarised: bool)
      returns (sigma: seq<real>)
    requires |w| == |time| && Contiguous(diffs) && DiffsValid(NoEdges(|time|), time, diffs)
    requires |orders| == |diffs|
    requires forall t :: 0 <= t < |diffs| ==> IsPostorder(Trees(NoEdges(|time|), diffs)[t], w, orders[t])
    requires SitesValid(sites, |time|, Breakpoints(diffs)[0], Breakpoints(diffs)[|diffs|])
    ensures sigma == SiteValues(time, w, f, polarised, diffs, sites)
  {
    ghost var values := SiteValues(time, w, f, polarised, diffs, sites);
    AllTreeSiteValues(time, w, f, polarised, diffs, sites);
    sigma := NaiveSiteSweep(time, w, f, diffs, orders, sites, polarised, values);
  }

  /** The tree loop of naive_site_general_stat: the values of the sites,
      tree by tree. */
  method NaiveSiteSweep(time: seq<int>, w: seq<int>, f: int -> real, diffs: seq<TreeDiff>,
                        orders: seq<seq<int>>, sites: seq<Site>, polarised: bool,
                        ghost values: seq<real>) returns (sigma: seq<real>)
    requires |w| == |time| && Contiguous(diffs) && DiffsValid(NoEdges(|time|), time, diffs)
    requires |orders| == |diffs|
    requires forall t :: 0 <= t < |diffs| ==> IsPostorder(Trees(NoEdges(|time|), diffs)[t], w, orders[t])
    requires Sorted(Positions(sites)) && Within(Positions(sites), Breakpoints(diffs)[0], Breakpoints(diffs)[|diffs|])
    requires |values| == |sites| && ValuesAtTrees(time, w, f, polarised, diffs, sites, values)
    ensures sigma == values
  {
    sigma := [];
    var parent := NoEdges(|time|);
    assert diffs[0..] == diffs;
    var si: nat, t: nat := 0, 0;
    while t < |diffs|
      invariant t <= |diffs|
      invariant NaiveLoop(time, diffs, sites, values, t, parent, sigma, si)
    {
      parent, sigma, si := NaiveSiteTree(time, w, f, diffs, orders[t], sites, polarised, t, parent,
                                         values, sigma, si);
      t := t + 1;
    }
    assert si == |sites|;
    assert values[..si] == values;
  }

  /** The sites of one tree in naive_site_general_stat: each site in
      [left, right) appends its value to sigma. */
  method NaiveTreeSites(f: int -> real, polarised: bool, sites: seq<Site>, left: real, right: real,
                        x: seq<int>, rootTotal: int, ghost values: seq<real>, sigma: seq<real>, si: nat)
      returns (sigma': seq<real>, si': nat)
    requires Sorted(Positions(sites))
    requires EvaluatesTo(sites, left, right, x, rootTotal, f, polarised, values)
    requires si <= |sites| == |values| && sigma == values[..si]
    requires si < |sites| ==> left <= sites[si].position
    ensures si <= si' <= |sites| && sigma' == values[..si']
    ensures si' < |sites| ==> right <= sites[si'].position
  {
    sigma', si' := sigma, si;
    while si' < |sites| && sites[si'].position < right
      invariant si <= si' <= |sites| && sigma' == values[..si']
      invariant si' < |sites| ==> left <= sites[si'].position
    {
      sigma' := sigma' + [SiteValue(x, rootTotal, sites[si'], f, polarised)];
      assert values[..si' + 1] == values[..si'] + [values[si']];
      si' := si' + 1;
      if si' < |sites| {
        assert Positions(sites)[si' - 1] <= Positions(sites)[si'];
      }
    }
  }

  /** naive_site_general_stat: the per-site values handed to
      windowed_sitewise_stat. */
  method NaiveSiteGeneralStat(time: seq<int>, w: seq<int>, f: int -> real, diffs: seq<TreeDiff>,
                              orders: seq<seq<int>>, sites: seq<Site>, windows: seq<real>,
                              polarised: bool, spanNormalise: bool) returns (result: seq<real>)
    requires |w| == |time| && Contiguous(diffs) && DiffsValid(NoEdges(|time|), time, diffs)
    requires |orders| == |diffs|
    requires forall t :: 0 <= t < |diffs| ==> IsPostorder(Trees(NoEdges(|time|), diffs)[t], w, orders[t])
    requires Spans(windows, Breakpoints(diffs))
    requires SitesValid(sites, |time|, Breakpoints(diffs)[0], Breakpoints(diffs)[|diffs|])
    ensures SiteTotals(result, Positions(sites), SiteValues(time, w, f, polarised, diffs, sites),
                       windows, spanNormalise)
  {
    var sigma := NaiveSiteSigma(time, w, f, diffs, orders, sites, polarised);
    result := WindowedSitewiseStat(Positions(sites), sigma, windows, spanNormalise);
  }

  /** compare_general_stat for the site statistics: the naive and the
      incremental versions give the same window values. */
  method CompareSiteStats(time: seq<int>, w: seq<int>, f: int -> real, diffs: seq<TreeDiff>,
                          orders: seq<seq<int>>, sites: seq<Site>, windows: seq<real>,
                          polarised: bool, spanNormalise: bool)
      returns (naive: seq<real>, incremental: seq<real>)
    requires |w| == |time| && Contiguous(diffs) && DiffsValid(NoEdges(|time|), time, diffs)
    requires |orders| == |diffs|
    requires forall t :: 0 <= t < |diffs| ==> IsPostorder(Trees(NoEdges(|time|), diffs)[t], w, orders[t])
    requires Spans(windows, Breakpoints(diffs))
    requires SitesValid(sites, |time|, Breakpoints(diffs)[0], Breakpoints(diffs)[|diffs|])
    ensures |naive| == |windows| - 1 && naive == incremental
  {
    naive := NaiveSiteGeneralStat(time, w, f, diffs, orders, sites, windows, polarised, spanNormalise);
    incremental := SiteGeneralStat(time, w, f, diffs, sites, windows, polarised, spanNormalise);
    SiteTotalsUnique(naive, incremental, Positions(sites), SiteValues(time, w, f, polarised, diffs, sites),
                     windows, spanNormalise);
  }
}

=== FILE: sums.dfy ===
/** Finite sums over an index range 0..n-1, for integer and for real
    summands. Subtree sums, allele totals and windowed accumulations of
    the statistics are all stated as such sums. */
module Sums {

  /** The sum f(0) + ... + f(n-1). */
  function Sum(n: nat, f: nat -> int): int
  {
    if n == 0 then 0 else Sum(n - 1, f) + f(n - 1)
  }

  lemma {:induction false} SumExt(n: nat, f: nat -> int, g: nat -> int)
    requires forall i: nat :: i < n ==> f(i) == g(i)
    ensures Sum(n, f) == Sum(n, g)
  {
    if n > 0 {
      SumExt(n - 1, f, g);
    }
  }

  lemma {:induction false} SumAdd(n: nat, f: nat -> int, g: nat -> int, h: nat -> int)
    requires forall i: nat :: i < n ==> h(i) == f(i) + g(i)
    ensures Sum(n, h) == Sum(n, f) + Sum(n, g)
  {
    if n > 0 {
      SumAdd(n - 1, f, g, h);
    }
  }

  lemma {:induction false} SumZero(n: nat, f: nat -> int)
    requires forall i: nat :: i < n ==> f(i) == 0
    ensures Sum(n, f) == 0
  {
    if n > 0 {
      SumZero(n - 1, f);
    }
  }

  /** A sum with a single non-zero summand is that summand. */
  lemma {:induction false} SumSingle(n: nat, k: nat, f: nat -> int)
    requires k < n
    requires forall i: nat :: i < n && i != k ==> f(i) == 0
    ensures Sum(n, f) == f(k)
  {
    if k == n - 1 {
      SumZero(n - 1, f);
    } else {
      SumSingle(n - 1, k, f);
    }
  }

  /** The rows of a finite double sum, each summed. */
  function RowSums(F: (nat, nat) -> int, m: nat): nat -> int
  {
    (i: nat) => Sum(m, (j: nat) => F(i, j))
  }

  /** The columns of a finite double sum, each summed. */
  function ColSums(F: (nat, nat) -> int, n: nat): nat -> int
  {
    (j: nat) => Sum(n, (i: nat) => F(i, j))
  }

  /** Exchanging the order of a finite double sum. */
  lemma {:induction false} SumSwap(n: nat, m: nat, F: (nat, nat) -> int)
    ensures Sum(n, RowSums(F, m)) == Sum(m, ColSums(F, n))
  {
    if n == 0 {
      SumZero(m, ColSums(F, 0));
    } else {
      SumSwap(n - 1, m, F);
      var last: nat -> int := (j: nat) => F(n - 1, j);
      assert RowSums(F, m)(n - 1) == Sum(m, last);
      SumAdd(m, ColSums(F, n - 1), last, ColSums(F, n));
    }
  }

  /** Pointwise smaller summands have a smaller sum. */
  lemma {:induction false} SumLe(n: nat, f: nat -> int, g: nat -> int)
    requires forall i: nat :: i < n ==> f(i) <= g(i)
    ensures Sum(n, f) <= Sum(n, g)
  {
    if n > 0 {
      SumLe(n - 1, f, g);
    }
  }

  /** Replacing one summand changes the sum by the difference. */
  lemma {:induction false} SumUpdate(n: nat, k: nat, f: nat -> int, g: nat -> int)
    requires k < n
    requires forall i: nat :: i < n && i != k ==> f(i) == g(i)
    ensures Sum(n, g) == Sum(n, f) - f(k) + g(k)
  {
    if k == n - 1 {
      SumExt(n - 1, f, g);
    } else {
      SumUpdate(n - 1, k, f, g);
    }
  }

  /** The sum r(0) + ... + r(n-1) of real summands. */
  function SumR(n: nat, r: nat -> real): real
  {
    if n == 0 then 0.0 else SumR(n - 1, r) + r(n - 1)
  }

  lemma {:induction false} SumRExt(n: nat, r: nat -> real, s: nat -> real)
    requires forall i: nat :: i < n ==> r(i) == s(i)
    ensures SumR(n, r) == SumR(n, s)
  {
    if n > 0 {
      SumRExt(n - 1, r, s);
    }
  }

  lemma {:induction false} SumRScale(n: nat, c: real, r: nat -> real, s: nat -> real)
    requires forall i: nat :: i < n ==> s(i) == c * r(i)
    ensures SumR(n, s) == c * SumR(n, r)
  {
    if n > 0 {
      SumRScale(n - 1, c, r, s);
    }
  }

  /** The summands r, each multiplied by its weight in v. */
  function Weighted(v: seq<real>, r: nat -> real): nat -> real
  {
    (t: nat) => if t < |v| then v[t] * r(t) else 0.0
  }

  /** With every weight equal to c, the weighted sum is c times the plain
      sum, here the length of an interval [lo, hi). */
  lemma WeightedConstant(n: nat, v: seq<real>, c: real, r: nat -> real, lo: real, hi: real)
    requires n <= |v| && forall t :: 0 <= t < n ==> v[t] == c
    requires SumR(n, r) == hi - lo
    ensures SumR(n, Weighted(v, r)) == c * (hi - lo)
  {
    SumRScale(n, c, r, Weighted(v, r));
  }

  /** Weights on vanishing summands contribute nothing. */
  lemma WeightedZero(n: nat, v: seq<real>, r: nat -> real)
    requires forall i: nat :: i < n ==> r(i) == 0.0
    ensures SumR(n, Weighted(v, r)) == 0.0
  {
    SumRZeroR(n, Weighted(v, r));
  }

  /** Extending a family of prefix sums by one more summand each. */
  lemma SumRExtendAll(n: nat, t: nat, before: seq<real>, after: seq<real>, F: nat -> (nat -> real))
    requires |before| == |after| == n
    requires forall j :: 0 <= j < n ==> before[j] == SumR(t, F(j))
    requires forall j :: 0 <= j < n ==> after[j] == before[j] + F(j)(t)
    ensures forall j :: 0 <= j < n ==> after[j] == SumR(t + 1, F(j))
  {
  }

  /** One more summand. */
  lemma SumRStep(n: nat, r: nat -> real, before: real, x: real)
    requires before == SumR(n, r) && x == r(n)
    ensures before + x == SumR(n + 1, r)
  {
  }

  lemma {:induction false} SumRZeroR(n: nat, r: nat -> real)
    requires forall i: nat :: i < n ==> r(i) == 0.0
    ensures SumR(n, r) == 0.0
  {
    if n > 0 {
      SumRZeroR(n - 1, r);
    }
  }

  /** Summands that vanish from index k on do not change a prefix sum. */
  lemma {:induction false} SumRTailZero(n: nat, k: nat, r: nat -> real)
    requires k <= n
    requires forall i: nat :: k <= i < n ==> r(i) == 0.0
    ensures SumR(n, r) == SumR(k, r)
  {
    if n > k {
      SumRTailZero(n - 1, k, r);
    }
  }

  /** Replacing one summand changes the sum by the difference. */
  lemma {:induction false} SumRUpdate(n: nat, k: nat, r: nat -> real, s: nat -> real)
    requires k < n
    requires forall i: nat :: i < n && i != k ==> r(i) == s(i)
    ensures SumR(n, s) == SumR(n, r) - r(k) + s(k)
  {
    if k == n - 1 {
      SumRExt(n - 1, r, s);
    } else {
      SumRUpdate(n - 1, k, r, s);
    }
  }

  lemma {:induction false} SumRAdd(n: nat, r: nat -> real, s: nat -> real, t: nat -> real)
    requires forall i: nat :: i < n ==> t(i) == r(i) + s(i)
    ensures SumR(n, t) == SumR(n, r) + SumR(n, s)
  {
    if n > 0 {
      SumRAdd(n - 1, r, s, t);
    }
  }

  /** A real sum with a single non-zero summand is that summand. */
  lemma {:induction false} SumRSingle(n: nat, k: nat, r: nat -> real)
    requires k < n
    requires forall i: nat :: i < n && i != k ==> r(i) == 0.0
    ensures SumR(n, r) == r(k)
  {
    if k == n - 1 {
      SumRZeroR(n - 1, r);
    } else {
      SumRSingle(n - 1, k, r);
    }
  }

  /** A sum of non-negative summands is non-negative. */
  lemma {:induction false} SumRNonNegative(n: nat, r: nat -> real)
    requires forall i: nat :: i < n ==> r(i) >= 0.0
    ensures SumR(n, r) >= 0.0
  {
    if n > 0 {
      SumRNonNegative(n - 1, r);
    }
  }

  /** A sum of non-negative summands is at least each of them. */
  lemma {:induction false} SumRAtLeast(n: nat, k: nat, r: nat -> real)
    requires k < n
    requires forall i: nat :: i < n ==> r(i) >= 0.0
    ensures SumR(n, r) >= r(k)
  {
    if k == n - 1 {
      SumRNonNegative(n - 1, r);
    } else {
      SumRAtLeast(n - 1, k, r);
    }
  }

  /** The summands r at the entries of a list of indices. */
  function AtEntries(order: seq<int>, r: nat -> real): nat -> real
  {
    (i: nat) => if i < |order| && order[i] >= 0 then r(order[i]) else 0.0
  }

  /** The summands r at the indices a list holds, and 0 elsewhere. */
  function OnList(order: seq<int>, r: nat -> real): nat -> real
  {
    (u: nat) => if u in order then r(u) else 0.0
  }

  /** Summing over a list of distinct indices below n is summing over
      0..n-1 the summands at the indices the list holds. */
  lemma {:induction false} SumROver(n: nat, order: seq<int>, r: nat -> real)
    requires forall i :: 0 <= i < |order| ==> 0 <= order[i] < n
    requires forall i, j :: 0 <= i < j < |order| ==> order[i] != order[j]
    ensures SumR(|order|, AtEntries(order, r)) == SumR(n, OnList(order, r))
  {
    if |order| == 0 {
      SumRZeroR(n, OnList(order, r));
    } else {
      var k := |order| - 1;
      var front := order[..k];
      assert order == front + [order[k]];
      SumROver(n, front, r);
      SumRExt(k, AtEntries(order, r), AtEntries(front, r));
      assert order[k] !in front;
      SumRUpdate(n, order[k], OnList(front, r), OnList(order, r));
    }
  }

  function RowSumsR(F: (nat, nat) -> real, m: nat): nat -> real
  {
    (i: nat) => SumR(m, (j: nat) => F(i, j))
  }

  function ColSumsR(F: (nat, nat) -> real, n: nat): nat -> real
  {
    (j: nat) => SumR(n, (i: nat) => F(i, j))
  }

  /** Exchanging the order of a finite double sum of reals. */
  lemma {:induction false} SumRSwap(n: nat, m: nat, F: (nat, nat) -> real)
    ensures SumR(n, RowSumsR(F, m)) == SumR(m, ColSumsR(F, n))
  {
    if n == 0 {
      SumRZeroR(m, ColSumsR(F, 0));
    } else {
      SumRSwap(n - 1, m, F);
      var last: nat -> real := (j: nat) => F(n - 1, j);
      assert RowSumsR(F, m)(n - 1) == SumR(m, last);
      SumRAdd(m, ColSumsR(F, n - 1), last, ColSumsR(F, n));
    }
  }
}

=== FILE: treeseq.dfy ===
/** A tree sequence as the statistics see it: a run of trees, each given by
    its genomic interval [left, right) and the edges that leave and enter
    the parent array when moving to it from the previous tree (tskit's
    edge_diffs). The edge loops shared by the site and branch statistics
    keep every node's state equal to its subtree sum. */
module TreeSeq {
  import opened Forest
  import opened Windows

  /** One step of edge_diffs: the next tree's interval, the edges to remove
      and the edges to insert, in order. */
  datatype TreeDiff = TreeDiff(left: real, right: real, edgesOut: seq<Edge>, edgesIn: seq<Edge>)

  /** The parent array after removing the edges in order. */
  function Detach(parent: seq<int>, edges: seq<Edge>): (r: seq<int>)
    ensures |r| == |parent|
    decreases |edges|
  {
    if |edges| == 0 then parent
    else
      var c := edges[0].child;
      Detach(if c < |parent| then parent[c := NULL] else parent, edges[1..])
  }

  /** The parent array after inserting the edges in order. */
  function Attach(parent: seq<int>, edges: seq<Edge>): (r: seq<int>)
    ensures |r| == |parent|
    decreases |edges|
  {
    if |edges| == 0 then parent
    else
      var c := edges[0].child;
      Attach(if c < |parent| then parent[c := edges[0].parent] else parent, edges[1..])
  }

  /** The parent array of the tree that the diff leads to. */
  function Apply(parent: seq<int>, d: TreeDiff): (r: seq<int>)
    ensures |r| == |parent|
  {
    Attach(Detach(parent, d.edgesOut), d.edgesIn)
  }

  /** Each removed edge is in the forest when it is removed. */
  ghost predicate RemovalsValid(parent: seq<int>, edges: seq<Edge>)
    decreases |edges|
  {
    |edges| == 0 ||
    (&& edges[0].child < |parent| && parent[edges[0].child] == edges[0].parent
     && RemovalsValid(parent[edges[0].child := NULL], edges[1..]))
  }

  /** Each inserted edge joins a root to an older node. */
  ghost predicate InsertionsValid(parent: seq<int>, time: seq<int>, edges: seq<Edge>)
    decreases |edges|
  {
    |edges| == 0 ||
    (&& edges[0].child < |parent| && edges[0].parent < |parent| && |time| == |parent|
     && parent[edges[0].child] == NULL && time[edges[0].child] < time[edges[0].parent]
     && InsertionsValid(parent[edges[0].child := edges[0].parent], time, edges[1..]))
  }

  ghost predicate DiffValid(parent: seq<int>, time: seq<int>, d: TreeDiff)
  {
    RemovalsValid(parent, d.edgesOut) && InsertionsValid(Detach(parent, d.edgesOut), time, d.edgesIn)
  }

  /** Every diff is valid against the forest the previous ones produce. */
  ghost predicate DiffsValid(parent: seq<int>, time: seq<int>, diffs: seq<TreeDiff>)
    decreases |diffs|
  {
    |diffs| == 0 || (DiffValid(parent, time, diffs[0]) && DiffsValid(Apply(parent, diffs[0]), time, diffs[1..]))
  }

  /** The parent array of every tree, starting from `parent`. */
  function Trees(parent: seq<int>, diffs: seq<TreeDiff>): (r: seq<seq<int>>)
    ensures |r| == |diffs|
    decreases |diffs|
  {
    if |diffs| == 0 then []
    else [Apply(parent, diffs[0])] + Trees(Apply(parent, diffs[0]), diffs[1..])
  }

  lemma {:induction false} DetachValid(parent: seq<int>, time: seq<int>, edges: seq<Edge>)
    requires ValidForest(parent, time) && RemovalsValid(parent, edges)
    ensures ValidForest(Detach(parent, edges), time)
    decreases |edges|
  {
    if |edges| > 0 {
      DetachValid(parent[edges[0].child := NULL], time, edges[1..]);
    }
  }

  lemma {:induction false} AttachValid(parent: seq<int>, time: seq<int>, edges: seq<Edge>)
    requires ValidForest(parent, time) && InsertionsValid(parent, time, edges)
    ensures ValidForest(Attach(parent, edges), time)
    decreases |edges|
  {
    if |edges| > 0 {
      AttachValid(parent[edges[0].child := edges[0].parent], time, edges[1..]);
    }
  }

  /** Valid diffs lead from a forest to forests. */
  lemma {:induction false} TreesValid(parent: seq<int>, time: seq<int>, diffs: seq<TreeDiff>)
    requires ValidForest(parent, time) && DiffsValid(parent, time, diffs)
    ensures forall t :: 0 <= t < |diffs| ==> ValidForest(Trees(parent, diffs)[t], time)
    decreases |diffs|
  {
    if |diffs| > 0 {
      var next := Apply(parent, diffs[0]);
      DetachValid(parent, time, diffs[0].edgesOut);
      AttachValid(Detach(parent, diffs[0].edgesOut), time, diffs[0].edgesIn);
      TreesValid(next, time, diffs[1..]);
      forall t | 0 <= t < |diffs|
        ensures ValidForest(Trees(parent, diffs)[t], time)
      {
        if t > 0 {
          assert Trees(parent, diffs)[t] == Trees(next, diffs[1..])[t - 1];
        }
      }
    }
  }

  /** Stepping through the diffs one at a time: the next tree is the head
      of Trees, and validity and Trees carry over to the remaining diffs. */
  lemma NextDiff(parent: seq<int>, time: seq<int>, diffs: seq<TreeDiff>, t: nat,
                 all: seq<seq<int>>)
    requires t < |diffs| && t <= |all|
    requires DiffsValid(parent, time, diffs[t..])
    requires Trees(parent, diffs[t..]) == all[t..]
    ensures DiffValid(parent, time, diffs[t])
    ensures DiffsValid(Apply(parent, diffs[t]), time, diffs[t + 1..])
    ensures Apply(parent, diffs[t]) == all[t]
    ensures Trees(Apply(parent, diffs[t]), diffs[t + 1..]) == all[t + 1..]
  {
    assert diffs[t..][0] == diffs[t] && diffs[t..][1..] == diffs[t + 1..];
    assert all[t..][1..] == all[t + 1..];
  }

  /** The trees' intervals tile [left of the first, right of the last). */
  predicate Contiguous(diffs: seq<TreeDiff>)
  {
    && |diffs| > 0
    && (forall t :: 0 <= t < |diffs| ==> diffs[t].left < diffs[t].right)
    && (forall t :: 0 <= t < |diffs| - 1 ==> diffs[t].right == diffs[t + 1].left)
  }

  /** The tree breakpoints: the first tree's left end, then every right end. */
  function Breakpoints(diffs: seq<TreeDiff>): (b: seq<real>)
    requires |diffs| > 0
    ensures |b| == |diffs| + 1
  {
    [diffs[0].left] + seq(|diffs|, t requires 0 <= t < |diffs| => diffs[t].right)
  }

  /** Tree t spans [b[t], b[t+1]). */
  lemma BreakpointsOfTrees(diffs: seq<TreeDiff>)
    requires Contiguous(diffs)
    ensures forall t :: 0 <= t < |diffs| ==>
              Breakpoints(diffs)[t] == diffs[t].left && Breakpoints(diffs)[t + 1] == diffs[t].right
  {
    var b := Breakpoints(diffs);
    forall t | 0 <= t < |diffs|
      ensures b[t] == diffs[t].left && b[t + 1] == diffs[t].right
    {
      if t > 0 {
        assert b[t] == diffs[t - 1].right;
      }
    }
  }

  /** Contiguous intervals give strictly increasing breakpoints. */
  lemma {:induction false} BreakpointsIncrease(diffs: seq<TreeDiff>, i: int, j: int)
    requires Contiguous(diffs)
    requires 0 <= i < j < |diffs| + 1
    ensures Breakpoints(diffs)[i] < Breakpoints(diffs)[j]
    decreases j - i
  {
    BreakpointsOfTrees(diffs);
    if j > i + 1 {
      BreakpointsIncrease(diffs, i + 1, j);
    }
  }

  /** The edges_out loop of site_general_stat: remove each edge in turn,
      subtracting the child's state along the path to the root. States that
      were subtree sums stay subtree sums of the new forest. */
  method RemoveEdges(parent: seq<int>, time: seq<int>, ghost w: seq<int>, state: seq<int>,
                     edges: seq<Edge>) returns (parent': seq<int>, state': seq<int>)
    requires Matches(parent, time, w, state) && RemovalsValid(parent, edges)
    ensures parent' == Detach(parent, edges)
    ensures Matches(parent', time, w, state')
  {
    parent', state' := parent, state;
    var i := 0;
    while i < |edges|
      invariant 0 <= i <= |edges|
      invariant Matches(parent', time, w, state') && RemovalsValid(parent', edges[i..])
      invariant Detach(parent', edges[i..]) == Detach(parent, edges)
    {
      var e := edges[i];
      assert edges[i..][0] == e && edges[i..][1..] == edges[i + 1..];
      ghost var before := state';
      ghost var p := parent';
      parent', state' := RemoveEdge(parent', time, state', e);
      RemoveEdgeKeepsSums(p, time, w, before, e.child, state');
      i := i + 1;
    }
  }

  /** The edges_in loop of site_general_stat: insert each edge in turn,
      adding the child's state along the path to the root. */
  method InsertEdges(parent: seq<int>, time: seq<int>, ghost w: seq<int>, state: seq<int>,
                     edges: seq<Edge>) returns (parent': seq<int>, state': seq<int>)
    requires Matches(parent, time, w, state) && InsertionsValid(parent, time, edges)
    ensures parent' == Attach(parent, edges)
    ensures Matches(parent', time, w, state')
  {
    parent', state' := parent, state;
    var i := 0;
    while i < |edges|
      invariant 0 <= i <= |edges|
      invariant Matches(parent', time, w, state') && InsertionsValid(parent', time, edges[i..])
      invariant Attach(parent', edges[i..]) == Attach(parent, edges)
    {
      var e := edges[i];
      assert edges[i..][0] == e && edges[i..][1..] == edges[i + 1..];
      ghost var before := state';
      ghost var p := parent';
      parent', state' := InsertEdge(parent', time, state', e);
      InsertEdgeKeepsSums(p, time, w, before, e.child, e.parent, state');
      i := i + 1;
    }
  }

  /** Moving to the next tree: edges_out, then edges_in. */
  method ApplyDiff(parent: seq<int>, time: seq<int>, ghost w: seq<int>, state: seq<int>, d: TreeDiff)
      returns (parent': seq<int>, state': seq<int>)
    requires Matches(parent, time, w, state) && DiffValid(parent, time, d)
    ensures parent' == Apply(parent, d)
    ensures Matches(parent', time, w, state')
  {
    parent', state' := RemoveEdges(parent, time, w, state, d.edgesOut);
    parent', state' := InsertEdges(parent', time, w, state', d.edgesIn);
  }

  /** The edge loops stand between trees t - 1 and t: state holds the
      subtree sums of the forest that the first t diffs lead to. */
  ghost predicate AtTree(time: seq<int>, w: seq<int>, diffs: seq<TreeDiff>, t: nat,
                         parent: seq<int>, state: seq<int>)
  {
    && t <= |diffs| && Matches(parent, time, w, state)
    && DiffsValid(parent, time, diffs[t..])
    && Trees(parent, diffs[t..]) == Trees(NoEdges(|time|), diffs)[t..]
  }

  /** Contiguous trees have strictly increasing breakpoints. */
  lemma BreakpointsIncreasing(diffs: seq<TreeDiff>)
    requires Contiguous(diffs)
    ensures Increasing(Breakpoints(diffs))
  {
    var b := Breakpoints(diffs);
    forall i, j | 0 <= i < j < |b|
      ensures b[i] < b[j]
    {
      BreakpointsIncrease(diffs, i, j);
    }
  }
}

=== FILE: windows.dfy ===
/** Windowing of per-tree quantities along the genome.

    A tree sequence's trees cover the intervals [b[t], b[t+1]) between
    consecutive breakpoints b; statistics are reported over windows
    [w[j], w[j+1]). Both breakpoints and windows are strictly increasing
    and share their first and last value (0 and the sequence length), as
    tskit's breakpoints and parsed windows do. Positions are exact reals. */
module Windows {
  import opened Sums

  predicate Increasing(s: seq<real>)
  {
    forall i, j :: 0 <= i < j < |s| ==> s[i] < s[j]
  }

  /** At least one window, strictly increasing. */
  predicate ValidWindows(windows: seq<real>)
  {
    |windows| >= 2 && Increasing(windows)
  }

  /** Windows and breakpoints that span the same interval. */
  predicate Spans(windows: seq<real>, b: seq<real>)
  {
    && ValidWindows(windows) && ValidWindows(b)
    && windows[0] == b[0] && windows[|windows| - 1] == b[|b| - 1]
  }

  function Max(x: real, y: real): real { if x >= y then x else y }

  function Min(x: real, y: real): real { if x <= y then x else y }

  /** Length of the intersection of [tl, tr) and [wl, wr). */
  function Overlap(tl: real, tr: real, wl: real, wr: real): real
  {
    Max(0.0, Min(tr, wr) - Max(tl, wl))
  }

  /** The overlap is never negative nor longer than either interval; it is
      the whole window when the window lies inside the tree, and nothing
      when the two are disjoint. */
  lemma OverlapBounds(tl: real, tr: real, wl: real, wr: real)
    ensures Overlap(tl, tr, wl, wr) >= 0.0
    ensures tl <= tr ==> Overlap(tl, tr, wl, wr) <= tr - tl
    ensures wl <= wr ==> Overlap(tl, tr, wl, wr) <= wr - wl
    ensures tl <= wl && wr <= tr && wl <= wr ==> Overlap(tl, tr, wl, wr) == wr - wl
    ensures tr <= wl || wr <= tl ==> Overlap(tl, tr, wl, wr) == 0.0
  {
  }

  lemma OverlapDisjoint(tl: real, tr: real, wl: real, wr: real)
    requires tr <= wl || wr <= tl
    ensures Overlap(tl, tr, wl, wr) == 0.0
  {
  }

  /** Cutting an interval in two splits its overlap with a window. */
  lemma OverlapSplit(tl: real, tm: real, tr: real, wl: real, wr: real)
    requires tl <= tm <= tr && wl <= wr
    ensures Overlap(tl, tm, wl, wr) + Overlap(tm, tr, wl, wr) == Overlap(tl, tr, wl, wr)
  {
  }

  /** Tree t's overlap with window [wl, wr). */
  function LengthTerms(b: seq<real>, wl: real, wr: real): nat -> real
  {
    (t: nat) => if t + 1 < |b| then Overlap(b[t], b[t + 1], wl, wr) else 0.0
  }

  /** Tree t's contribution to window [wl, wr): its value times the length
      of the window that the tree covers. */
  function WindowTerms(b: seq<real>, v: seq<real>, wl: real, wr: real): nat -> real
  {
    Weighted(v, LengthTerms(b, wl, wr))
  }

  /** The integral over [wl, wr) of the piecewise-constant function that is
      v[t] on tree t's interval: the unnormalised windowed statistic. */
  function Windowed(b: seq<real>, v: seq<real>, wl: real, wr: real): real
    requires |b| > 0
  {
    SumR(|b| - 1, WindowTerms(b, v, wl, wr))
  }

  /** The overlaps of the first k trees with a window add up to the
      overlap of [b[0], b[k]) with it. */
  lemma {:induction false} OverlapsTelescope(b: seq<real>, k: nat, wl: real, wr: real)
    requires Increasing(b) && 0 < k < |b| && wl <= wr
    ensures SumR(k, LengthTerms(b, wl, wr)) == Overlap(b[0], b[k], wl, wr)
  {
    if k > 1 {
      OverlapsTelescope(b, k - 1, wl, wr);
      OverlapSplit(b[0], b[k - 1], b[k], wl, wr);
    }
  }

  /** The trees' overlaps with a window inside [b[0], b[last]] add up to the
      window's length: every point of the window lies in exactly one tree. */
  lemma Coverage(b: seq<real>, wl: real, wr: real)
    requires ValidWindows(b) && b[0] <= wl <= wr <= b[|b| - 1]
    ensures SumR(|b| - 1, LengthTerms(b, wl, wr)) == wr - wl
  {
    OverlapsTelescope(b, |b| - 1, wl, wr);
  }

  /** A statistic that is the same constant c on every tree of a window the
      trees cover integrates to c times the window length. */
  lemma ConstantCovered(b: seq<real>, v: seq<real>, c: real, wl: real, wr: real)
    requires |b| > 0 && |v| == |b| - 1
    requires forall t :: 0 <= t < |v| ==> v[t] == c
    requires SumR(|b| - 1, LengthTerms(b, wl, wr)) == wr - wl
    ensures PerLength(c, wl, wr, Windowed(b, v, wl, wr))
  {
    WeightedConstant(|b| - 1, v, c, LengthTerms(b, wl, wr), wl, wr);
  }

  /** A statistic that is the same constant c on every tree integrates to c
      times the window length (so its span-normalised value is c). */
  lemma ConstantValue(b: seq<real>, v: seq<real>, c: real, wl: real, wr: real)
    requires ValidWindows(b) && |v| == |b| - 1
    requires forall t :: 0 <= t < |v| ==> v[t] == c
    requires b[0] <= wl < wr <= b[|b| - 1]
    ensures PerLength(c, wl, wr, Windowed(b, v, wl, wr))
  {
    Coverage(b, wl, wr);
    ConstantCovered(b, v, c, wl, wr);
  }

  /** Every entry of v is c, stated one entry at a time so that the
      constant does not flood a proof that also integrates v. */
  predicate AllEqual(v: seq<real>, c: real)
    decreases |v|
  {
    |v| == 0 || (v[0] == c && AllEqual(v[1..], c))
  }

  lemma {:induction false} AllEqualOf(v: seq<real>, c: real)
    requires forall t :: 0 <= t < |v| ==> v[t] == c
    ensures AllEqual(v, c)
    decreases |v|
  {
    if |v| > 0 {
      AllEqualOf(v[1..], c);
    }
  }

  lemma {:induction false} AllEqualAt(v: seq<real>, c: real, t: nat)
    requires AllEqual(v, c) && t < |v|
    ensures v[t] == c
    decreases t
  {
    if t > 0 {
      AllEqualAt(v[1..], c, t - 1);
    }
  }

  /** ConstantValue for a value given by AllEqual. */
  lemma ConstantWindowed(b: seq<real>, v: seq<real>, c: real, wl: real, wr: real)
    requires ValidWindows(b) && |v| == |b| - 1 && AllEqual(v, c)
    requires b[0] <= wl < wr <= b[|b| - 1]
    ensures PerLength(c, wl, wr, Windowed(b, v, wl, wr))
  {
    forall t | 0 <= t < |v|
      ensures v[t] == c
    {
      AllEqualAt(v, c, t);
    }
    ConstantValue(b, v, c, wl, wr);
  }

  /** Divide each window's total by the window's length. */
  method SpanNormalise(a: seq<real>, windows: seq<real>) returns (r: seq<real>)
    requires ValidWindows(windows) && |a| == |windows| - 1
    ensures |r| == |a|
    ensures forall j :: 0 <= j < |a| ==> PerLength(r[j], windows[j], windows[j + 1], a[j])
  {
    r := seq(|a|, j requires 0 <= j < |a| => a[j] / (windows[j + 1] - windows[j]));
    forall j | 0 <= j < |a|
      ensures PerLength(r[j], windows[j], windows[j + 1], a[j])
    {
      assert windows[j] < windows[j + 1];
      QuotientTimes(a[j], windows[j + 1] - windows[j]);
    }
  }

  /** A tree [tl, tr) does not meet any window that starts at or after tr. */
  lemma NoOverlapAfter(windows: seq<real>, tl: real, tr: real, k: nat)
    requires Increasing(windows) && k < |windows| && tr <= windows[k]
    ensures forall j :: k <= j < |windows| - 1 ==>
              Overlap(tl, tr, windows[j], windows[j + 1]) == 0.0
  {
    forall j | k <= j < |windows| - 1
      ensures Overlap(tl, tr, windows[j], windows[j + 1]) == 0.0
    {
      assert windows[k] <= windows[j];
    }
  }

  /** The first k windows hold tree [tl, tr)'s share (value times the
      overlap) on top of their value in `result`; the others are unchanged. */
  predicate Swept(windows: seq<real>, tl: real, tr: real, value: real,
                  result: seq<real>, result': seq<real>, k: nat)
    requires |result| == |result'| == |windows| - 1
  {
    && (forall j {:trigger result'[j]} :: 0 <= j < k && j < |result| ==>
          result'[j] == result[j] + value * Overlap(tl, tr, windows[j], windows[j + 1]))
    && (forall j :: k <= j < |result| ==> result'[j] == result[j])
  }

  /** Windows that end at or before tl take no share of tree [tl, tr). */
  lemma SweepStart(windows: seq<real>, tl: real, tr: real, value: real, result: seq<real>, k: nat)
    requires Increasing(windows) && |result| == |windows| - 1
    requires k < |windows| && windows[k] <= tl
    ensures Swept(windows, tl, tr, value, result, result, k)
  {
    forall j | 0 <= j < k
      ensures Overlap(tl, tr, windows[j], windows[j + 1]) == 0.0
    {
      assert windows[j + 1] <= windows[k];
    }
  }

  /** Adding window k's share extends the swept prefix by one window. */
  lemma SweepStep(windows: seq<real>, tl: real, tr: real, value: real,
                  result: seq<real>, result': seq<real>, k: nat, weight: real)
    requires |result| == |result'| == |windows| - 1 && k < |result|
    requires Swept(windows, tl, tr, value, result, result', k)
    requires weight == Overlap(tl, tr, windows[k], windows[k + 1])
    ensures Swept(windows, tl, tr, value, result, result'[k := result'[k] + value * weight], k + 1)
  {
  }

  /** Once the windows from k on all start at or after tr, every window has
      its share of tree [tl, tr). */
  lemma SweepDone(windows: seq<real>, tl: real, tr: real, value: real,
                  result: seq<real>, result': seq<real>, k: nat)
    requires Increasing(windows) && k < |windows| && tr <= windows[k]
    requires |result| == |result'| == |windows| - 1
    requires Swept(windows, tl, tr, value, result, result', k)
    ensures Swept(windows, tl, tr, value, result, result', |result|)
  {
    NoOverlapAfter(windows, tl, tr, k);
    forall j | k <= j < |result|
      ensures result'[j] == result[j] + value * Overlap(tl, tr, windows[j], windows[j + 1])
    {
      assert Overlap(tl, tr, windows[j], windows[j + 1]) == 0.0;
    }
  }

  /** The "update the windows" loop of branch_general_stat for one tree
      [tl, tr) whose running sum is `value`: add value times the overlap to
      every window the tree meets, advancing the window index past every
      window that ends inside the tree. Each weight added is positive. */
  method SweepTree(windows: seq<real>, tl: real, tr: real, value: real,
                   result: seq<real>, wi: nat)
      returns (result': seq<real>, wi': nat)
    requires ValidWindows(windows) && |result| == |windows| - 1
    requires tl < tr <= windows[|windows| - 1]
    requires wi < |windows| - 1 && windows[wi] <= tl < windows[wi + 1]
    ensures |result'| == |result|
    ensures Swept(windows, tl, tr, value, result, result', |result|)
    ensures || (wi' < |windows| - 1 && windows[wi'] <= tr < windows[wi' + 1])
            || (wi' == |windows| - 1 && windows[wi'] == tr)
  {
    SweepStart(windows, tl, tr, value, result, wi);
    result' := result;
    wi' := wi;
    ghost var swept := wi;
    while windows[wi'] < tr
      invariant wi <= wi' < |windows| && swept == wi'
      invariant wi' > wi ==> windows[wi'] <= tr
      invariant |result'| == |result|
      invariant Swept(windows, tl, tr, value, result, result', swept)
      decreases |windows| - wi'
    {
      var wLeft := windows[wi'];
      var wRight := windows[wi' + 1];
      var left := Max(tl, wLeft);
      var right := Min(tr, wRight);
      var weight := right - left;
      assert windows[wi] <= wLeft;
      assert weight > 0.0;
      SweepStep(windows, tl, tr, value, result, result', wi', weight);
      result' := result'[wi' := result'[wi'] + value * weight];
      swept := wi' + 1;
      if wRight <= tr {
        wi' := wi' + 1;
      } else {
        break;
      }
    }
    if wi' < |windows| - 1 {
      assert windows[wi'] < windows[wi' + 1];
    }
    SweepDone(windows, tl, tr, value, result, result', swept);
  }

  /** Every window j holds the sum of its first t terms F(j). */
  predicate Accumulated(F: nat -> (nat -> real), result: seq<real>, t: nat)
  {
    forall j :: 0 <= j < |result| ==> result[j] == SumR(t, F(j))
  }

  /** Window j's terms, for every window j. */
  function WindowColumns(b: seq<real>, values: seq<real>, windows: seq<real>): nat -> (nat -> real)
  {
    (j: nat) =>
      if j + 1 < |windows| then WindowTerms(b, values, windows[j], windows[j + 1])
      else (t: nat) => 0.0
  }

  /** Sweeping tree t adds its term to every window's sum. */
  lemma AccumulateTree(windows: seq<real>, b: seq<real>, values: seq<real>,
                       F: nat -> (nat -> real), t: nat, before: seq<real>, after: seq<real>)
    requires t + 1 < |b| && t < |values|
    requires |before| == |after| == |windows| - 1
    requires FamilyOf(F, b, values, windows)
    requires Accumulated(F, before, t)
    requires Swept(windows, b[t], b[t + 1], values[t], before, after, |before|)
    ensures Accumulated(F, after, t + 1)
  {
    forall j | 0 <= j < |before|
      ensures after[j] == before[j] + F(j)(t)
    {
      assert F(j)(t) == WindowTerms(b, values, windows[j], windows[j + 1])(t);
    }
    SumRExtendAll(|before|, t, before, after, F);
  }

  /** Where the window index stands after tree t: in the window holding the
      next tree's left end, or past the last window after the last tree. */
  lemma NextTree(windows: seq<real>, b: seq<real>, t: nat, wi: nat)
    requires Spans(windows, b) && t + 1 < |b|
    requires || (wi < |windows| - 1 && windows[wi] <= b[t + 1] < windows[wi + 1])
             || (wi == |windows| - 1 && windows[wi] == b[t + 1])
    ensures t + 1 < |b| - 1 ==> wi < |windows| - 1 && windows[wi] <= b[t + 1] < windows[wi + 1]
    ensures t + 1 == |b| - 1 ==> wi == |windows| - 1
  {
    if t + 1 < |b| - 1 {
      assert b[t + 1] < b[|b| - 1];
    } else {
      assert b[t + 1] == windows[|windows| - 1];
    }
  }

  /** The window update of branch_general_stat over a whole sequence of
      trees with the given running sums: each window receives the integral
      of the running sum over it, every weight added is positive, and the
      window index ends at the number of windows. */
  method WindowSweep(windows: seq<real>, b: seq<real>, values: seq<real>)
      returns (result: seq<real>, wi: nat)
    requires Spans(windows, b) && |values| == |b| - 1
    ensures WindowTotals(result, b, values, windows, false) && wi == |windows| - 1
  {
    ColumnsFamily(b, values, windows);
    result, wi := SweepTrees(windows, b, values, WindowColumns(b, values, windows));
    FamilyTotals(result, WindowColumns(b, values, windows), b, values, windows);
  }

  /** The loop of WindowSweep, with window j's terms given by F(j). */
  method SweepTrees(windows: seq<real>, b: seq<real>, values: seq<real>, ghost F: nat -> (nat -> real))
      returns (result: seq<real>, wi: nat)
    requires Spans(windows, b) && |values| == |b| - 1
    requires FamilyOf(F, b, values, windows)
    ensures |result| == |windows| - 1 && wi == |windows| - 1
    ensures forall j :: 0 <= j < |result| ==> result[j] == SumR(|b| - 1, F(j))
  {
    var m := |b| - 1;
    result := seq(|windows| - 1, _ => 0.0);
    wi := 0;
    var t := 0;
    while t < m
      invariant 0 <= t <= m && |result| == |windows| - 1
      invariant t < m ==> wi < |windows| - 1 && windows[wi] <= b[t] < windows[wi + 1]
      invariant t == m ==> wi == |windows| - 1
      invariant Accumulated(F, result, t)
    {
      ghost var before := result;
      result, wi := SweepTree(windows, b[t], b[t + 1], values[t], result, wi);
      AccumulateTree(windows, b, values, F, t, before, result);
      NextTree(windows, b, t, wi);
      t := t + 1;
    }
  }

  /** d holds each tree's total per unit length: d[t] times tree t's span
      is stat[t]. */
  predicate IsDensity(b: seq<real>, stat: seq<real>, d: seq<real>)
    requires |stat| == |b| - 1
  {
    |d| == |stat| && forall t {:trigger d[t]} :: 0 <= t < |d| ==> PerLength(d[t], b[t], b[t + 1], stat[t])
  }

  /** Each tree's total divided by its span: the per-unit-length value
      that windowed_tree_stat spreads over the windows. */
  function Densities(b: seq<real>, stat: seq<real>): (d: seq<real>)
    requires Increasing(b) && |stat| == |b| - 1
    ensures IsDensity(b, stat, d)
  {
    QuotientsAreDensities(b, stat);
    Quotients(b, stat)
  }

  function Quotients(b: seq<real>, stat: seq<real>): seq<real>
    requires Increasing(b) && |stat| == |b| - 1
  {
    seq(|stat|, t requires 0 <= t < |stat| => stat[t] / (b[t + 1] - b[t]))
  }

  lemma QuotientsAreDensities(b: seq<real>, stat: seq<real>)
    requires Increasing(b) && |stat| == |b| - 1
    ensures IsDensity(b, stat, Quotients(b, stat))
  {
    forall t | 0 <= t < |stat|
      ensures PerLength(Quotients(b, stat)[t], b[t], b[t + 1], stat[t])
    {
      assert b[t] < b[t + 1];
      QuotientTimes(stat[t], b[t + 1] - b[t]);
    }
  }

  lemma DensityAt(b: seq<real>, stat: seq<real>, d: seq<real>, t: nat)
    requires |stat| == |b| - 1 && IsDensity(b, stat, d) && t < |d|
    ensures PerLength(d[t], b[t], b[t + 1], stat[t])
  {
  }

  lemma QuotientTimes(x: real, y: real)
    requires y > 0.0
    ensures x / y * y == x
  {
  }

  /** Tree spans are positive, so the densities are the only sequence with
      the density property. */
  lemma DensityUnique(b: seq<real>, stat: seq<real>, d: seq<real>, e: seq<real>)
    requires Increasing(b) && |stat| == |b| - 1
    requires IsDensity(b, stat, d) && IsDensity(b, stat, e)
    ensures d == e
  {
    forall t | 0 <= t < |d|
      ensures d[t] == e[t]
    {
      assert b[t] < b[t + 1];
      DensityAt(b, stat, d, t);
      DensityAt(b, stat, e, t);
      CancelPositive(d[t], e[t], b[t], b[t + 1], stat[t]);
    }
  }

  /** x is the value per unit length of the amount s spread over [l, r):
      x times the length is s. Window values are related to their totals
      through this predicate rather than through the bare product, so that
      a fact proved about one window is matched as a whole wherever that
      window occurs. */
  predicate PerLength(x: real, l: real, r: real, s: real)
  {
    x * (r - l) == s
  }

  /** The value per unit length of an amount over a non-empty interval is
      unique. */
  lemma CancelPositive(x: real, y: real, l: real, r: real, s: real)
    requires l < r && PerLength(x, l, r, s) && PerLength(y, l, r, s)
    ensures x == y
  {
    assert (x - y) * (r - l) == 0.0;
  }

  /** Each tree's value times its span. */
  function SpanTimes(v: seq<real>, b: seq<real>): (r: seq<real>)
    requires |b| == |v| + 1
    ensures |r| == |v|
  {
    seq(|v|, t requires 0 <= t < |v| => v[t] * (b[t + 1] - b[t]))
  }

  /** Totals that are values times the trees' spans have those values as
      their densities. */
  lemma DensitiesOfSpans(b: seq<real>, v: seq<real>, stat: seq<real>)
    requires Increasing(b) && |b| == |v| + 1 && stat == SpanTimes(v, b)
    ensures Densities(b, stat) == v
  {
    DensityUnique(b, stat, Densities(b, stat), v);
  }

  /** Spreading a tree's total s in proportion to the fraction w of the tree
      that a window covers is adding the tree's density dt times the overlap
      o, where dt and w are s and o per unit length of the tree [l, r). */
  lemma ShareOfTotal(s: real, dt: real, w: real, o: real, l: real, r: real)
    requires PerLength(dt, l, r, s) && PerLength(w, l, r, o)
    ensures s * w == dt * o
  {
    calc {
      s * w;
      (dt * (r - l)) * w;
      dt * (w * (r - l));
      dt * o;
    }
  }

  /** The weight of one step of windowed_tree_stat: the part of tree
      [tLeft, tRight) that window [wl, wr) covers, as a fraction of the
      tree. The tree and the window overlap, so the covered part is never
      empty. */
  method StepWeight(tLeft: real, tRight: real, wl: real, wr: real) returns (weight: real)
    requires tLeft < tRight && tLeft < wr && wl < tRight && wl < wr
    ensures PerLength(weight, tLeft, tRight, Overlap(tLeft, tRight, wl, wr))
  {
    var left := Max(tLeft, wl);
    var right := Min(tRight, wr);
    assert left != right;
    weight := Max(0.0, (right - left) / (tRight - tLeft));
    QuotientTimes(right - left, tRight - tLeft);
  }

  /** Trees that end at or before the window's left end contribute nothing. */
  lemma SpreadStart(b: seq<real>, v: seq<real>, wl: real, wr: real, ti: nat)
    requires Increasing(b) && ti < |b| && b[ti] <= wl
    ensures SumR(ti, WindowTerms(b, v, wl, wr)) == 0.0
  {
    LengthsVanishBefore(b, wl, wr, ti);
    WeightedZero(ti, v, LengthTerms(b, wl, wr));
  }

  /** A tree that does not meet the window has no length in it. */
  lemma LengthVanishes(b: seq<real>, wl: real, wr: real, t: nat)
    requires t + 1 < |b| && (b[t + 1] <= wl || wr <= b[t])
    ensures LengthTerms(b, wl, wr)(t) == 0.0
  {
    OverlapDisjoint(b[t], b[t + 1], wl, wr);
  }

  /** Trees that end at or before the window's left end do not meet it. */
  lemma LengthsVanishBefore(b: seq<real>, wl: real, wr: real, k: nat)
    requires Increasing(b) && k < |b| && b[k] <= wl
    ensures forall t: nat :: t < k ==> LengthTerms(b, wl, wr)(t) == 0.0
  {
    forall t: nat | t < k
      ensures LengthTerms(b, wl, wr)(t) == 0.0
    {
      assert b[t + 1] <= b[k];
      LengthVanishes(b, wl, wr, t);
    }
  }

  /** Trees that start at or after the window's right end do not meet it. */
  lemma LengthsVanishFrom(b: seq<real>, wl: real, wr: real, k: nat)
    requires Increasing(b) && k <= |b| - 1
    requires k == |b| - 1 || wr <= b[k]
    ensures forall t: nat :: k <= t < |b| - 1 ==> LengthTerms(b, wl, wr)(t) == 0.0
  {
    forall t: nat | k <= t < |b| - 1
      ensures LengthTerms(b, wl, wr)(t) == 0.0
    {
      assert b[k] <= b[t];
      LengthVanishes(b, wl, wr, t);
    }
  }

  /** Tree t's share of window [wl, wr), computed as the source does (its
      total times the fraction of it that the window covers), is its term. */
  lemma SpreadStep(b: seq<real>, stat: seq<real>, d: seq<real>, wl: real, wr: real,
                   t: nat, weight: real)
    requires |stat| == |d| == |b| - 1 && t < |stat|
    requires PerLength(d[t], b[t], b[t + 1], stat[t])
    requires PerLength(weight, b[t], b[t + 1], Overlap(b[t], b[t + 1], wl, wr))
    ensures stat[t] * weight == WindowTerms(b, d, wl, wr)(t)
  {
    ShareOfTotal(stat[t], d[t], weight, Overlap(b[t], b[t + 1], wl, wr), b[t], b[t + 1]);
  }

  /** r gives the terms of window [wl, wr) for densities d. The loops below
      carry r instead of the terms: the trigger lets a term's definition
      (a product with an overlap) come into play only where a step names it. */
  ghost predicate TermsOf(r: nat -> real, b: seq<real>, d: seq<real>, wl: real, wr: real)
  {
    forall t: nat {:trigger WindowTerms(b, d, wl, wr)(t)} :: r(t) == WindowTerms(b, d, wl, wr)(t)
  }

  lemma TermsStart(r: nat -> real, b: seq<real>, d: seq<real>, wl: real, wr: real, ti: nat)
    requires Increasing(b) && ti < |b| && b[ti] <= wl
    requires TermsOf(r, b, d, wl, wr)
    ensures SumR(ti, r) == 0.0
  {
    SpreadStart(b, d, wl, wr, ti);
    SumRExt(ti, r, WindowTerms(b, d, wl, wr));
  }

  lemma TermsEnd(r: nat -> real, b: seq<real>, d: seq<real>, wl: real, wr: real, k: nat)
    requires Increasing(b) && 0 < |b| && k <= |b| - 1
    requires k == |b| - 1 || wr <= b[k]
    requires TermsOf(r, b, d, wl, wr)
    ensures SumR(k, r) == SumR(|b| - 1, r)
  {
    LengthsVanishFrom(b, wl, wr, k);
    forall t: nat | k <= t < |b| - 1
      ensures r(t) == 0.0
    {
      assert WindowTerms(b, d, wl, wr)(t) == 0.0;
    }
    SumRTailZero(|b| - 1, k, r);
  }

  /** The terms r of window [wl, wr) add up to the window's integral. */
  lemma TermsSum(r: nat -> real, b: seq<real>, d: seq<real>, wl: real, wr: real)
    requires 0 < |b| && TermsOf(r, b, d, wl, wr)
    ensures SumR(|b| - 1, r) == Windowed(b, d, wl, wr)
  {
    SumRExt(|b| - 1, r, WindowTerms(b, d, wl, wr));
  }

  /** F(j) gives the terms of window j, for every window. */
  ghost predicate FamilyOf(F: nat -> (nat -> real), b: seq<real>, d: seq<real>, windows: seq<real>)
  {
    forall j :: 0 <= j < |windows| - 1 ==> TermsOf(F(j), b, d, windows[j], windows[j + 1])
  }

  lemma ColumnsFamily(b: seq<real>, d: seq<real>, windows: seq<real>)
    ensures FamilyOf(WindowColumns(b, d, windows), b, d, windows)
  {
    forall j | 0 <= j < |windows| - 1
      ensures TermsOf(WindowColumns(b, d, windows)(j), b, d, windows[j], windows[j + 1])
    {
      ColumnTerms(b, d, windows, j);
    }
  }

  lemma ColumnTerms(b: seq<real>, d: seq<real>, windows: seq<real>, j: nat)
    requires j + 1 < |windows|
    ensures TermsOf(WindowColumns(b, d, windows)(j), b, d, windows[j], windows[j + 1])
  {
    assert WindowColumns(b, d, windows)(j) == WindowTerms(b, d, windows[j], windows[j + 1]);
  }

  /** Sums of each window's terms are the window totals. */
  lemma FamilyTotals(a: seq<real>, F: nat -> (nat -> real), b: seq<real>, d: seq<real>,
                     windows: seq<real>)
    requires 0 < |b| && 0 < |windows| && FamilyOf(F, b, d, windows)
    requires |a| == |windows| - 1
    requires forall j :: 0 <= j < |a| ==> a[j] == SumR(|b| - 1, F(j))
    ensures WindowTotals(a, b, d, windows, false)
  {
    forall j | 0 <= j < |a|
      ensures a[j] == Windowed(b, d, windows[j], windows[j + 1])
    {
      TermsSum(F(j), b, d, windows[j], windows[j + 1]);
    }
  }

  /** One step of windowed_tree_stat's inner loop: add to the window's
      total the share of tree t's total that falls inside the window. */
  method SpreadTree(b: seq<real>, stat: seq<real>, ghost d: seq<real>, ghost r: nat -> real,
                    wl: real, wr: real, t: nat, total: real) returns (total': real)
    requires ValidWindows(b) && |stat| == |b| - 1 && IsDensity(b, stat, d)
    requires TermsOf(r, b, d, wl, wr)
    requires t < |b| - 1 && b[t] < wr && wl < b[t + 1] && wl < wr
    requires total == SumR(t, r)
    ensures total' == SumR(t + 1, r)
  {
    var tLeft := b[t];
    var tRight := b[t + 1];
    assert tLeft < tRight;
    var weight := StepWeight(tLeft, tRight, wl, wr);
    DensityAt(b, stat, d, t);
    SpreadStep(b, stat, d, wl, wr, t, weight);
    total' := total + stat[t] * weight;
  }

  /** The inner loop of windowed_tree_stat for window [wl, wr), entered at
      the tree ti that contains wl: add each tree's share until the tree
      that reaches past the window (or ends exactly at its right end). The
      window receives the integral over it of the trees' densities d. */
  method SpreadWindow(b: seq<real>, stat: seq<real>, ghost d: seq<real>, ghost r: nat -> real,
                      wl: real, wr: real, ti: nat) returns (total: real, ti': nat)
    requires ValidWindows(b) && |stat| == |b| - 1 && IsDensity(b, stat, d)
    requires TermsOf(r, b, d, wl, wr)
    requires ti < |b| - 1 && b[ti] <= wl < b[ti + 1]
    requires wl < wr <= b[|b| - 1]
    ensures total == SumR(|b| - 1, r)
    ensures || (ti' < |b| - 1 && b[ti'] <= wr < b[ti' + 1])
            || (ti' == |b| - 1 && wr == b[|b| - 1])
  {
    var m := |b| - 1;
    TermsStart(r, b, d, wl, wr, ti);
    total := 0.0;
    ti' := ti;
    ghost var k: nat := ti;
    var done := false;
    while !done
      invariant ti <= ti' < m || (done && ti' == m)
      invariant !done ==> k == ti' && b[ti'] < wr && wl < b[ti' + 1]
      invariant done ==> k <= m && (k == m || wr <= b[k])
      invariant done ==> || (ti' < m && b[ti'] <= wr < b[ti' + 1])
                         || (ti' == m && wr == b[m])
      invariant total == SumR(k, r)
      decreases m - k, !done
    {
      var tRight := b[ti' + 1];
      total := SpreadTree(b, stat, d, r, wl, wr, ti', total);
      k := k + 1;
      if tRight <= wr {
        ti' := ti' + 1;
        done := tRight == wr;
        if !done {
          assert b[ti'] < b[m];
        }
      } else {
        done := true;
      }
    }
    TermsEnd(r, b, d, wl, wr, k);
  }

  /** Where the tree index stands after window [wl, wr) when another window
      follows: in the tree holding wr. */
  lemma NextWindow(b: seq<real>, wr: real, ti: nat)
    requires ValidWindows(b) && wr < b[|b| - 1]
    requires || (ti < |b| - 1 && b[ti] <= wr < b[ti + 1])
             || (ti == |b| - 1 && wr == b[|b| - 1])
    ensures ti < |b| - 1 && b[ti] <= wr < b[ti + 1]
  {
  }

  /** a holds the window totals of densities d: each window's integral of
      d, divided by the window's length when normalised. */
  ghost predicate WindowTotals(a: seq<real>, b: seq<real>, d: seq<real>, windows: seq<real>,
                               normalise: bool)
    requires |b| > 0 && |windows| > 0
  {
    && |a| == |windows| - 1
    && forall j :: 0 <= j < |a| ==>
         var total := Windowed(b, d, windows[j], windows[j + 1]);
         if normalise then PerLength(a[j], windows[j], windows[j + 1], total) else a[j] == total
  }

  /** Normalising the integrals divides each by its window's length. */
  lemma NormaliseTotals(a: seq<real>, a': seq<real>, b: seq<real>, d: seq<real>, windows: seq<real>)
    requires |b| > 0 && |windows| > 0
    requires WindowTotals(a, b, d, windows, false)
    requires |a'| == |a|
    requires forall j :: 0 <= j < |a| ==> PerLength(a'[j], windows[j], windows[j + 1], a[j])
    ensures WindowTotals(a', b, d, windows, true)
  {
  }

  /** Window j's entry of a result with the totals property. */
  lemma WindowTotalAt(a: seq<real>, b: seq<real>, d: seq<real>, windows: seq<real>,
                      normalise: bool, j: nat)
    requires |b| > 0 && |windows| > 0 && WindowTotals(a, b, d, windows, normalise) && j < |a|
    ensures normalise ==> PerLength(a[j], windows[j], windows[j + 1], Windowed(b, d, windows[j], windows[j + 1]))
    ensures !normalise ==> a[j] == Windowed(b, d, windows[j], windows[j + 1])
  {
  }

  /** Window totals are determined by the trees' values: two results with
      the same totals property are equal. */
  lemma WindowTotalsUnique(a: seq<real>, a': seq<real>, b: seq<real>, d: seq<real>,
                           windows: seq<real>, normalise: bool)
    requires |b| > 0 && ValidWindows(windows)
    requires WindowTotals(a, b, d, windows, normalise) && WindowTotals(a', b, d, windows, normalise)
    ensures a == a'
  {
    forall j | 0 <= j < |a|
      ensures a[j] == a'[j]
    {
      WindowTotalAt(a, b, d, windows, normalise, j);
      WindowTotalAt(a', b, d, windows, normalise, j);
      if normalise {
        assert windows[j] < windows[j + 1];
        CancelPositive(a[j], a'[j], windows[j], windows[j + 1], Windowed(b, d, windows[j], windows[j + 1]));
      }
    }
  }

  /** A value that is the same constant c on every tree has span-normalised
      window value c in every window. */
  lemma ConstantNormalised(a: seq<real>, b: seq<real>, v: seq<real>, c: real, windows: seq<real>)
    requires Spans(windows, b) && |v| == |b| - 1
    requires forall t :: 0 <= t < |v| ==> v[t] == c
    requires WindowTotals(a, b, v, windows, true)
    ensures forall j :: 0 <= j < |a| ==> a[j] == c
  {
    AllEqualOf(v, c);
    ConstantWindows(a, b, v, c, windows);
  }

  lemma ConstantWindows(a: seq<real>, b: seq<real>, v: seq<real>, c: real, windows: seq<real>)
    requires Spans(windows, b) && |v| == |b| - 1 && AllEqual(v, c)
    requires WindowTotals(a, b, v, windows, true)
    ensures forall j :: 0 <= j < |a| ==> a[j] == c
  {
    forall j | 0 <= j < |a|
      ensures a[j] == c
    {
      WindowInside(windows, b, j);
      WindowTotalAt(a, b, v, windows, true, j);
      ConstantEntry(a[j], b, v, c, windows[j], windows[j + 1]);
    }
  }

  /** Every window lies within the trees' span. */
  lemma WindowInside(windows: seq<real>, b: seq<real>, j: nat)
    requires Spans(windows, b) && j + 1 < |windows|
    ensures b[0] <= windows[j] < windows[j + 1] <= b[|b| - 1]
  {
    assert windows[0] <= windows[j] < windows[j + 1] <= windows[|windows| - 1];
  }

  /** A normalised window value x is c when the trees' value is c
      throughout. */
  lemma ConstantEntry(x: real, b: seq<real>, v: seq<real>, c: real, wl: real, wr: real)
    requires ValidWindows(b) && |v| == |b| - 1 && AllEqual(v, c)
    requires b[0] <= wl < wr <= b[|b| - 1]
    requires PerLength(x, wl, wr, Windowed(b, v, wl, wr))
    ensures x == c
  {
    ConstantWindowed(b, v, c, wl, wr);
    CancelPositive(x, c, wl, wr, Windowed(b, v, wl, wr));
  }

  /** The loops of windowed_tree_stat: for each window in turn, spread the
      trees it meets over it, resuming at the tree where the previous
      window ended. Window j receives the sum of its terms F(j). */
  method SpreadWindows(b: seq<real>, stat: seq<real>, ghost d: seq<real>,
                       ghost F: nat -> (nat -> real), windows: seq<real>) returns (a: seq<real>)
    requires Spans(windows, b) && |stat| == |b| - 1 && IsDensity(b, stat, d)
    requires FamilyOf(F, b, d, windows)
    ensures |a| == |windows| - 1
    ensures forall j :: 0 <= j < |a| ==> a[j] == SumR(|b| - 1, F(j))
  {
    var m := |b| - 1;
    var nw := |windows| - 1;
    a := seq(nw, _ => 0.0);
    var ti: nat := 0;
    var j := 0;
    while j < nw
      invariant 0 <= j <= nw && |a| == nw
      invariant j < nw ==> ti < m && b[ti] <= windows[j] < b[ti + 1]
      invariant forall k :: 0 <= k < j ==> a[k] == SumR(m, F(k))
    {
      assert windows[j + 1] <= windows[nw];
      var total;
      total, ti := SpreadWindow(b, stat, d, F(j), windows[j], windows[j + 1], ti);
      a := a[j := total];
      if j + 1 < nw {
        assert windows[j + 1] < windows[nw];
        NextWindow(b, windows[j + 1], ti);
      }
      j := j + 1;
    }
  }

  /** windowed_tree_stat: spread each tree's total over the windows it
      meets, in proportion to the overlap, optionally dividing each window's
      total by its length. Unnormalised, window j receives the integral of
      the trees' densities over it; normalised, that integral divided by the
      window's length. */
  method WindowedTreeStat(b: seq<real>, stat: seq<real>, windows: seq<real>, spanNormalise: bool)
      returns (a: seq<real>)
    requires Spans(windows, b) && |stat| == |b| - 1
    ensures WindowTotals(a, b, Densities(b, stat), windows, spanNormalise)
  {
    ghost var d := Densities(b, stat);
    ColumnsFamily(b, d, windows);
    a := SpreadWindows(b, stat, d, WindowColumns(b, d, windows), windows);
    FamilyTotals(a, WindowColumns(b, d, windows), b, d, windows);
    if spanNormalise {
      var a' := SpanNormalise(a, windows);
      NormaliseTotals(a, a', b, d, windows);
      a := a';
    }
  }

  /** Column k of a matrix given as rows. */
  function Column(m: seq<seq<real>>, k: nat): (c: seq<real>)
    requires forall j :: 0 <= j < |m| ==> k < |m[j]|
    ensures |c| == |m|
  {
    seq(|m|, j requires 0 <= j < |m| => m[j][k])
  }

  /** The matrix, given as rows, whose column k is cols[k]: per-window
      results of several quantities side by side. */
  function Transpose(cols: seq<seq<real>>, rows: nat): (r: seq<seq<real>>)
    requires forall k :: 0 <= k < |cols| ==> |cols[k]| == rows
    ensures |r| == rows && forall j :: 0 <= j < rows ==> |r[j]| == |cols|
    ensures forall k :: 0 <= k < |cols| ==> Column(r, k) == cols[k]
  {
    var r := seq(rows, j requires 0 <= j < rows => seq(|cols|, k requires 0 <= k < |cols| => cols[k][j]));
    assert forall k :: 0 <= k < |cols| ==> Column(r, k) == cols[k];
    r
  }
}
